=== FILE: README.md ===
# SweetSteps sign-in and helper logic in Dafny

This project models the decision logic of the SweetSteps web front end. SweetSteps is a React
application that signs users in with Internet Identity, routes them to onboarding or to their
weekly goal, and asks an AI proxy for a plan. Everything modelled is single-threaded and
branch-explicit, so each hook, page and helper becomes a pure function or a step function over an
explicit state record:

- **Sign-in machines.** These are the attempt guard, the 3000 ms stall detector, the 100 ms
  stabilisation timer, the 15 s initialisation gate, the per-phase post-auth timeouts, the
  canister warm-up machine, the step-timing diagnostics log and the status banner that renders it.
  The attempt-phase machines of the Login, Signup and SignupTest pages are modelled too.
- **Routing.** The post-sign-in routing is shared by the authorize-callback handler, the auth-page
  auto-redirect and the Onboarding page. One `Route` decision is defined, with a wrapper for each
  caller.
- **Identity predicates and classifiers.** These cover identity validity and staleness,
  return-evidence detection, Chrome-on-Android detection and the Internet Identity option
  records. They also cover the mobile login outcome classification and the login error texts.
- **Browser storage.** This covers per-principal display names and skip markers, the new-account
  session flag, the session reset, and the password-derived 32-byte seed with its storage.
- **Validators and formatters.** These are the AI-proxy response validators and error
  classification, `toSafeString`/`safeExtractString` and the daily-input source selection. The
  task-timer modal with its `mm:ss` formatter, the landing-page carousel and principal
  truncation belong here as well.

How the modelling works:

- Time is an integer millisecond clock.
- A timer is a deadline, and a `Clock` or `Tick` event fires it.
- A React effect is a function that runs when its dependency tuple changes.
- Where the order of effects matters, each effect is an event that may happen at any point. This
  covers every schedule React can produce.
- A user action on a control is possible only when that control is rendered. On the Onboarding
  page this means three things: the wizard shows rather than its loading screen, the control
  belongs to the current step, and its `disabled` prop is false.
- Browser storage is a `map<string, string>`. An `Area` flag says whether access throws.
- Foreign results are inputs or function parameters:
  - the Internet Identity client;
  - actor calls;
  - `fetch` and `JSON.parse`;
  - `JSON.stringify`;
  - delegation validity;
  - key generation.
- JavaScript semantics the code depends on are written out:
  - truthiness;
  - ASCII-only `toLowerCase` (the `i` regular-expression flag without `u`);
  - `includes`;
  - `trim`, with the ECMAScript white-space set;
  - `String(n)`;
  - `padStart`.

Some behaviour of the code is easy to misread:

- Stabilisation is one 100 ms timer, started when initialisation ends. Its length does not
  depend on return evidence.
- Return evidence is computed, but no modelled caller uses it.
- The stall detector has one 3000 ms budget for every step.
- Popup detection uses no blur or focus events.
- The attempt guard keeps only a flag and a start time. It has no correlation id and no
  force-reset.
- The canister warm-up's in-flight flag does not bound outstanding pings: a timed-out invocation
  drops the flag while its ping is still unanswered (`CanisterWarmup.TwoPingsAfterTimeout`).

## Model

| member | source | states |
|---|---|---|
| AttemptGuard.StartAttempt | src/frontend/src/hooks/useAuthAttemptGuard.ts:11-19 | a start is accepted exactly when no attempt is active; a refused start leaves flag and timestamp untouched, an accepted one sets the flag and records the clock |
| AttemptGuard.EndAttempt | src/frontend/src/hooks/useAuthAttemptGuard.ts:21-24 | ending always returns the guard to its fresh state (flag false, timestamp null), whether or not an attempt was active |
| AttemptGuard.RunKeepsInv | src/frontend/src/hooks/useAuthAttemptGuard.ts:8-28 | over any sequence of start/end calls the timestamp is non-null exactly while the flag is set |
| AttemptGuard.AtMostOneAcceptedWithoutEnd | src/frontend/src/hooks/useAuthAttemptGuard.ts:11-19 | between two ends at most one start is accepted, none if an attempt is already active, and the guard stays active |
| AttemptGuard.TimestampIsLastAcceptedStart | src/frontend/src/hooks/useAuthAttemptGuard.ts:17-28 | after an accepted start, later refused starts keep the timestamp at that start's clock |
| AttemptGuard.StartedStaysPut | src/frontend/src/hooks/useAuthAttemptGuard.ts:12-15 | while an attempt is active, any number of further starts change nothing |
| StalledAuth.Effect | src/frontend/src/hooks/useStalledAuthDetection.ts:19-38 | identity present, 'loginError' or 'success' hides help and arms nothing; a falsy timestamp hides help and arms nothing; otherwise one 3000 ms timer is armed capturing status and identity |
| StalledAuth.Rerender | src/frontend/src/hooks/useStalledAuthDetection.ts:40-41 | the effect re-runs, cancelling the pending timer, exactly when one of timestamp, status or identity changed |
| StalledAuth.Tick | src/frontend/src/hooks/useStalledAuthDetection.ts:33-38 | a timer fires only at its deadline and is then gone; help is shown afterwards exactly when it already was or the captured status was 'logging-in' with no identity |
| StalledAuth.StepKeepsInv | src/frontend/src/hooks/useStalledAuthDetection.ts:19-41 | a pending timer always belongs to the current unresolved dependencies, and help is up only for an unresolved attempt with a timestamp |
| StalledAuth.RunKeepsInv | src/frontend/src/hooks/useStalledAuthDetection.ts:19-41 | the same invariant holds after any sequence of renders and clock ticks |
| StalledAuth.NoHelpWithIdentity | src/frontend/src/hooks/useStalledAuthDetection.ts:21-35 | after any history from mount, help is never shown while an identity is present |
| StalledAuth.HelpSurvivesNonTerminalChange | src/frontend/src/hooks/useStalledAuthDetection.ts:19-40 | a change to another unresolved status with the attempt still timestamped keeps help that is already shown |
| StalledAuth.StallShownAfterTimeout | src/frontend/src/hooks/useStalledAuthDetection.ts:5-38 | an attempt stuck in 'logging-in' shows help at exactly 3000 ms and not a millisecond earlier |
| AuthStabilization.Effect | src/frontend/src/hooks/useAuthStabilization.ts:14-27 | while initialising the signal is reset and nothing is armed; otherwise a single 100 ms timer is armed |
| AuthStabilization.Rerender | src/frontend/src/hooks/useAuthStabilization.ts:28 | only a change of `isInitializing` re-runs the effect; other renders only update the identity |
| AuthStabilization.Tick | src/frontend/src/hooks/useAuthStabilization.ts:23-25 | a due timer sets the signal and clears itself; otherwise nothing changes |
| AuthStabilization.View | src/frontend/src/hooks/useAuthStabilization.ts:30-35 | the hook returns exactly the four fields, with `isAuthenticated` meaning identity presence |
| AuthStabilization.RunKeepsInv | src/frontend/src/hooks/useAuthStabilization.ts:14-28 | never stabilised while initialising, and a pending timer means not yet stabilised, after any history |
| AuthStabilization.NotStabilizedWhileInitializing | src/frontend/src/hooks/useAuthStabilization.ts:15-18 | from mount and any history, an initialising hook reports `isAuthStabilized` false |
| AuthStabilization.StabilizesAfterWindow | src/frontend/src/hooks/useAuthStabilization.ts:23-27 | when initialisation completes at t, the signal is still false at t+99 and true at t+100 |
| AuthStabilization.IdentityChangeIsInert | src/frontend/src/hooks/useAuthStabilization.ts:28-31 | an identity change alone neither re-arms the timer nor touches stabilisation |
| Identity.IsIdentityValid | src/frontend/src/utils/identityValidation.ts:8-21 | absent or anonymous identities are invalid; a delegation identity is valid iff its delegation is; any other named identity is valid |
| Identity.IsSessionStale | src/frontend/src/utils/identityValidation.ts:27-32 | an absent identity is not stale; stale implies present and invalid |
| Identity.ValidityTrichotomy | src/frontend/src/utils/identityValidation.ts:8-32 | every identity is absent, valid or stale, never both valid and stale, and for a present one stale is exactly not valid |
| Identity.ValidImpliesNamed | src/frontend/src/utils/identityValidation.ts:9-12 | a valid identity is present and non-anonymous |
| AuthStatusBanner.FormatElapsed | src/frontend/src/components/auth/AuthStatusBanner.tsx:37-41 | no timing shows as '0s', under a second as the integer followed by 'ms', and a second or more as seconds to one decimal |
| AuthStatusBanner.SuggestedAction | src/frontend/src/components/auth/AuthStatusBanner.tsx:51-62 | a stall always gives the blocked-window advice; an error gives its message when that is truthy; otherwise a slow step gives '<label> is taking longer than expected'; there is no advice exactly when none of these holds |
| AuthStatusBanner.Render | src/frontend/src/components/auth/AuthStatusBanner.tsx:18-117 | the banner shows exactly when the step is not idle and the correlation id is truthy; it is destructive exactly for error or stall; the live counter shows only before a terminal outcome and the total only after; Retry shows only for error or stall with a handler |
| AuthStatusBanner.ElapsedShownOnce | src/frontend/src/components/auth/AuthStatusBanner.tsx:73-84 | the live counter and the total are never shown together |
| AuthStatusBanner.HiddenWhenIdleShownWhenStarted | src/frontend/src/components/auth/AuthStatusBanner.tsx:22-24 | the banner is hidden after a reset and shown, calm and without Retry, for every attempt just started |
| AuthStatusBanner.SuccessIsCalm | src/frontend/src/components/auth/AuthStatusBanner.tsx:34-91 | a successful completion is drawn in the default style and never offers Retry |
| PostAuthTimeout.Budget | src/frontend/src/hooks/usePostAuthTimeout.ts:17-63 | an explicit budget, even zero, is used as given; only an absent one falls back to the phase default, which is at least 10 s and 15 s exactly for actor-ready |
| PostAuthTimeout.Delay | src/frontend/src/hooks/usePostAuthTimeout.ts:74-77 | the timer waits the budget when it is non-negative and fires at once when it is negative |
| PostAuthTimeout.Reset | src/frontend/src/hooks/usePostAuthTimeout.ts:38-52 | a reset lowers the flag, zeroes the elapsed time, forgets the start and cancels the timer, and never calls the callback |
| PostAuthTimeout.Effect | src/frontend/src/hooks/usePostAuthTimeout.ts:54-87 | every run starts from a reset; with no phase nothing is armed, with a phase exactly one timer is armed at the clock plus the budget |
| PostAuthTimeout.Render | src/frontend/src/hooks/usePostAuthTimeout.ts:54-87 | a render with unchanged dependencies changes nothing; a changed dependency lowers the flag and zeroes the elapsed time before anything else, without calling the callback |
| PostAuthTimeout.Tick | src/frontend/src/hooks/usePostAuthTimeout.ts:74-77 | a due timer raises the flag and calls the callback once; otherwise nothing changes |
| PostAuthTimeout.RunKeepsInv | src/frontend/src/hooks/usePostAuthTimeout.ts:38-87 | after any renders, ticks and resets, a pending timer belongs to a present phase, the flag is only up for a present phase, and callbacks never outnumber armed timers |
| PostAuthTimeout.OneCallPerTimer | src/frontend/src/hooks/usePostAuthTimeout.ts:74-77 | from mount, the callback runs no more often than timers were armed |
| PostAuthTimeout.NoPhaseNeverTimesOut | src/frontend/src/hooks/usePostAuthTimeout.ts:59-61 | with no phase no clock reading ever times out |
| PostAuthTimeout.DefaultBudgetElapses | src/frontend/src/hooks/usePostAuthTimeout.ts:63-77 | with the default budget the flag is down one millisecond before the budget and up at it |
| PostAuthTimeout.ManualResetDisarms | src/frontend/src/hooks/usePostAuthTimeout.ts:38-87 | after a manual reset nothing times out until a dependency changes |
| CanisterWarmup.Warmup | src/frontend/src/hooks/useCanisterWarmup.ts:29-54 | with no actor, or with a ping already in flight, nothing happens; otherwise a new invocation id is taken, the state becomes warming, and the ping and a 30 s timer for that id are outstanding |
| CanisterWarmup.PingSettled | src/frontend/src/hooks/useCanisterWarmup.ts:56-73 | when a ping settles, its timer is cleared and the in-flight flag drops; the state is ready exactly when the ping returned exactly true, failed otherwise |
| CanisterWarmup.TimerFires | src/frontend/src/hooks/useCanisterWarmup.ts:48-54 | a due timer fails the hook and drops the flag only while a ping is in flight; otherwise it only disappears |
| CanisterWarmup.Retry | src/frontend/src/hooks/useCanisterWarmup.ts:76-81 | a retry goes back to idle and schedules one warmup, leaving in-flight pings and timers alone |
| CanisterWarmup.RunScheduled | src/frontend/src/hooks/useCanisterWarmup.ts:80 | a scheduled retry consumes itself and starts an invocation only when an actor exists and no ping is in flight |
| CanisterWarmup.AutoStart | src/frontend/src/hooks/useCanisterWarmup.ts:84-90 | auto-start acts only when enabled, with an actor, not yet attempted and idle; then it marks the attempt |
| CanisterWarmup.RunKeepsInv | src/frontend/src/hooks/useCanisterWarmup.ts:20-90 | after any calls, settlements and timer firings, ids come from the counter, a live timer belongs to an unsettled ping, the flag means the newest ping is unsettled, and auto-start has fired at most once |
| CanisterWarmup.AutoStartAtMostOnce | src/frontend/src/hooks/useCanisterWarmup.ts:20-90 | auto-start fires at most once per hook instance, whatever happens |
| CanisterWarmup.InFlightBlocksWarmup | src/frontend/src/hooks/useCanisterWarmup.ts:35-39 | while a ping is in flight, further warmups start nothing |
| CanisterWarmup.RetryRestartsWarmup | src/frontend/src/hooks/useCanisterWarmup.ts:76-81 | a retry with no ping in flight starts a fresh invocation when its timer runs |
| CanisterWarmup.TwoPingsAfterTimeout | src/frontend/src/hooks/useCanisterWarmup.ts:36-54 | the in-flight guard does not bound outstanding pings: after the first invocation times out, a second ping starts while the first is unanswered |
| CanisterWarmup.LateSuccessOverwritesFailure | src/frontend/src/hooks/useCanisterWarmup.ts:51-62 | a ping that answers true after its timeout still turns failed into ready |
| CanisterWarmup.StalePingClearsNewerGuard | src/frontend/src/hooks/useCanisterWarmup.ts:71-73 | a stale ping settling clears the in-flight flag of the newer invocation still outstanding |
| MobileLogin.InitOutcome | src/frontend/src/hooks/useMobileInternetIdentityLogin.ts:25-38 | a created client makes the hook ready with no error; a failed creation leaves it unready with the fixed initialisation error |
| MobileLogin.RecordedError | src/frontend/src/hooks/useMobileInternetIdentityLogin.ts:65-68 | if onError never fired there is no recorded error; if it fired, the recorded error is non-empty and is its argument when that argument is truthy |
| MobileLogin.ClassifyReported | src/frontend/src/hooks/useMobileInternetIdentityLogin.ts:77-97 | a reported error counts as blocked exactly when it mentions 'popup' or 'blocked' in any case, and as cancelled exactly when it mentions 'cancel' or 'interrupt' but not the former; never both; otherwise the error passes through |
| MobileLogin.ClassifyThrown | src/frontend/src/hooks/useMobileInternetIdentityLogin.ts:104-121 | a throw is never a cancellation; it is blocked exactly when its message (or 'Unknown error' for a non-Error) mentions popup or blocked, and otherwise that message is the error |
| MobileLogin.ClassifyRun | src/frontend/src/hooks/useMobileInternetIdentityLogin.ts:53-121 | success exactly when the client is authenticated and has an identity; a failure with no onError says the login did not complete; otherwise the recorded error is classified |
| MobileLogin.Login | src/frontend/src/hooks/useMobileInternetIdentityLogin.ts:45-122 | without a ready client the login fails with the not-ready message and the client is never called |
| MobileLogin.LoginPatched | src/frontend/src/hooks/useMobileInternetIdentityLoginPatched.ts:51-128 | the patched login fails with the not-ready message without a ready client, and a failure loading the shared options is classified like a throw from the login call |
| MobileLogin.PatchedAgreesWhenOptionsLoad | src/frontend/src/hooks/useMobileInternetIdentityLoginPatched.ts:59-67 | when the shared options load, the patched hook reports the same outcome as the original |
| MobileLogin.SuccessBeatsReportedError | src/frontend/src/hooks/useMobileInternetIdentityLogin.ts:75-77 | an authenticated client with an identity is a success even if onError fired first |
| MobileLogin.BlockingCheckedFirst | src/frontend/src/hooks/useMobileInternetIdentityLogin.ts:80-93 | a message mentioning both a popup and a cancellation counts as blocked, not cancelled |
| MobileLogin.ThrownCancelIsNotCancelled | src/frontend/src/hooks/useMobileInternetIdentityLogin.ts:104-121 | a thrown cancellation is not recognised as one: its message is passed through |
| MobileLogin.FailuresExplainThemselves | src/frontend/src/hooks/useMobileInternetIdentityLoginPatched.ts:51-128 | every failure carries an error text, a success carries none, and no result is both blocked and cancelled |
| PasswordIdentity.EncodeChar | src/frontend/src/utils/passwordIdentity.ts:13-14 | each character encodes to one to four UTF-8 bytes, and to the single byte of its code exactly when it is ASCII |
| PasswordIdentity.Encode | src/frontend/src/utils/passwordIdentity.ts:13-14 | the encoding of a string has at least one byte per character |
| PasswordIdentity.SeedOf | src/frontend/src/utils/passwordIdentity.ts:16-20 | the seed has 32 bytes, and byte i is the data byte at i modulo the data length XOR 7 i |
| PasswordIdentity.DeriveSeed | src/frontend/src/utils/passwordIdentity.ts:9-20 | the filling loop produces exactly the 32-byte seed of the UTF-8 encoding of the username with ASCII letters lower-cased, a colon and the password |
| PasswordIdentity.DataNeverEmpty | src/frontend/src/utils/passwordIdentity.ts:12-19 | the colon guarantees at least one data byte, so the modulo in the loop never divides by zero |
| PasswordIdentity.Unmix | src/frontend/src/utils/passwordIdentity.ts:19 | undoing the mixing keeps the 32-byte length |
| PasswordIdentity.UnmixRecoversPrefix | src/frontend/src/utils/passwordIdentity.ts:16-20 | for data of at least 32 bytes, undoing the mixing recovers exactly its first 32 bytes |
| PasswordIdentity.OnlyFirst32BytesMatter | src/frontend/src/utils/passwordIdentity.ts:16-20 | encodings of 32 bytes or more that agree on their first 32 bytes give the same seed |
| PasswordIdentity.UsernameCaseIgnored | src/frontend/src/utils/passwordIdentity.ts:12 | usernames that differ only in ASCII case derive the same seed |
| PasswordIdentity.PasswordCaseMatters | src/frontend/src/utils/passwordIdentity.ts:12 | the password is case-sensitive: 'a' and 'A' give different seeds |
| PasswordIdentity.StoreIdentity | src/frontend/src/utils/passwordIdentity.ts:28-35 | with storage available the serialised key is stored under its key; a storage failure changes nothing; other keys are untouched |
| PasswordIdentity.RestoreIdentity | src/frontend/src/utils/passwordIdentity.ts:40-51 | an absent or empty stored value, or unavailable storage, gives null; otherwise the result is the decoding of the stored text |
| PasswordIdentity.ClearStoredIdentity | src/frontend/src/utils/passwordIdentity.ts:56-62 | the key is gone when storage is available, and other keys are untouched |
| PasswordIdentity.StoreThenRestore | src/frontend/src/utils/passwordIdentity.ts:28-51 | what was stored is what is restored |
| PasswordIdentity.ClearThenRestoreNothing | src/frontend/src/utils/passwordIdentity.ts:40-62 | after clearing, nothing is restored |
| JsValue.Field | src/frontend/src/utils/safeRender.ts:65 | reading a field of an object gives its own value or undefined, an in-range index of an array gives that element, and only objects, arrays and strings can yield a string |
| JsValue.ValidStringIffNotBlank | src/frontend/src/utils/safeRender.ts:49-51 | a value is a valid string exactly when it is a string that is not all white space |
| SafeRender.JoinLines | src/frontend/src/utils/safeRender.ts:24 | joining no parts gives the empty text and joining one part gives that part |
| SafeRender.ToSafeString | src/frontend/src/utils/safeRender.ts:9-37 | null and undefined give the empty text, a string gives itself, and an object that cannot be stringified gives '[Complex Object]' |
| SafeRender.SafeParts | src/frontend/src/utils/safeRender.ts:24 | the mapped and filtered parts are all non-empty and no more numerous than the elements |
| SafeRender.EmptyArrayTextIff | src/frontend/src/utils/safeRender.ts:24 | no parts survive the filter exactly when every element converts to the empty text |
| SafeRender.JoinEmptyIff | src/frontend/src/utils/safeRender.ts:24 | joining non-empty parts gives the empty text exactly when there are none |
| SafeRender.ArrayTextEmptyIff | src/frontend/src/utils/safeRender.ts:22-25 | an array converts to the empty text exactly when each of its elements does |
| SafeRender.SingletonArray | src/frontend/src/utils/safeRender.ts:22-25 | a one-element array converts like its element |
| SafeRender.NestedArrayFlattens | src/frontend/src/utils/safeRender.ts:22-25 | wrapping an array in another array does not change its text |
| SafeRender.SafeExtractString | src/frontend/src/utils/safeRender.ts:56-67 | a falsy or non-object value gives the fallback; otherwise the field's value when it is a valid string, else the fallback; the result is the fallback or has non-blank content |
| SafeRender.SafeExtractStringOrEmpty | src/frontend/src/utils/safeRender.ts:56-60 | with the default fallback the result is empty or has non-blank content |
| SafeRender.ExtractStored | src/frontend/src/utils/safeRender.ts:56-67 | a non-blank string stored under a field of an object is extracted back unchanged |
| SafeRender.BlankFieldFallsBack | src/frontend/src/utils/safeRender.ts:49-66 | a white-space-only field gives the fallback |
| AIProxy.ValidateWeeklyMountain | src/frontend/src/lib/aiProxyClient.ts:74-98 | a falsy or non-object value is rejected as malformed; otherwise it is accepted exactly when name, weeklyTarget and note are all non-blank strings, and rejected as incomplete when not; an accepted mountain carries those three strings untrimmed |
| AIProxy.ValidateOnboardingPlan | src/frontend/src/lib/aiProxyClient.ts:100-126 | a falsy or non-object value is rejected as malformed, a blank bigGoal or dailyStep as incomplete, and otherwise the nested mountain's verdict decides; every accepted plan is valid |
| AIProxy.MountainRoundTrip | src/frontend/src/lib/aiProxyClient.ts:74-98 | a well-formed mountain object validates to exactly that mountain |
| AIProxy.PlanRoundTrip | src/frontend/src/lib/aiProxyClient.ts:100-126 | a well-formed plan object validates to exactly that plan |
| AIProxy.PlanValidationIsExact | src/frontend/src/lib/aiProxyClient.ts:100-126 | any plan the validator returns is valid and is reproduced by validating its own object form |
| AIProxy.ClassifyRejection | src/frontend/src/lib/aiProxyClient.ts:193-214 | an Error rejection is a network error exactly when its name is TypeError or its message mentions 'fetch', and otherwise gets the unexpected-error text; it is never a parse error; a non-Error rejection escapes the handler |
| AIProxy.FetchJson | src/frontend/src/lib/aiProxyClient.ts:144-192 | a non-2xx status gives the cold-start text for 502, 503 and 504 and the unavailable text otherwise; a 2xx body that does not parse is a parse error; only a parsed 2xx body succeeds, and it is returned as it is |
| AIProxy.GenerateOnboardingPlan | src/frontend/src/lib/aiProxyClient.ts:225-241 | an exchange failure passes through unchanged; after a successful exchange the result is exactly the validator's verdict on the body, its error wrapped as a proxy error |
| AIProxy.GenerateWeeklyMountain | src/frontend/src/lib/aiProxyClient.ts:247-259 | an exchange failure passes through unchanged; after a successful exchange the result is exactly the validator's verdict on the body, its error wrapped as a proxy error |
| AIProxy.PlanResponseRoundTrip | src/frontend/src/lib/aiProxyClient.ts:225-241 | a 2xx response carrying a well-formed plan yields exactly that plan, for every status in 200..299 |
| AIProxy.MountainResponseRoundTrip | src/frontend/src/lib/aiProxyClient.ts:247-259 | a 2xx response carrying a well-formed mountain yields exactly that mountain |
| AIProxy.PlanSucceedsIff | src/frontend/src/lib/aiProxyClient.ts:225-241 | a plan is returned exactly when a 2xx response parsed and its body validated to that plan |
| AIProxy.MountainSucceedsIff | src/frontend/src/lib/aiProxyClient.ts:247-259 | a mountain is returned exactly when a 2xx response parsed and its body validated to that mountain |
| AIProxy.GenerateDailySteps | src/frontend/src/lib/aiProxyClient.ts:266-279 | any parsed 2xx body is returned unchecked, and the call fails exactly when the exchange does |
| AIProxy.StatusErrorsCarryNoFlags | src/frontend/src/lib/aiProxyClient.ts:158-174 | a status error never claims a network or parse problem |
| AIProxy.DailyStepsUnchecked | src/frontend/src/lib/aiProxyClient.ts:236-278 | a null body is returned by the daily-steps call but rejected by the two validated calls |
| DailyInputs.DeriveDailyInputs | src/frontend/src/utils/dailyInputs.ts:27-77 | success exactly when inputs are present; onboarding values win when the goal is truthy and a mountain exists; otherwise the cache is the source exactly when the backend goal is truthy, the cache entry is truthy, parses, and has three string fields, and then it supplies the parsed object; every failure is the bare 'none' result |
| DailyInputs.SucceedsIffSomeSource | src/frontend/src/utils/dailyInputs.ts:27-77 | inputs are found exactly when onboarding has a truthy goal and a mountain or the cache is usable; otherwise the result is the bare 'none' failure |
| DailyInputs.ReadsOnlyCacheKey | src/frontend/src/utils/dailyInputs.ts:46 | only the weekly-mountain cache key is read: stores that agree on it give the same result |
| DailyInputs.CacheAcceptsWhatValidatorRejects | src/frontend/src/utils/dailyInputs.ts:51-56 | a cached mountain with empty fields is used, although the AI response validator would reject the same object |
| TaskModal.ClampMinutes | src/frontend/src/components/TaskModal.tsx:35-74 | the selection always lies in 5..60, an estimate already in range is kept, and one outside is pulled to the nearer end |
| TaskModal.ResetTimer | src/frontend/src/components/TaskModal.tsx:67-75 | a reset goes back to idle with no time left and the clamped estimate selected, without calling the parent |
| TaskModal.Props | src/frontend/src/components/TaskModal.tsx:26-37 | unchanged props change nothing; opening or a new estimate while open re-selects the clamped estimate and leaves the countdown alone; closing resets; a new estimate while closed is only remembered |
| TaskModal.Mount | src/frontend/src/components/TaskModal.tsx:20-37 | the first render is idle with no time left, no calls, and the clamped estimate selected |
| TaskModal.Start | src/frontend/src/components/TaskModal.tsx:77-80 | starting runs the countdown from the selected minutes times sixty |
| TaskModal.Tick | src/frontend/src/components/TaskModal.tsx:42-51 | each interval callback removes one second, and the last second finishes the countdown at zero |
| TaskModal.Step | src/frontend/src/components/TaskModal.tsx:115-240 | an event whose control is not on screen, or a tick without a running interval, changes nothing |
| TaskModal.MountInv | src/frontend/src/components/TaskModal.tsx:20-37 | the first render satisfies the modal invariant |
| TaskModal.RunKeepsInv | src/frontend/src/components/TaskModal.tsx:26-107 | after any sequence of events the selection stays in 5..60, and time is left exactly while the countdown is running or paused |
| TaskModal.SamePropsKeepSelection | src/frontend/src/components/TaskModal.tsx:33-163 | a parent re-render with the same props keeps the minutes the user picked on the slider |
| TaskModal.PauseResumeKeepTime | src/frontend/src/components/TaskModal.tsx:82-88 | pausing then resuming gives back exactly the running modal |
| TaskModal.CountdownLength | src/frontend/src/components/TaskModal.tsx:40-65 | a countdown with k + 1 seconds left is still running after k ticks and finishes on the next |
| TaskModal.Seconds | src/frontend/src/components/TaskModal.tsx:42-51 | k interval callbacks in a row |
| TaskModal.YesCompletesThenCloses | src/frontend/src/components/TaskModal.tsx:94-98 | 'Yes' reports completion, then asks the parent to close, and changes nothing else |
| TaskModal.Pad2 | src/frontend/src/components/TaskModal.tsx:112 | padding never truncates: a short numeral gets leading zeros up to two characters and keeps its digits |
| TaskModal.Field | src/frontend/src/components/TaskModal.tsx:112 | each padded field is all digits, at least two long, and exactly two long for values below 100 |
| TaskModal.FieldValue | src/frontend/src/components/TaskModal.tsx:112 | a padded field reads back as the number it shows: the leading zero adds nothing |
| TaskModal.FormatTime | src/frontend/src/components/TaskModal.tsx:109-113 | the time reads as at least two digits, a colon, and exactly two digits |
| TaskModal.FormatTimeRoundTrip | src/frontend/src/components/TaskModal.tsx:109-113 | the formatted time reads back as the same number of seconds |
| TaskModal.HourShowsSixtyMinutes | src/frontend/src/components/TaskModal.tsx:109-113 | an hour-long countdown shows '60:00' |
| Landing.Next | src/frontend/src/pages/Landing.tsx:33-37 | next moves one card forward except on the last card, where it does nothing |
| Landing.Prev | src/frontend/src/pages/Landing.tsx:39-43 | previous moves one card back except on the first card, where it does nothing |
| Landing.Close | src/frontend/src/pages/Landing.tsx:45-48 | closing hides the modal and rewinds to the first card |
| Landing.KeyDown | src/frontend/src/pages/Landing.tsx:51-66 | keys act only while the modal is open: Escape closes, the right arrow goes forward, the left arrow back, and other keys do nothing |
| Landing.PlacementOf | src/frontend/src/pages/Landing.tsx:173-179 | a card is on show exactly at the current index, off to the left exactly before it and off to the right exactly after it |
| Landing.Indicator | src/frontend/src/pages/Landing.tsx:210-212 | the indicator reads 'k of 3' with a one-based card number that parses back to the index plus one |
| Landing.StepKeepsInv | src/frontend/src/pages/Landing.tsx:33-217 | every click or key keeps the index on one of the three cards and a closed modal on the first |
| Landing.RunKeepsInv | src/frontend/src/pages/Landing.tsx:33-217 | the same after any sequence of clicks and key presses |
| Landing.ExactlyOneCardShown | src/frontend/src/pages/Landing.tsx:173-179 | after any history exactly one of the three cards is on show |
| Landing.NextPrevRoundTrip | src/frontend/src/pages/Landing.tsx:33-43 | next then previous returns to the card away from the last card, and previous then next away from the first |
| Landing.ArrowRightSaturates | src/frontend/src/pages/Landing.tsx:33-58 | k right-arrow presses move k cards forward but never past the last card |
| Landing.KeysIgnoredWhileClosed | src/frontend/src/pages/Landing.tsx:51-53 | with the modal closed no key changes anything |
| Landing.ReopenStartsAtFirstCard | src/frontend/src/pages/Landing.tsx:45-117 | Escape then reopening starts again from the first card |
| IIReturnDetection.HasIIReturnEvidence | src/frontend/src/utils/iiReturnDetection.ts:16-32 | a non-empty hash containing 'authorize=' is evidence; otherwise evidence holds exactly when the session flag is the string 'true'; no evidence means neither signal is present |
| IIReturnDetection.GetIIReturnEvidenceReason | src/frontend/src/utils/iiReturnDetection.ts:38-50 | a reason is returned iff evidence is detected, and the hash reason takes priority over the session-flag reason |
| IIReturnDetection.OnlyExactTrueCounts | src/frontend/src/utils/iiReturnDetection.ts:26 | without a callback hash, any flag value other than exactly 'true', or no flag at all, is not evidence |
| IIReturnDetection.CallbackHashIsEvidence | src/frontend/src/utils/iiReturnDetection.ts:19-42 | a hash such as '#authorize=abc' yields the hash reason whatever the session flag holds |
| IIConfig.Origin | src/frontend/src/auth/iiConfig.ts:23-46 | the derivation origin is spread in only when it is truthy, and then unchanged |
| IIConfig.GetAuthClientCreateOptions | src/frontend/src/auth/iiConfig.ts:15-29 | both idle switches are disabled, and the login options exist exactly for a truthy derivation origin, carrying it |
| IIConfig.GetLoginOptions | src/frontend/src/auth/iiConfig.ts:35-48 | the identity provider is a truthy II_URL or else 'https://identity.ic0.app'; the lifetime is 2 592 000 000 000 000 ns; the origin is present exactly when truthy |
| IIConfig.MaxTimeToLiveIsThirtyDays | src/frontend/src/auth/iiConfig.ts:9-43 | one hour of nanoseconds times 24*30 is thirty days of nanoseconds |
| IIConfig.OriginsAgree | src/frontend/src/auth/iiConfig.ts:23-46 | the creation options and the login options carry the same derivation origin, or both lack one |
| Platform.DetectPlatform | src/frontend/src/utils/platform.ts:16-36 | a missing user agent or platform becomes ''; Chrome-on-Android means the agent mentions android and chrome (ASCII case-insensitively) and none of edg, samsungbrowser, opr |
| Platform.GetPlatformInfo | src/frontend/src/utils/platform.ts:41-55 | the first call detects and fills the cache; a filled cache is returned unchanged |
| Platform.IsChromeAndroid | src/frontend/src/utils/platform.ts:43-48 | the answer is the flag of the cached record, filling the cache first if empty |
| Platform.EntryPointsAgree | src/frontend/src/utils/platform.ts:43-55 | both entry points leave the same cache and report the same flag |
| Platform.CacheIsSticky | src/frontend/src/utils/platform.ts:41-55 | after the first call, later calls answer from the cache whatever the navigator says |
| Platform.MissingUserAgentIsNotChromeAndroid | src/frontend/src/utils/platform.ts:17-29 | a missing user agent is never Chrome on Android |
| SessionFlags.SetNewAccountFlag | src/frontend/src/utils/sessionFlags.ts:12-18 | with storage available the flag key holds 'true' afterwards; a failing storage area is left as it was |
| SessionFlags.HasNewAccountFlag | src/frontend/src/utils/sessionFlags.ts:23-30 | true exactly when storage is available and the flag key holds exactly 'true' |
| SessionFlags.ClearNewAccountFlag | src/frontend/src/utils/sessionFlags.ts:35-41 | with storage available the flag key is gone afterwards; a failing storage area is left as it was |
| SessionFlags.SetThenHas | src/frontend/src/utils/sessionFlags.ts:12-30 | a set followed by a read answers true exactly when storage is available |
| SessionFlags.ClearThenNotHas | src/frontend/src/utils/sessionFlags.ts:23-41 | a clear followed by a read always answers false |
| SessionFlags.OnlyFlagKeyTouched | src/frontend/src/utils/sessionFlags.ts:14-37 | set and clear change no key but the flag's own |
| SessionReset.ClearSweetStepsSession | src/frontend/src/utils/sessionReset.ts:8-28 | the onboarding result, weekly-mountain cache and sweet-summit-seen keys are gone, every other key keeps its value, and no key is added |
| SessionReset.ResetIsIdempotent | src/frontend/src/utils/sessionReset.ts:15-28 | resetting twice equals resetting once |
| SessionReset.ResetKeepsOtherState | src/frontend/src/utils/sessionReset.ts:19-25 | the daily-input cache key 'sweetsteps_weekly_mountain' and every principal's display-name and skip keys survive a reset |
| SessionReset.ResetSkipsSweetSummit | src/frontend/src/utils/sessionReset.ts:25 | after a reset, a user with a profile is routed to the weekly mountain rather than the sweet summit |
| LocalDisplayName.GetDisplayName | src/frontend/src/hooks/useLocalDisplayName.ts:8-16 | the stored value under the principal's name key, or null when storage fails |
| LocalDisplayName.SetDisplayName | src/frontend/src/hooks/useLocalDisplayName.ts:18-30 | a blank name throws 'Display name cannot be empty'; otherwise a failing storage throws; otherwise the trimmed, non-empty name is stored under the principal's key |
| LocalDisplayName.HasSkipped | src/frontend/src/hooks/useLocalDisplayName.ts:32-40 | true exactly when storage is available and the skip key holds exactly 'true' |
| LocalDisplayName.SetSkipped | src/frontend/src/hooks/useLocalDisplayName.ts:42-49 | the skip key holds 'true' afterwards; a failing storage is left as it was |
| LocalDisplayName.ClearDisplayName | src/frontend/src/hooks/useLocalDisplayName.ts:51-60 | both of the principal's keys are removed and nothing else; a failing storage is left as it was |
| LocalDisplayName.KeysAreInjective | src/frontend/src/hooks/useLocalDisplayName.ts:1-34 | different principals never share a name key or a skip key |
| LocalDisplayName.NameAndSkipKeysNeverCollide | src/frontend/src/hooks/useLocalDisplayName.ts:1-2 | no name key equals any skip key |
| LocalDisplayName.SaveThenGet | src/frontend/src/hooks/useLocalDisplayName.ts:8-30 | a successful save reads back trimmed, and leaves other principals' names and every skip marker unchanged |
| LocalDisplayName.SkipKeepsNames | src/frontend/src/hooks/useLocalDisplayName.ts:42-49 | skipping never changes any display name, and with storage available the skip reads back |
| LocalDisplayName.ClearRemovesOnlyOwnKeys | src/frontend/src/hooks/useLocalDisplayName.ts:51-60 | after a clear the name reads null and the skip reads false, and all other keys keep their values |
| LocalDisplayName.UnavailableReadsNothing | src/frontend/src/hooks/useLocalDisplayName.ts:12-39 | with storage failing, the name reads null and the skip reads false |
| DisplayNameGate.PromptEffect | src/frontend/src/components/auth/PostAuthDisplayNameGate.tsx:14-47 | no prompt while initialising, without an identity or for an anonymous principal; otherwise the prompt shows iff the new-account flag is set, no truthy name is stored and the principal has not skipped; a set flag that does not lead to a prompt is cleared, and nothing else is written |
| DisplayNameGate.HandleSave | src/frontend/src/components/auth/PostAuthDisplayNameGate.tsx:49-59 | without an identity nothing happens; an exception from storing the name escapes before any other effect; otherwise the prompt hides, the flag is cleared and the page goes to '/onboarding' |
| DisplayNameGate.HandleSkip | src/frontend/src/components/auth/PostAuthDisplayNameGate.tsx:61-71 | without an identity nothing happens; otherwise the skip marker is written, the prompt hides, the flag is cleared and the page goes to '/onboarding' |
| DisplayNameGate.NoPromptAfterSave | src/frontend/src/components/auth/PostAuthDisplayNameGate.tsx:37-59 | after a successful save, the effect never prompts that principal again |
| DisplayNameGate.NoPromptAfterSkip | src/frontend/src/components/auth/PostAuthDisplayNameGate.tsx:37-71 | after a skip, the effect never prompts that principal again, even when storage fails |
| DisplayNameGate.NoFlagNoPrompt | src/frontend/src/components/auth/PostAuthDisplayNameGate.tsx:31-46 | without the new-account flag the prompt never shows and the effect writes nothing |
| DisplayNameDialog.Save | src/frontend/src/components/auth/DisplayNamePromptDialog.tsx:29-38 | a blank name sets 'Please enter a display name' and calls nothing; otherwise the error clears and the parent receives the trimmed name; the field empties only if the parent's callback returns normally |
| DisplayNameDialog.Skip | src/frontend/src/components/auth/DisplayNamePromptDialog.tsx:40-44 | skipping empties the field and the error, then calls the parent's skip callback |
| DisplayNameDialog.KeyDown | src/frontend/src/components/auth/DisplayNamePromptDialog.tsx:46-51 | Enter behaves exactly like Save; any other key changes nothing |
| DisplayNameDialog.Change | src/frontend/src/components/auth/DisplayNamePromptDialog.tsx:72-75 | typing replaces the field and clears the error |
| DisplayNameDialog.DisabledIffSaveRefuses | src/frontend/src/components/auth/DisplayNamePromptDialog.tsx:31-94 | the Save button is disabled exactly when the handler would refuse to call the parent |
| DisplayNameDialog.SavedNameIsTrimmed | src/frontend/src/components/auth/DisplayNamePromptDialog.tsx:30-36 | the name handed to the parent is non-empty and already trimmed |
| IdentityCard.DisplayPrincipal | src/frontend/src/components/auth/IdentityConfirmationCard.tsx:28-31 | a principal of at most 20 characters is shown whole; a longer one becomes its first 10 characters, '...', and its last 6, 19 characters in all |
| IdentityCard.Render | src/frontend/src/components/auth/IdentityConfirmationCard.tsx:26-86 | the name block appears exactly for a truthy stored name, which also switches the label to 'Principal ID'; a shown name block is never empty; both buttons are disabled exactly while loading, when the continue label reads 'Checking...'; the principal shown is at most 20 characters |
| IdentityCard.DisplayIsIdempotent | src/frontend/src/components/auth/IdentityConfirmationCard.tsx:29-31 | a shortened principal is never shortened again |
| IdentityCard.LongPrincipalKeepsEnds | src/frontend/src/components/auth/IdentityConfirmationCard.tsx:30 | a long principal's first 10 and last 6 characters appear unchanged in the shown text |
| PostAuthRouting.Route | src/frontend/src/components/auth/InternetIdentityAuthorizeCallbackHandler.tsx:71-89 | a null profile goes to '/onboarding'; any other profile, undefined included, goes to '/sweet-summit' exactly when the summit flag is the string 'false', and to '/weekly-mountain' otherwise |
| CallbackHandler.Effect | src/frontend/src/components/auth/InternetIdentityAuthorizeCallbackHandler.tsx:28-91 | a handled handler does nothing; an unhandled run always consumes the hash secret; it commits exactly when the secret is truthy, the session flag is 'true', auth has settled and a non-anonymous identity is authenticated; it navigates once, to the shared route, only if it commits with the profile query settled |
| CallbackHandler.RunKeepsInv | src/frontend/src/components/auth/InternetIdentityAuthorizeCallbackHandler.tsx:26-62 | at most one navigation is ever made, and only after the handler is marked handled |
| CallbackHandler.AtMostOneNavigation | src/frontend/src/components/auth/InternetIdentityAuthorizeCallbackHandler.tsx:26-30 | from mount, any sequence of renders and hash changes navigates at most once |
| CallbackHandler.HandledIsFinal | src/frontend/src/components/auth/InternetIdentityAuthorizeCallbackHandler.tsx:30 | once handled, no later event changes the navigations |
| CallbackHandler.LoadingProfileNeverRoutes | src/frontend/src/components/auth/InternetIdentityAuthorizeCallbackHandler.tsx:62-68 | committing while the profile is still loading marks the handler handled first, so it never navigates afterwards |
| CallbackHandler.EarlyReturnConsumesMarker | src/frontend/src/components/auth/InternetIdentityAuthorizeCallbackHandler.tsx:33-51 | a run that stops because auth has not settled has consumed the secret, so the next run finds nothing to do |
| AuthPageAutoredirect.Destination | src/frontend/src/hooks/useAuthPageAutoredirect.ts:41-47 | a non-null profile goes to '/weekly-mountain' and a null one to '/onboarding'; this is the shared route with no summit flag |
| AuthPageAutoredirect.Effect | src/frontend/src/hooks/useAuthPageAutoredirect.ts:22-47 | nothing happens once redirected or before initialisation is over, the identity is valid, the actor is ready and the profile query has settled; then the flag is set and exactly one navigation is made |
| AuthPageAutoredirect.RunKeepsInv | src/frontend/src/hooks/useAuthPageAutoredirect.ts:20-39 | the once-flag is set exactly when the one navigation has been made |
| AuthPageAutoredirect.AtMostOneRedirect | src/frontend/src/hooks/useAuthPageAutoredirect.ts:20-61 | from mount at most one navigation, and `isRedirecting` is true exactly when it happened |
| AuthPageAutoredirect.AgreesWithSharedRouteExceptSummit | src/frontend/src/hooks/useAuthPageAutoredirect.ts:41-47 | the autoredirect and the callback handler choose different routes exactly for a user with a profile whose summit flag is 'false' |
| OnboardingPage.ProfileRedirect | src/frontend/src/pages/Onboarding.tsx:40-60 | nothing while the query is loading or unfetched or a submit runs; otherwise a present profile is routed to '/sweet-summit' exactly when the stored summit flag is 'false' and to '/weekly-mountain' otherwise, and a null profile stays put |
| OnboardingPage.SignupRedirect | src/frontend/src/pages/Onboarding.tsx:63-83 | the page goes to '/signup' exactly when auth is stable, the actor is not fetching and nobody is authenticated |
| OnboardingPage.Mount | src/frontend/src/pages/Onboarding.tsx:26-37 | a fresh page is on step 1, not submitting, with no error, no navigation, no stored result and no saved profile, and shows the loading screen because auth has not stabilised on the first render |
| OnboardingPage.Next | src/frontend/src/pages/Onboarding.tsx:85-90 | below step 3 the step advances by one and the error clears; on step 3 nothing changes |
| OnboardingPage.Back | src/frontend/src/pages/Onboarding.tsx:92-97 | above step 1 and not submitting the step goes back one and the error clears; otherwise nothing changes |
| OnboardingPage.SubmitStart | src/frontend/src/pages/Onboarding.tsx:99-106 | without an actor only the connection error is set; with one, submitting starts, the error clears, and the answers of the clicked render are the ones the submit goes on to use |
| OnboardingPage.SubmitErrorText | src/frontend/src/pages/Onboarding.tsx:143 | the shown error is never empty, and is the thrown Error's message whenever that is non-empty |
| OnboardingPage.SubmitFinish | src/frontend/src/pages/Onboarding.tsx:108-146 | submitting always ends; a failing plan shows its error and stores nothing; a generated plan is stored whole (big goal, weekly mountain and daily step) with the submitted answers in the onboarding context; if the save then succeeds the profile name is the plan's big goal, the summit flag becomes 'false' and the page goes to '/sweet-summit', changing nothing else; a failing save keeps the stored result and shows the save's error |
| OnboardingPage.AdvanceNeedsAnswer | src/frontend/src/pages/Onboarding.tsx:149-241 | the wizard moves forward only by Continue while the wizard shows, one step at a time from step 1 or 2, and only once that step's answer is not blank |
| OnboardingPage.StepStaysInRange | src/frontend/src/pages/Onboarding.tsx:26-97 | through any clicks and edits the wizard step stays between 1 and 3 |
| OnboardingPage.NoActorNeverSubmits | src/frontend/src/pages/Onboarding.tsx:100-103 | without an actor the submit never starts and shows the connection error |
| OnboardingPage.SubmitAndRedirectAgree | src/frontend/src/pages/Onboarding.tsx:40-139 | after a successful submit, the profile redirect sends the user to the same '/sweet-summit' once the refreshed profile arrives |
| OnboardingPage.SubmittingBlocksProfileRedirect | src/frontend/src/pages/Onboarding.tsx:41-105 | while a submit runs, the profile redirect does nothing whatever the query says |
| OnboardingPage.ShowsLoading | src/frontend/src/pages/Onboarding.tsx:149-159 | the wizard shows exactly when auth has stabilised, the actor is not fetching and the profile is not loading |
| OnboardingPage.SubmitNeedsTimeframe | src/frontend/src/pages/Onboarding.tsx:99-303 | a submit starts only from a Complete Setup click on step 3 with a timeframe chosen and an actor present, while the wizard shows and no submit runs, capturing the answers of that moment |
| OnboardingPage.LoadingBlocksControls | src/frontend/src/pages/Onboarding.tsx:149-159 | while the loading screen shows, no click or edit changes the page |
| OnboardingPage.EditsStayOnTheirStep | src/frontend/src/pages/Onboarding.tsx:179-279 | the goal input writes only the goal and only on step 1, the standing input only the standing on step 2, and the select only one of its four options on step 3 |
| OnboardingPage.StepKeepsInv | src/frontend/src/pages/Onboarding.tsx:85-146 | every event keeps the step in 1..3, the timeframe empty or a select option, and a running submit on step 3 with an option as its timeframe |
| OnboardingPage.RunKeepsInv | src/frontend/src/pages/Onboarding.tsx:26-305 | from mount, every sequence of renders, clicks, edits and settled submits keeps that invariant |
| AuthPages.ShouldClearStale | src/frontend/src/pages/Login.tsx:34-38 | `clear()` is called exactly for a present, invalid identity while the phase is idle |
| AuthPages.Validate | src/frontend/src/pages/Login.tsx:41-52 | an absent identity clears the validated flag; in 'idle' or 'validating' the flag becomes the identity's validity; in any other phase it is kept |
| AuthPages.Classify | src/frontend/src/pages/Login.tsx:157-182 | the lower-cased message falls into exactly one category, checked in order: already authenticated, cancelled (user interrupt or cancelled), network (network or fetch), timeout, other |
| AuthPages.ErrorMessage | src/frontend/src/pages/Login.tsx:157-184 | no error shows nothing; otherwise the text is chosen from the message, or `toString()` when the message is empty; an "already authenticated" error shows nothing |
| AuthPages.KindTextInjective | src/frontend/src/pages/Login.tsx:168-181 | within one page, two categories that show text never show the same text |
| AuthPages.FlowsDifferOnlyInWording | src/frontend/src/pages/Signup.tsx:102-127 | Login and Signup word an error identically except for the cancelled and timed-out cases |
| AuthPages.CancelBeatsTimeout | src/frontend/src/pages/Login.tsx:168-178 | a message mentioning both a cancellation and a timeout reads as cancelled |
| LoginPage.StaleEffect | src/frontend/src/pages/Login.tsx:34-38 | `clear()` is called once exactly for a present, invalid identity in the idle phase, and nothing else changes |
| LoginPage.ValidationEffect | src/frontend/src/pages/Login.tsx:41-52 | only the validated flag changes: it becomes false without an identity, the identity's validity in 'idle' or 'validating', and stays put otherwise |
| LoginPage.CheckEffect | src/frontend/src/pages/Login.tsx:55-89 | with a validated identity and a ready actor, and unless already checking or redirecting, the page enters 'checking-access', clears the check error and starts one access check; otherwise nothing changes |
| LoginPage.StatusEffect | src/frontend/src/pages/Login.tsx:92-107 | 'loginError' moves any phase to 'error' and ends the attempt; 'success' moves 'connecting' to 'validating'; nothing else changes the page |
| LoginPage.HandleLogin | src/frontend/src/pages/Login.tsx:109-123 | a click while an attempt is active does nothing; an accepted click starts the attempt, clears the check error and the validation, enters 'connecting' and calls `login()` once, without navigating |
| LoginPage.Retry | src/frontend/src/pages/Login.tsx:125-150 | the retry clears the error and validation, never calls `login()` or touches the attempt guard, and starts a check in 'checking-access' only with an identity and a ready actor, else stays 'idle' |
| LoginPage.Destination | src/frontend/src/pages/Login.tsx:70-76 | a user who can access onboarding goes to '/onboarding', any other to '/weekly-mountain' |
| LoginPage.EffectCheckSettled | src/frontend/src/pages/Login.tsx:66-85 | a successful check enters 'redirecting' and navigates once; a failed one shows 'Failed to check your account status: …', enters 'error' and ends the attempt |
| LoginPage.RetryCheckSettled | src/frontend/src/pages/Login.tsx:132-148 | like the effect's check, except that a failure leaves the attempt guard as it was |
| LoginPage.ButtonLabel | src/frontend/src/pages/Login.tsx:187-193 | the default label shows exactly in 'idle' and 'error'; each other phase has its own progress label |
| LoginPage.StepKeepsInv | src/frontend/src/pages/Login.tsx:34-150 | each effect, click or settled check keeps the guard consistent, keeps an attempt active while connecting or validating, and navigates only to onboarding or the weekly mountain |
| LoginPage.RunKeepsInv | src/frontend/src/pages/Login.tsx:34-150 | the same invariant after any interleaving of effects, clicks and settled checks |
| LoginPage.NeverToSweetSummit | src/frontend/src/pages/Login.tsx:72-138 | from a fresh page, Login never navigates to '/sweet-summit' |
| LoginPage.SecondClickIgnored | src/frontend/src/pages/Login.tsx:111-113 | a second click while the first attempt is active changes nothing |
| LoginPage.FailedCheckReenters | src/frontend/src/pages/Login.tsx:58-83 | after a failed check with the identity still validated and the actor ready, the redirect effect starts another check, because 'error' is not excluded |
| LoginPage.LabelImpliesProcessing | src/frontend/src/pages/Login.tsx:185-193 | a non-default label is only shown while the page is processing |
| SignupPage.StaleEffect | src/frontend/src/pages/Signup.tsx:33-37 | `clear()` is called once exactly for a present, invalid identity in the idle phase, and nothing else changes |
| SignupPage.ValidationEffect | src/frontend/src/pages/Signup.tsx:40-51 | only the validated flag changes: false without an identity, the identity's validity in 'idle' or 'validating', unchanged otherwise |
| SignupPage.RedirectEffect | src/frontend/src/pages/Signup.tsx:54-62 | with a validated identity and an actor, and not already redirecting, the page enters 'redirecting' and navigates once to '/onboarding'; otherwise nothing changes |
| SignupPage.StatusEffect | src/frontend/src/pages/Signup.tsx:65-80 | 'loginError' moves any phase to 'error' and ends the attempt; 'success' moves 'connecting' to 'validating'; nothing else changes the page |
| SignupPage.HandleSignup | src/frontend/src/pages/Signup.tsx:82-95 | a click during an attempt does nothing; an accepted click records the attempt at the click's clock, clears validation, enters 'connecting' and calls `login()` once |
| SignupPage.ButtonLabel | src/frontend/src/pages/Signup.tsx:132-137 | the default label shows exactly in 'idle' and 'error' |
| SignupPage.StepKeepsInv | src/frontend/src/pages/Signup.tsx:33-95 | each effect or click keeps the guard consistent, an attempt active while connecting or validating, and every navigation on '/onboarding' |
| SignupPage.RunKeepsInv | src/frontend/src/pages/Signup.tsx:33-95 | the same invariant after any interleaving of effects and clicks |
| SignupPage.OnlyToOnboarding | src/frontend/src/pages/Signup.tsx:61 | from a fresh page, every navigation Signup makes goes to '/onboarding' |
| SignupPage.NavigatesOnlyOnEntry | src/frontend/src/pages/Signup.tsx:58-61 | a step adds a navigation only by entering 'redirecting' from another phase, and adds exactly one |
| SignupPage.LeavingRedirecting | src/frontend/src/pages/Signup.tsx:76-90 | the page leaves 'redirecting' only through a login error or a newly accepted click |
| SignupTestPage.RedirectOnSuccess | src/frontend/src/pages/SignupTest.tsx:16-20 | the page goes to '/onboarding' exactly with an identity, an actor and a successful login |
| SignupTestPage.RedirectWhenReady | src/frontend/src/pages/SignupTest.tsx:23-27 | the page goes to '/onboarding' exactly with an identity and an actor once initialisation is over |
| SignupTestPage.ButtonLabel | src/frontend/src/pages/SignupTest.tsx:37-80 | logging in shows the connecting label before initialising does; the default label shows exactly when the button is enabled |
| SignupTestPage.EffectsAgree | src/frontend/src/pages/SignupTest.tsx:16-27 | when both effects fire they go to the same place, and neither fires without an identity and an actor |
| AuthGate.TimerEffect | src/frontend/src/components/auth/AuthInitializationGate.tsx:46-66 | a 15000 ms timer is armed exactly when the gate is loading with an empty timer ref; otherwise nothing changes |
| AuthGate.ReadinessBody | src/frontend/src/components/auth/AuthInitializationGate.tsx:69-127 | once latched, or while a truthy blocking reason or an unsettled state holds, nothing changes; an anonymous, stale or invalid identity gives the stale-session error without clearing the timer; otherwise the timer is cleared and the gate latches 'ready' |
| AuthGate.Render | src/frontend/src/components/auth/AuthInitializationGate.tsx:46-127 | an unmounted gate ignores renders; a render records its dependencies, arms the timer when loading with an empty ref, and changes the gate state only when the dependencies changed, the gate is unlatched and nothing blocks |
| AuthGate.Tick | src/frontend/src/components/auth/AuthInitializationGate.tsx:51-64 | a due pending timer sets 'timeout-error' and leaves its id in the ref; otherwise nothing changes |
| AuthGate.Unmount | src/frontend/src/components/auth/AuthInitializationGate.tsx:36-43 | unmounting clears the timer ref and keeps the gate state |
| AuthGate.StepKeepsInv | src/frontend/src/components/auth/AuthInitializationGate.tsx:31-127 | each render, tick or unmount keeps: 'ready' exactly when latched, no timer once ready, the timer armed at most once, and an armed timer held until ready or unmount |
| AuthGate.RunKeepsInv | src/frontend/src/components/auth/AuthInitializationGate.tsx:31-127 | the same invariant after any sequence of renders, ticks and unmount |
| AuthGate.ReadyIsAbsorbing | src/frontend/src/components/auth/AuthInitializationGate.tsx:70-126 | a reachable 'ready' gate stays 'ready' whatever happens next |
| AuthGate.ArmedAtMostOnce | src/frontend/src/components/auth/AuthInitializationGate.tsx:47 | from mount the 15 s timer is armed at most once in the gate's lifetime |
| AuthGate.StaleErrorOverwrittenByTimeout | src/frontend/src/components/auth/AuthInitializationGate.tsx:92-121 | the stale-session branch returns before the timer is cleared, so 15 s later the timeout error replaces it |
| AuthGate.TimeoutThenReady | src/frontend/src/components/auth/AuthInitializationGate.tsx:63-127 | a timeout error is not final: later settled dependencies without an identity still make the gate ready |
| AuthDiagnostics.StepLabel | src/frontend/src/utils/authDiagnostics.ts:47-64 | every step has a non-empty banner label, so the fallback to the step name never applies |
| AuthDiagnostics.StepOfLabel | src/frontend/src/utils/authDiagnostics.ts:48-62 | any label it recognises is the label of the step it returns |
| AuthDiagnostics.LabelRoundTrip | src/frontend/src/utils/authDiagnostics.ts:47-64 | reading a step's label back gives the step again |
| AuthDiagnostics.LabelsDistinct | src/frontend/src/utils/authDiagnostics.ts:48-62 | different steps have different labels |
| AuthDiagnostics.ThirteenSteps | src/frontend/src/utils/authDiagnostics.ts:5-18 | the step type has exactly thirteen distinct values |
| AuthDiagnostics.CorrelationId | src/frontend/src/utils/authDiagnostics.ts:40-42 | every correlation id starts with 'auth-' and has more after it |
| AuthFlowDiagnostics.Threshold | src/frontend/src/hooks/useAuthFlowDiagnostics.ts:34-39 | exactly the four steps identity-validation, actor-ready, rbac-bootstrap and onboarding-check have a slow-step budget |
| AuthFlowDiagnostics.SinceStepStart | src/frontend/src/hooks/useAuthFlowDiagnostics.ts:113-173 | a step duration is measured exactly when the step-start ref is truthy |
| AuthFlowDiagnostics.CloseLast | src/frontend/src/hooks/useAuthFlowDiagnostics.ts:116-174 | only the last step can change: if it is open it gets the end time, the duration and, on a transition, the metadata; the log keeps its length |
| AuthFlowDiagnostics.StartAttempt | src/frontend/src/hooks/useAuthFlowDiagnostics.ts:80-100 | a start returns its 'auth-' correlation id and begins a fresh log with one open 'click' step at the clock, elapsed 0, no outcome and no slow step |
| AuthFlowDiagnostics.TransitionStep | src/frontend/src/hooks/useAuthFlowDiagnostics.ts:105-153 | with no active attempt nothing changes; otherwise an open last step is closed at the clock with the time since the step started and the given metadata, earlier steps are kept, one open step for the new step is appended, and the label, elapsed time and ref follow the clock |
| AuthFlowDiagnostics.CompleteAttempt | src/frontend/src/hooks/useAuthFlowDiagnostics.ts:158-190 | with no active attempt nothing changes; otherwise an open last step is closed at the clock with the time since the step started and its metadata kept, earlier steps are kept, the outcome becomes the current step, a truthy message is kept and a falsy one dropped, and the correlation id, start time, slow step and ref are untouched |
| AuthFlowDiagnostics.Reset | src/frontend/src/hooks/useAuthFlowDiagnostics.ts:195-208 | a reset returns to the first-render state: idle with its label, no correlation id, no start or elapsed time, an empty log, no outcome, message or slow step, and an empty ref |
| AuthFlowDiagnostics.InitialInv | src/frontend/src/hooks/useAuthFlowDiagnostics.ts:46-58 | the first render satisfies the log invariant |
| AuthFlowDiagnostics.TransitionKeepsInv | src/frontend/src/hooks/useAuthFlowDiagnostics.ts:105-153 | a transition at a positive clock keeps the log invariant: only the last step open, the ref on its start, and every closed step's duration equal to its end minus its start |
| AuthFlowDiagnostics.CompleteKeepsInv | src/frontend/src/hooks/useAuthFlowDiagnostics.ts:158-190 | a completion at a positive clock keeps the log invariant |
| AuthFlowDiagnostics.StepKeepsInv | src/frontend/src/hooks/useAuthFlowDiagnostics.ts:80-208 | each start, transition, completion or reset at a positive clock keeps the log invariant |
| AuthFlowDiagnostics.RunKeepsInv | src/frontend/src/hooks/useAuthFlowDiagnostics.ts:80-208 | the same invariant after any sequence of calls with positive clocks |
| AuthFlowDiagnostics.AtMostOneOpenStep | src/frontend/src/hooks/useAuthFlowDiagnostics.ts:118-171 | after any history, at most one step is open and it is the last one |
| AuthFlowDiagnostics.SlowStepIffOverBudget | src/frontend/src/hooks/useAuthFlowDiagnostics.ts:124-136 | a transition records the closing step as slow exactly when its measured duration exceeds that step's budget; otherwise the earlier slow step stays |
| AuthFlowDiagnostics.SecondCompleteKeepsLog | src/frontend/src/hooks/useAuthFlowDiagnostics.ts:161-186 | the first completion leaves the last step closed, so a second completion overwrites the outcome but leaves the log as it is |

## Left out

- Rendering, styling and display-only pages are not modelled; they hold no decisions beyond JSX. This covers Fridge, WeeklyMountain, Daily, SweetSummit, the popup-help, error and diagnostics panels, the warm-up banner, the account menu, the root layout and the route wiring.
- Console logging, `Date.now`, and the 100 ms `setInterval` elapsed-time trackers are not modelled. The clock is a parameter, and ticks are events.
- The `Math.random` suffix of a correlation id is a parameter.
- The Internet Identity provider hook, the actor hook, the react-query wrappers and the React contexts are not part of this model. Their outputs are inputs: status, identity, actor, profile query flags, `isSettled`, `phase` and `blockingReason`.
- The actor calls (`ping`, `getCallerUserProfile`, `canAccessOnboarding`, profile saves) are inputs. `canAccessOnboarding` is called by the Login page but is absent from the backend interface, and its answer is an input.
- The auth-client calls, `Ed25519KeyIdentity.generate` and `fromJSON`, `isDelegationValid`, `loadConfig`, `getSecretFromHash` and `getSessionParameter` are inputs or function parameters.
- `fetch` and `response.json` are inputs. Only the status and whether the body parsed are modelled.
- The legacy AI client and its configuration are not modelled. The configuration always reports that the client is unconfigured, so that client always throws.
- The password-identity provider, the onboarding-result context, the patched Internet Identity provider and the logout and delete orchestration in the header are not modelled. They are wiring around the modelled functions.
- AuthStatusBanner.FormatElapsed: the seconds branch, `(ms / 1000).toFixed(1)`, is floating point. It is kept as an uninterpreted value.
- SafeRender.ToSafeString: `String(n)` is modelled for integers only. The JSON text of an object is a parameter, so an object's text is not constrained beyond the stringify result.
- JsValue.Field: numbers are integers only. Inherited properties are taken to read as undefined, which holds for the field names the code reads.
- TaskModal.ClampMinutes: a non-integer estimate of minutes is not modelled.
- OnboardingPage: the profile's `createdAt`, `Date.now() * 1000000` converted to `BigInt`, is a floating-point product and is not modelled. The profile save is an input outcome.
- PostAuthTimeout.Delay: only a negative delay is clamped. The wrap-around of delays beyond the 32-bit range of a timer is not modelled.
- AttemptGuard.StartAttempt: calls are taken one after another. The hook reads `isAttempting` from the render closure, so in the real hook two calls within one render could both be accepted.
- React StrictMode's double invocation of effects and state updaters is not modelled.
- JsText.Lower: only ASCII letters are folded. This is exact for the `/Android/i` and `/Chrome/i` tests, which use `i` without `u`. For the `toLowerCase().includes(...)` checks it is not exact: JavaScript also folds non-ASCII letters, and U+212A KELVIN SIGN folds to an ASCII `k`. So a message that spells BLOCKED or NETWORK with a Kelvin sign counts as blocked (`MobileLogin.ClassifyReported`) or as a network failure (`AuthPages.Classify`) in the code, but not in the model.
- PasswordIdentity.DeriveSeed: the username is lower-cased for ASCII letters only. A username with non-ASCII capitals, such as `ÉMILE`, derives a different seed in the code, which folds it to `émile`. Strings are sequences of Unicode scalar values, so a lone UTF-16 surrogate cannot occur here. `TextEncoder` would encode one as the bytes EF BF BD.
- IdentityCard.DisplayPrincipal: lengths count Unicode scalar values, not UTF-16 code units. The two agree on principal text, which is ASCII.
- Storage failures are modelled where a `try` catches them: session flags, display names, password identity, the display-name gate and the login pages. The routing helpers, the Onboarding page, the session reset and the daily-input source selection access storage outside any `try`. There, storage is an always-available map, and a throw from storage is not modelled.
- Platform.DetectPlatform: no particular browser user-agent strings are worked through. The detection is stated once for all inputs.

=== FILE: ai_proxy.dfy ===
/**
 * `aiProxyClient`: the response validators and the error classification of `proxyFetch`.
 * The HTTP exchange is foreign: its outcome (a rejection, or a status with a body that does or
 * does not parse as JSON) is the input `FetchOutcome`.
 */
module AIProxy {
  import opened Common
  import opened JsText
  import opened JsValue

  const ProxyBaseUrl := "https://sweetsteps-ai.onrender.com"
  const OnboardingPlanUrl := ProxyBaseUrl + "/onboarding-plan"
  const WeeklyMountainUrl := ProxyBaseUrl + "/weekly-mountain"
  const DailyStepsUrl := ProxyBaseUrl + "/daily-steps"

  const MountainMalformed := "Invalid AI response: weekly mountain data is missing or malformed. Please try again."
  const MountainIncomplete := "Invalid AI response: weekly mountain fields are incomplete. Please try again."
  const PlanMalformed := "Invalid AI response: response data is missing or malformed. Please try again."
  const PlanIncomplete := "Invalid AI response: required fields are incomplete. Please try again."
  const ColdStartMessage := "Unable to reach AI right now. The AI service may be waking up (hosted on Render free tier). This can take up to 60 seconds. Please wait a moment and try again."
  const UnavailableMessage := "Unable to reach AI right now. The service may be temporarily unavailable. Please try again in a moment."
  const WakingMessage := "Unable to reach AI right now. Try again. The AI service may be waking up (hosted on Render free tier). This can take up to 60 seconds. Please wait a moment and retry."
  const UnexpectedMessage := "Unable to reach AI right now. Try again. An unexpected error occurred. Please retry in a moment."

  /** `AIProxyError`. */
  datatype ProxyError = ProxyError(message: string, isNetworkError: bool, isParseError: bool)

  /** What leaves `proxyFetch`: an `AIProxyError`, or the `TypeError` its own `catch` raises on a non-`Error` rejection. */
  datatype Failure = Proxy(error: ProxyError) | Escaped

  datatype WeeklyMountain = WeeklyMountain(name: string, weeklyTarget: string, note: string)

  datatype OnboardingPlan = OnboardingPlan(bigGoal: string, weeklyMountain: WeeklyMountain, dailyStep: string)

  /** The object a well-formed response would carry. */
  function MountainValue(m: WeeklyMountain): Value {
    Obj(map["name" := Str(m.name), "weeklyTarget" := Str(m.weeklyTarget), "note" := Str(m.note)])
  }

  function PlanValue(p: OnboardingPlan): Value {
    Obj(map["bigGoal" := Str(p.bigGoal), "weeklyMountain" := MountainValue(p.weeklyMountain),
            "dailyStep" := Str(p.dailyStep)])
  }

  predicate ValidMountain(m: WeeklyMountain) {
    Trim(m.name) != "" && Trim(m.weeklyTarget) != "" && Trim(m.note) != ""
  }

  predicate ValidPlan(p: OnboardingPlan) {
    Trim(p.bigGoal) != "" && Trim(p.dailyStep) != "" && ValidMountain(p.weeklyMountain)
  }

  function Invalid(msg: string): ProxyError {
    ProxyError(msg, false, false)
  }

  /** `validateWeeklyMountain`. */
  function ValidateWeeklyMountain(data: Value): (r: Result<WeeklyMountain, ProxyError>)
    ensures !TruthyValue(data) || !TypeofObject(data) ==> r == Err(Invalid(MountainMalformed))
    ensures r.Ok? <==>
              TruthyValue(data) && TypeofObject(data)
              && IsValidString(Field(data, "name")) && IsValidString(Field(data, "weeklyTarget"))
              && IsValidString(Field(data, "note"))
    ensures r.Err? && TruthyValue(data) && TypeofObject(data) ==> r == Err(Invalid(MountainIncomplete))
    ensures r.Ok? ==> r.value.name == Field(data, "name").s && r.value.weeklyTarget == Field(data, "weeklyTarget").s
                      && r.value.note == Field(data, "note").s && ValidMountain(r.value)
  {
    if !TruthyValue(data) || !TypeofObject(data) then Err(Invalid(MountainMalformed))
    else
      var name := Field(data, "name");
      var target := Field(data, "weeklyTarget");
      var note := Field(data, "note");
      if !IsValidString(name) || !IsValidString(target) || !IsValidString(note) then Err(Invalid(MountainIncomplete))
      else Ok(WeeklyMountain(name.s, target.s, note.s))
  }

  /** `validateOnboardingPlanResponse`: object-ness, then the two strings, then the nested mountain. */
  function ValidateOnboardingPlan(data: Value): (r: Result<OnboardingPlan, ProxyError>)
    ensures !TruthyValue(data) || !TypeofObject(data) ==> r == Err(Invalid(PlanMalformed))
    ensures TruthyValue(data) && TypeofObject(data)
            && !(IsValidString(Field(data, "bigGoal")) && IsValidString(Field(data, "dailyStep")))
            ==> r == Err(Invalid(PlanIncomplete))
    ensures TruthyValue(data) && TypeofObject(data)
            && IsValidString(Field(data, "bigGoal")) && IsValidString(Field(data, "dailyStep"))
            ==> match ValidateWeeklyMountain(Field(data, "weeklyMountain"))
                case Err(e) => r == Err(e)
                case Ok(m) => r == Ok(OnboardingPlan(Field(data, "bigGoal").s, m, Field(data, "dailyStep").s))
    ensures r.Ok? ==> ValidPlan(r.value)
  {
    if !TruthyValue(data) || !TypeofObject(data) then Err(Invalid(PlanMalformed))
    else
      var goal := Field(data, "bigGoal");
      var step := Field(data, "dailyStep");
      if !IsValidString(goal) || !IsValidString(step) then Err(Invalid(PlanIncomplete))
      else
        match ValidateWeeklyMountain(Field(data, "weeklyMountain"))
        case Err(e) => Err(e)
        case Ok(m) => Ok(OnboardingPlan(goal.s, m, step.s))
  }

  /** A well-formed mountain passes validation unchanged (fields are not trimmed). */
  lemma MountainRoundTrip(m: WeeklyMountain)
    requires ValidMountain(m)
    ensures ValidateWeeklyMountain(MountainValue(m)) == Ok(m)
  {
    MountainFields(m);
  }

  /** The three fields of a mountain object read back as stored. */
  lemma MountainFields(m: WeeklyMountain)
    ensures Field(MountainValue(m), "name") == Str(m.name)
    ensures Field(MountainValue(m), "weeklyTarget") == Str(m.weeklyTarget)
    ensures Field(MountainValue(m), "note") == Str(m.note)
  {
    assert "name"[1] != "note"[1];
    assert |"name"| != |"weeklyTarget"| && |"note"| != |"weeklyTarget"|;
  }

  lemma PlanFields(p: OnboardingPlan)
    ensures Field(PlanValue(p), "bigGoal") == Str(p.bigGoal)
    ensures Field(PlanValue(p), "dailyStep") == Str(p.dailyStep)
    ensures Field(PlanValue(p), "weeklyMountain") == MountainValue(p.weeklyMountain)
  {
    assert |"bigGoal"| != |"dailyStep"| && |"bigGoal"| != |"weeklyMountain"| && |"dailyStep"| != |"weeklyMountain"|;
  }

  /** A well-formed plan passes validation unchanged; extra fields are dropped. */
  lemma PlanRoundTrip(p: OnboardingPlan)
    requires ValidPlan(p)
    ensures ValidateOnboardingPlan(PlanValue(p)) == Ok(p)
  {
    PlanFields(p);
    MountainRoundTrip(p.weeklyMountain);
  }

  /** Only a validated value is ever returned: a plan returned is valid, and it is what was sent. */
  lemma PlanValidationIsExact(data: Value, p: OnboardingPlan)
    requires ValidateOnboardingPlan(data) == Ok(p)
    ensures ValidPlan(p) && ValidateOnboardingPlan(PlanValue(p)) == Ok(p)
  {
    PlanRoundTrip(p);
  }

  /** The foreign part of a request. */
  datatype FetchOutcome =
    | Rejected(thrown: Thrown)
    | Responded(status: int, body: Option<Value>)

  predicate Ok2xx(status: int) {
    200 <= status <= 299
  }

  /** The `catch` of `proxyFetch` for a rejection that is not an `AIProxyError`. */
  function ClassifyRejection(t: Thrown): (r: Failure)
    ensures t.NonError? ==> r == Escaped
    ensures t.ErrorObject? ==> r.Proxy? && !r.error.isParseError
    ensures t.ErrorObject? ==> (r.error.isNetworkError <==> t.name == "TypeError" || Contains(t.message, "fetch"))
    ensures t.ErrorObject? && !r.error.isNetworkError ==> r.error.message == UnexpectedMessage
  {
    match t
    case NonError => Escaped
    case ErrorObject(name, message) =>
      if name == "TypeError" || Contains(message, "fetch") then Proxy(ProxyError(WakingMessage, true, false))
      else Proxy(Invalid(UnexpectedMessage))
  }

  /** `proxyFetch` up to the point where the JSON body is available. */
  function FetchJson(o: FetchOutcome): (r: Result<Value, Failure>)
    ensures o.Responded? && !Ok2xx(o.status) && o.status in {502, 503, 504} ==> r == Err(Proxy(Invalid(ColdStartMessage)))
    ensures o.Responded? && !Ok2xx(o.status) && o.status !in {502, 503, 504} ==> r == Err(Proxy(Invalid(UnavailableMessage)))
    ensures o.Responded? && Ok2xx(o.status) && o.body.None? ==> r == Err(Proxy(ProxyError(WakingMessage, false, true)))
    ensures r.Ok? <==> o.Responded? && Ok2xx(o.status) && o.body.Some?
    ensures r.Ok? ==> r.value == o.body.value
    ensures o.Rejected? ==> r == Err(ClassifyRejection(o.thrown))
  {
    match o
    case Rejected(t) => Err(ClassifyRejection(t))
    case Responded(status, body) =>
      if !Ok2xx(status) then
        if status == 502 || status == 503 || status == 504 then Err(Proxy(Invalid(ColdStartMessage)))
        else Err(Proxy(Invalid(UnavailableMessage)))
      else
        match body
        case None => Err(Proxy(ProxyError(WakingMessage, false, true)))
        case Some(v) => Ok(v)
  }

  /** `generateOnboardingPlan`: a validator error passes through the `catch` unchanged. */
  function GenerateOnboardingPlan(o: FetchOutcome): (r: Result<OnboardingPlan, Failure>)
    ensures r.Ok? ==> ValidPlan(r.value) && FetchJson(o).Ok?
    ensures FetchJson(o).Err? ==> r == Err(FetchJson(o).error)
    ensures FetchJson(o).Ok? && ValidateOnboardingPlan(FetchJson(o).value).Ok? ==>
              r == Ok(ValidateOnboardingPlan(FetchJson(o).value).value)
    ensures FetchJson(o).Ok? && ValidateOnboardingPlan(FetchJson(o).value).Err? ==>
              r == Err(Proxy(ValidateOnboardingPlan(FetchJson(o).value).error))
  {
    match FetchJson(o)
    case Err(f) => Err(f)
    case Ok(v) => match ValidateOnboardingPlan(v) case Ok(p) => Ok(p) case Err(e) => Err(Proxy(e))
  }

  /** `generateWeeklyMountain`. */
  function GenerateWeeklyMountain(o: FetchOutcome): (r: Result<WeeklyMountain, Failure>)
    ensures r.Ok? ==> ValidMountain(r.value) && FetchJson(o).Ok?
    ensures FetchJson(o).Err? ==> r == Err(FetchJson(o).error)
    ensures FetchJson(o).Ok? && ValidateWeeklyMountain(FetchJson(o).value).Ok? ==>
              r == Ok(ValidateWeeklyMountain(FetchJson(o).value).value)
    ensures FetchJson(o).Ok? && ValidateWeeklyMountain(FetchJson(o).value).Err? ==>
              r == Err(Proxy(ValidateWeeklyMountain(FetchJson(o).value).error))
  {
    match FetchJson(o)
    case Err(f) => Err(f)
    case Ok(v) => match ValidateWeeklyMountain(v) case Ok(m) => Ok(m) case Err(e) => Err(Proxy(e))
  }

  /** `generateDailySteps` passes no validator: any parsed body is returned as it is. */
  function GenerateDailySteps(o: FetchOutcome): (r: Result<Value, Failure>)
    ensures o.Responded? && Ok2xx(o.status) && o.body.Some? ==> r == Ok(o.body.value)
    ensures r.Err? <==> !(o.Responded? && Ok2xx(o.status) && o.body.Some?)
  {
    FetchJson(o)
  }

  /** A 2xx response carrying a well-formed plan yields exactly that plan. */
  lemma PlanResponseRoundTrip(p: OnboardingPlan, status: int)
    requires ValidPlan(p) && Ok2xx(status)
    ensures GenerateOnboardingPlan(Responded(status, Some(PlanValue(p)))) == Ok(p)
  {
    PlanRoundTrip(p);
  }

  /** A 2xx response carrying a well-formed mountain yields exactly that mountain. */
  lemma MountainResponseRoundTrip(m: WeeklyMountain, status: int)
    requires ValidMountain(m) && Ok2xx(status)
    ensures GenerateWeeklyMountain(Responded(status, Some(MountainValue(m)))) == Ok(m)
  {
    MountainRoundTrip(m);
  }

  /** A plan comes back exactly when a 2xx response parsed and its body validated to that plan. */
  lemma PlanSucceedsIff(o: FetchOutcome, p: OnboardingPlan)
    ensures GenerateOnboardingPlan(o) == Ok(p) <==>
              o.Responded? && Ok2xx(o.status) && o.body.Some? && ValidateOnboardingPlan(o.body.value) == Ok(p)
  {
  }

  /** A mountain comes back exactly when a 2xx response parsed and its body validated to that mountain. */
  lemma MountainSucceedsIff(o: FetchOutcome, m: WeeklyMountain)
    ensures GenerateWeeklyMountain(o) == Ok(m) <==>
              o.Responded? && Ok2xx(o.status) && o.body.Some? && ValidateWeeklyMountain(o.body.value) == Ok(m)
  {
  }

  /** Status errors never claim a network or parse problem. */
  lemma StatusErrorsCarryNoFlags(status: int, body: Option<Value>)
    requires !Ok2xx(status)
    ensures var r := FetchJson(Responded(status, body));
            r.Err? && r.error.Proxy? && !r.error.error.isNetworkError && !r.error.error.isParseError
  {
  }

  /** The daily-steps endpoint accepts what the other two reject, e.g. `null`. */
  lemma DailyStepsUnchecked()
    ensures GenerateDailySteps(Responded(200, Some(Null))) == Ok(Null)
    ensures GenerateWeeklyMountain(Responded(200, Some(Null))).Err?
    ensures GenerateOnboardingPlan(Responded(200, Some(Null))).Err?
  {
  }
}

=== FILE: attempt_guard.dfy ===
/**
 * `useAuthAttemptGuard`: a re-entrancy flag plus the timestamp of the attempt in progress.
 * Calls are taken one after another; the hook's reading of `isAttempting` from the render
 * closure is not modelled (see README).
 */
module AttemptGuard {
  import opened Common

  datatype Guard = Guard(isAttempting: bool, timestamp: Option<int>)

  /** Fresh hook instance: not attempting, timestamp ref null. */
  const Initial := Guard(false, None)

  /** `startAttempt` at clock `now`: the new guard and whether the attempt was accepted. */
  function StartAttempt(g: Guard, now: int): (r: (Guard, bool))
    ensures r.1 <==> !g.isAttempting
    ensures !r.1 ==> r.0 == g
    ensures r.1 ==> r.0.isAttempting && r.0.timestamp == Some(now)
  {
    if g.isAttempting then (g, false) else (Guard(true, Some(now)), true)
  }

  /** `endAttempt`: whatever the guard held, it is back to the fresh state. */
  function EndAttempt(g: Guard): (r: Guard)
    ensures r == Initial
    ensures !r.isAttempting && r.timestamp.None?
  {
    Guard(false, None)
  }

  /** `getAttemptTimestamp`. */
  function GetAttemptTimestamp(g: Guard): Option<int> {
    g.timestamp
  }

  /** The flag and the timestamp move together. */
  predicate Inv(g: Guard) {
    g.isAttempting <==> g.timestamp.Some?
  }

  datatype Call = Start(now: int) | End

  function Apply(g: Guard, c: Call): Guard {
    match c
    case Start(now) => StartAttempt(g, now).0
    case End => EndAttempt(g)
  }

  function Run(g: Guard, cs: seq<Call>): Guard
    decreases |cs|
  {
    if cs == [] then g else Run(Apply(g, cs[0]), cs[1..])
  }

  /** How many `startAttempt` calls of the sequence return true. */
  function Accepted(g: Guard, cs: seq<Call>): nat
    decreases |cs|
  {
    if cs == [] then 0
    else
      (if cs[0].Start? && StartAttempt(g, cs[0].now).1 then 1 else 0) + Accepted(Apply(g, cs[0]), cs[1..])
  }

  predicate NoEnd(cs: seq<Call>) {
    forall i :: 0 <= i < |cs| ==> cs[i].Start?
  }

  /** Every sequence of calls from a consistent guard keeps flag and timestamp consistent. */
  lemma {:induction false} RunKeepsInv(g: Guard, cs: seq<Call>)
    requires Inv(g)
    ensures Inv(Run(g, cs))
    decreases |cs|
  {
    if cs != [] {
      RunKeepsInv(Apply(g, cs[0]), cs[1..]);
    }
  }

  /**
   * Between two `endAttempt` calls at most one `startAttempt` is accepted, and none while an
   * attempt is already active.
   */
  lemma {:induction false} AtMostOneAcceptedWithoutEnd(g: Guard, cs: seq<Call>)
    requires NoEnd(cs)
    ensures Accepted(g, cs) <= (if g.isAttempting then 0 else 1)
    ensures |cs| > 0 ==> Run(g, cs).isAttempting
    decreases |cs|
  {
    if cs != [] {
      assert NoEnd(cs[1..]) by {
        forall i | 0 <= i < |cs[1..]| ensures cs[1..][i].Start? {
          assert cs[1..][i] == cs[i + 1];
        }
      }
      AtMostOneAcceptedWithoutEnd(Apply(g, cs[0]), cs[1..]);
    }
  }

  /** The timestamp is the clock of the last accepted start, until the next end. */
  lemma {:induction false} TimestampIsLastAcceptedStart(g: Guard, now: int, cs: seq<Call>)
    requires !g.isAttempting
    requires NoEnd(cs)
    ensures Run(g, [Start(now)] + cs).timestamp == Some(now)
    decreases |cs|
  {
    var g1 := Apply(g, Start(now));
    assert ([Start(now)] + cs)[1..] == cs;
    StartedStaysPut(g1, cs);
  }

  lemma {:induction false} StartedStaysPut(g: Guard, cs: seq<Call>)
    requires g.isAttempting
    requires NoEnd(cs)
    ensures Run(g, cs) == g
    decreases |cs|
  {
    if cs != [] {
      assert NoEnd(cs[1..]) by {
        forall i | 0 <= i < |cs[1..]| ensures cs[1..][i].Start? {
          assert cs[1..][i] == cs[i + 1];
        }
      }
      StartedStaysPut(Apply(g, cs[0]), cs[1..]);
    }
  }
}

=== FILE: auth_gate.dfy ===
/**
 * `AuthInitializationGate`: blocks the app shell until authentication has settled, with one
 * 15000 ms timeout. The stabilisation values it reads (`isSettled`, `phase`, `blockingReason`)
 * are inputs. The readiness effect runs on mount and whenever one of its dependencies changes;
 * the timer effect is idempotent, so it runs on every render.
 */
module AuthGate {
  import opened Common
  import opened Identity

  /** `AUTH_GATE_CONFIG.TIMEOUT_MS`. */
  const TimeoutMs: nat := 15000

  datatype GateState = Loading | Ready | TimeoutError | StaleSessionError

  /** `timeoutIdRef`: empty, holding a pending timer, or still holding the id of a timer that fired. */
  datatype TimerRef = NoTimer | Pending(deadline: int) | Fired

  /** The readiness effect's dependency list. */
  datatype ReadyDeps = ReadyDeps(isSettled: bool, phase: string, blockingReason: Option<string>, identity: Option<Ident>)

  datatype Gate = Gate(state: GateState, timer: TimerRef, latched: bool, lastDeps: Option<ReadyDeps>,
                       mounted: bool, arms: nat)

  const Initial := Gate(Loading, NoTimer, false, None, true, 0)

  /** The timer effect: arm only while loading with an empty ref. */
  function TimerEffect(g: Gate, now: int): (r: Gate)
    ensures g.state == Loading && g.timer.NoTimer? ==>
              r == g.(timer := Pending(now + TimeoutMs), arms := g.arms + 1)
    ensures !(g.state == Loading && g.timer.NoTimer?) ==> r == g
  {
    if g.state == Loading && g.timer.NoTimer? then g.(timer := Pending(now + TimeoutMs), arms := g.arms + 1)
    else g
  }

  /** Settled, unblocked, with an identity that is anonymous, stale or invalid. */
  predicate BadIdentity(d: ReadyDeps) {
    d.identity.Some? && (d.identity.value.principal.IsAnonymous() || IsSessionStale(d.identity) || !IsIdentityValid(d.identity))
  }

  /** Still waiting: a truthy blocking reason or not settled. */
  predicate Blocked(d: ReadyDeps) {
    TruthyOpt(d.blockingReason) || !d.isSettled
  }

  /** The body of the readiness effect. */
  function ReadinessBody(g: Gate, d: ReadyDeps): (r: Gate)
    ensures g.latched || Blocked(d) ==> r == g
    ensures !g.latched && !Blocked(d) && BadIdentity(d) ==> r == g.(state := StaleSessionError)
    ensures !g.latched && !Blocked(d) && !BadIdentity(d) ==>
              r == g.(state := Ready, latched := true, timer := NoTimer)
  {
    if g.latched then g
    else if TruthyOpt(d.blockingReason) then g
    else if !d.isSettled then g
    else if BadIdentity(d) then g.(state := StaleSessionError)
    else g.(timer := NoTimer, latched := true, state := Ready)
  }

  /** A render with dependency values `d` at clock `now`: the timer effect, then readiness if its deps changed. */
  function Render(g: Gate, d: ReadyDeps, now: int): (r: Gate)
    ensures !g.mounted ==> r == g
    ensures g.mounted ==> r.mounted && r.lastDeps == Some(d)
    ensures g.mounted && g.lastDeps == Some(d) ==> r.state == g.state && r.latched == g.latched
    ensures g.mounted && g.state == Loading && g.timer.NoTimer? ==> r.arms == g.arms + 1
    ensures r.state != g.state ==> g.lastDeps != Some(d) && !g.latched && !Blocked(d)
  {
    if !g.mounted then g
    else
      var g1 := TimerEffect(g, now);
      if g1.lastDeps == Some(d) then g1
      else ReadinessBody(g1, d).(lastDeps := Some(d))
  }

  /** The clock reaches `now`: a due timer sets the timeout error; its id stays in the ref. */
  function Tick(g: Gate, now: int): (r: Gate)
    ensures g.mounted && g.timer.Pending? && now >= g.timer.deadline ==>
              r == g.(state := TimeoutError, timer := Fired)
    ensures !(g.mounted && g.timer.Pending? && now >= g.timer.deadline) ==> r == g
  {
    if g.mounted && g.timer.Pending? && now >= g.timer.deadline then g.(state := TimeoutError, timer := Fired)
    else g
  }

  /** Unmount clears the timer. */
  function Unmount(g: Gate): (r: Gate)
    ensures !r.mounted && r.timer.NoTimer? && r.state == g.state
  {
    g.(mounted := false, timer := NoTimer)
  }

  /** Children are rendered only once the gate is ready. */
  predicate RendersChildren(g: Gate) {
    g.state == Ready
  }

  datatype Event = RenderWith(deps: ReadyDeps, now: int) | Clock(now: int) | Unmounted

  function Step(g: Gate, e: Event): Gate {
    match e
    case RenderWith(d, now) => Render(g, d, now)
    case Clock(now) => Tick(g, now)
    case Unmounted => Unmount(g)
  }

  function Run(g: Gate, es: seq<Event>): Gate
    decreases |es|
  {
    if es == [] then g else Run(Step(g, es[0]), es[1..])
  }

  /**
   * Reachable gates: `ready` coincides with the latch and has no timer; the timer was armed at
   * most once, and an armed timer leaves the ref non-empty until the gate is ready or unmounted.
   */
  predicate Inv(g: Gate) {
    && (g.latched <==> g.state == Ready)
    && (g.state == Ready ==> g.timer.NoTimer?)
    && g.arms <= 1
    && (g.arms == 0 ==> g.timer.NoTimer?)
    && (g.arms == 1 && g.timer.NoTimer? ==> g.state == Ready || !g.mounted)
    && (!g.mounted ==> g.timer.NoTimer?)
  }

  lemma StepKeepsInv(g: Gate, e: Event)
    requires Inv(g)
    ensures Inv(Step(g, e))
  {
  }

  lemma {:induction false} RunKeepsInv(g: Gate, es: seq<Event>)
    requires Inv(g)
    ensures Inv(Run(g, es))
    decreases |es|
  {
    if es != [] {
      StepKeepsInv(g, es[0]);
      RunKeepsInv(Step(g, es[0]), es[1..]);
    }
  }

  /** `ready` never regresses: from a reachable ready gate, every history stays ready. */
  lemma {:induction false} ReadyIsAbsorbing(g: Gate, es: seq<Event>)
    requires Inv(g) && g.state == Ready
    ensures Run(g, es).state == Ready
    decreases |es|
  {
    if es != [] {
      StepKeepsInv(g, es[0]);
      ReadyIsAbsorbing(Step(g, es[0]), es[1..]);
    }
  }

  /** From mount, the 15 s timer is armed at most once in the gate's lifetime. */
  lemma {:induction false} ArmedAtMostOnce(es: seq<Event>)
    ensures Run(Initial, es).arms <= 1
  {
    RunKeepsInv(Initial, es);
  }

  /**
   * The stale-session branch returns before the timer is cleared, so the timeout still fires
   * later and replaces the stale-session error with the timeout error.
   */
  lemma StaleErrorOverwrittenByTimeout(d: ReadyDeps, t0: int)
    requires !Blocked(d) && BadIdentity(d)
    ensures var g := Render(Initial, d, t0);
            g.state == StaleSessionError && Tick(g, t0 + TimeoutMs).state == TimeoutError
  {
  }

  /** A timeout error is not final: new settled dependencies with no identity still make the gate ready. */
  lemma TimeoutThenReady(d1: ReadyDeps, t0: int, phase: string)
    requires Blocked(d1)
    ensures var g := Tick(Render(Initial, d1, t0), t0 + TimeoutMs);
            var d2 := ReadyDeps(true, phase, None, None);
            g.state == TimeoutError && Render(g, d2, t0 + TimeoutMs).state == Ready
  {
  }
}

=== FILE: auth_pages.dfy ===
/**
 * Logic the Login and Signup pages share: what they read from the identity and actor hooks,
 * the stale-session and validation effects, and the case-insensitive mapping from the
 * login error to the text shown under the button.
 */
module AuthPages {
  import opened Common
  import opened JsText
  import opened Identity

  /** The hook values a page renders with. `loginError` is the `Error` (name, message) or absent. */
  datatype Env = Env(identity: Option<Ident>, loginStatus: Status, isInitializing: bool,
                     hasActor: bool, actorFetching: bool, loginError: Option<(string, string)>)

  /** The stale-session effect calls `clear()` only for a stale identity while the phase is idle. */
  function ShouldClearStale(identity: Option<Ident>, phaseIsIdle: bool): (r: bool)
    ensures r <==> phaseIsIdle && identity.Some? && !IsIdentityValid(identity)
  {
    ValidityTrichotomy(identity);
    identity.Some? && IsSessionStale(identity) && phaseIsIdle
  }

  /**
   * The validation effect: the new `validatedIdentity`. It is recomputed only when the phase
   * lets it (`idle` or `validating`); an absent identity always clears it.
   */
  function Validate(identity: Option<Ident>, validated: bool, phaseValidates: bool): (r: bool)
    ensures identity.None? ==> !r
    ensures identity.Some? && phaseValidates ==> r == IsIdentityValid(identity)
    ensures identity.Some? && !phaseValidates ==> r == validated
  {
    if identity.None? then false
    else if phaseValidates then IsIdentityValid(identity)
    else validated
  }

  /** The categories `getErrorMessage` distinguishes, in the order it tests them. */
  datatype ErrorKind = AlreadyAuthenticated | Cancelled | NetworkFailure | TimedOut | Other

  /** Classify the lower-cased error text; earlier tests win. */
  function Classify(msg: string): (k: ErrorKind)
    ensures k == AlreadyAuthenticated <==> ContainsCI(msg, "already authenticated")
    ensures k == Cancelled <==>
              !ContainsCI(msg, "already authenticated")
              && (ContainsCI(msg, "user interrupt") || ContainsCI(msg, "cancelled"))
    ensures k == NetworkFailure <==>
              && !ContainsCI(msg, "already authenticated")
              && !ContainsCI(msg, "user interrupt") && !ContainsCI(msg, "cancelled")
              && (ContainsCI(msg, "network") || ContainsCI(msg, "fetch"))
    ensures k == TimedOut <==>
              && !ContainsCI(msg, "already authenticated")
              && !ContainsCI(msg, "user interrupt") && !ContainsCI(msg, "cancelled")
              && !ContainsCI(msg, "network") && !ContainsCI(msg, "fetch")
              && ContainsCI(msg, "timeout")
  {
    if ContainsCI(msg, "already authenticated") then AlreadyAuthenticated
    else if ContainsCI(msg, "user interrupt") || ContainsCI(msg, "cancelled") then Cancelled
    else if ContainsCI(msg, "network") || ContainsCI(msg, "fetch") then NetworkFailure
    else if ContainsCI(msg, "timeout") then TimedOut
    else Other
  }

  /** Which page's wording to use. */
  datatype Flow = LoginFlow | SignupFlow

  const NetworkText := "Network error. Please check your connection and try again."
  const OtherText := "Unable to connect to Internet Identity. Please try again."

  /** The text shown for each category; "already authenticated" is not shown at all. */
  function KindText(flow: Flow, k: ErrorKind): Option<string> {
    match k
    case AlreadyAuthenticated => None
    case Cancelled =>
      Some(if flow == LoginFlow then "Login was cancelled. Please try again when you're ready."
           else "Signup was cancelled. Please try again when you're ready.")
    case NetworkFailure => Some(NetworkText)
    case TimedOut =>
      Some(if flow == LoginFlow then "Login timed out. Please try again." else "Signup timed out. Please try again.")
    case Other => Some(OtherText)
  }

  /** `getErrorMessage(loginError)`. */
  function ErrorMessage(flow: Flow, loginError: Option<(string, string)>): (r: Option<string>)
    ensures loginError.None? ==> r.None?
    ensures loginError.Some? ==>
              r == KindText(flow, Classify(MessageOrToString(loginError.value.0, loginError.value.1)))
    ensures loginError.Some? && r.None? ==>
              ContainsCI(MessageOrToString(loginError.value.0, loginError.value.1), "already authenticated")
  {
    match loginError
    case None => None
    case Some(e) => KindText(flow, Classify(MessageOrToString(e.0, e.1)))
  }

  /** Within one page the shown text identifies the category, so no two categories share wording. */
  lemma KindTextInjective(flow: Flow, k1: ErrorKind, k2: ErrorKind)
    requires KindText(flow, k1).Some? && KindText(flow, k1) == KindText(flow, k2)
    ensures k1 == k2
  {
  }

  /** The two pages word only the cancelled and timed-out cases differently. */
  lemma FlowsDifferOnlyInWording(k: ErrorKind)
    ensures KindText(LoginFlow, k) == KindText(SignupFlow, k) <==> k !in {Cancelled, TimedOut}
  {
  }

  /** A message mentioning both a cancellation and a timeout reads as cancelled: that test comes first. */
  lemma CancelBeatsTimeout(msg: string)
    requires ContainsCI(msg, "cancelled") && ContainsCI(msg, "timeout")
    requires !ContainsCI(msg, "already authenticated")
    ensures Classify(msg) == Cancelled
  {
  }
}

=== FILE: auth_status_banner.dfy ===
/**
 * `AuthStatusBanner`: what the banner shows for a flow state. Only the decisions are modelled;
 * the seconds branch of the elapsed formatter works in floating point and stays abstract.
 */
module AuthStatusBanner {
  import opened Common
  import opened JsText
  import opened AuthDiagnostics
  import opened AuthFlowDiagnostics

  const StalledAdvice := "The authentication window may be blocked. Try the Retry button or use the direct link below."
  const SlowSuffix := " is taking longer than expected. Please wait..."

  datatype Variant = Default | Destructive

  /** `formatElapsed`: a literal text, or `(ms / 1000).toFixed(1) + "s"` left uninterpreted. */
  datatype Elapsed = Literal(text: string) | SecondsOneDecimal(ms: int)

  function FormatElapsed(ms: Option<int>): (r: Elapsed)
    ensures ms.None? ==> r == Literal("0s")
    ensures ms.Some? && ms.value < 1000 ==> r.Literal? && r.text == IntToString(ms.value) + "ms"
    ensures ms.Some? && ms.value >= 1000 ==> r == SecondsOneDecimal(ms.value)
  {
    match ms
    case None => Literal("0s")
    case Some(v) => if v < 1000 then Literal(IntToString(v) + "ms") else SecondsOneDecimal(v)
  }

  /** The banner as rendered; `None` when it renders nothing. */
  datatype View = View(title: string, variant: Variant, liveElapsed: Option<Elapsed>,
                       totalElapsed: Option<Elapsed>, advice: Option<string>, retryShown: bool,
                       correlationId: string)

  predicate Visible(s: FlowState) {
    s.currentStep != Idle && TruthyOpt(s.correlationId)
  }

  predicate IsTerminal(s: FlowState) {
    s.outcome.Some?
  }

  predicate NeedsAttention(s: FlowState) {
    s.outcome == Some(OutcomeError) || s.outcome == Some(OutcomeStalled)
  }

  /** `getSuggestedAction`. */
  function SuggestedAction(s: FlowState): (r: Option<string>)
    ensures s.outcome == Some(OutcomeStalled) ==> r == Some(StalledAdvice)
    ensures s.outcome == Some(OutcomeError) && TruthyOpt(s.outcomeMessage) ==> r == s.outcomeMessage
    ensures r.None? <==>
              s.outcome != Some(OutcomeStalled)
              && !(s.outcome == Some(OutcomeError) && TruthyOpt(s.outcomeMessage))
              && s.slowStep.None?
    ensures r.Some? && r != Some(StalledAdvice) && r != s.outcomeMessage ==>
              s.slowStep.Some? && r == Some(s.stepLabel + SlowSuffix)
  {
    if s.outcome == Some(OutcomeStalled) then Some(StalledAdvice)
    else if s.outcome == Some(OutcomeError) && TruthyOpt(s.outcomeMessage) then s.outcomeMessage
    else if s.slowStep.Some? then Some(s.stepLabel + SlowSuffix)
    else None
  }

  /** The whole banner for a flow state and an optional retry handler. */
  function Render(s: FlowState, hasRetry: bool): (r: Option<View>)
    ensures r.Some? <==> Visible(s)
    ensures r.Some? ==> r.value.title == s.stepLabel && r.value.correlationId == s.correlationId.value
    ensures r.Some? ==> (r.value.variant == Destructive <==> NeedsAttention(s))
    ensures r.Some? ==> (r.value.liveElapsed.Some? <==> !IsTerminal(s) && s.elapsedMs.Some?)
    ensures r.Some? ==> (r.value.totalElapsed.Some? <==> IsTerminal(s) && s.elapsedMs.Some?)
    ensures r.Some? ==> (r.value.retryShown <==> NeedsAttention(s) && hasRetry)
    ensures r.Some? ==> r.value.advice == SuggestedAction(s)
  {
    if !Visible(s) then None
    else
      var elapsed := if s.elapsedMs.Some? then Some(FormatElapsed(s.elapsedMs)) else None;
      Some(View(s.stepLabel, if NeedsAttention(s) then Destructive else Default,
                if IsTerminal(s) then None else elapsed,
                if IsTerminal(s) then elapsed else None,
                SuggestedAction(s), NeedsAttention(s) && hasRetry, s.correlationId.value))
  }

  /** The live counter and the total are never shown together. */
  lemma ElapsedShownOnce(s: FlowState, hasRetry: bool)
    requires Visible(s)
    ensures !(Render(s, hasRetry).value.liveElapsed.Some? && Render(s, hasRetry).value.totalElapsed.Some?)
  {
  }

  /** The banner is hidden in the hook's idle state, and shown for every attempt just started. */
  lemma HiddenWhenIdleShownWhenStarted(h: Hook, now: int, suffix: string, hasRetry: bool)
    ensures Render(Reset(h).state, hasRetry).None?
    ensures var s := StartAttempt(h, now, suffix).0.state;
            Render(s, hasRetry).Some? && Render(s, hasRetry).value.variant == Default
            && !Render(s, hasRetry).value.retryShown
  {
    var r := StartAttempt(h, now, suffix);
    assert r.1[0] == 'a';
  }

  /** A successful completion never offers a retry and is drawn in the default style. */
  lemma SuccessIsCalm(h: Hook, msg: Option<string>, now: int, hasRetry: bool)
    requires Active(h.state)
    ensures var s := CompleteAttempt(h, OutcomeSuccess, msg, now).state;
            Render(s, hasRetry).Some? && Render(s, hasRetry).value.variant == Default
            && !Render(s, hasRetry).value.retryShown
  {
  }
}

=== FILE: canister_warmup.dfy ===
/**
 * `useCanisterWarmup`: pings the backend once the actor exists. Each call of `warmup` is an
 * invocation with its own id, its own 30000 ms timer and its own outstanding ping; pings and
 * timers settle as separate events, in any order.
 */
module CanisterWarmup {
  const WarmupTimeoutMs: nat := 30000

  datatype WarmupState = Idle | Warming | Ready | Failed

  /** How an `actor.ping()` settles: resolves to exactly `true`, resolves to anything else, or throws. */
  datatype PingOutcome = ReturnedTrue | ReturnedOther | Threw

  /**
   * `warming` is `isWarmingRef`, `count` the invocation counter, `autoAttempted` the auto-start
   * guard; `pending` holds the ids whose ping has not settled and `timers` the deadline of each
   * invocation timer not yet cleared or fired; `scheduled` counts `retry` timeouts not yet run.
   */
  datatype Hook = Hook(state: WarmupState, warming: bool, count: nat, autoAttempted: bool,
                       pending: set<nat>, timers: map<nat, int>, scheduled: nat, autoStarts: nat)

  const Initial := Hook(Idle, false, 0, false, {}, map[], 0, 0)

  /** `warmup()` at clock `now`, with or without an actor. */
  function Warmup(h: Hook, hasActor: bool, now: int): (r: Hook)
    ensures !hasActor || h.warming ==> r == h
    ensures hasActor && !h.warming ==>
              && r.warming && r.state == Warming && r.count == h.count + 1
              && r.pending == h.pending + {r.count}
              && r.timers == h.timers[r.count := now + WarmupTimeoutMs]
              && r.autoAttempted == h.autoAttempted && r.scheduled == h.scheduled
  {
    if !hasActor then h
    else if h.warming then h
    else
      var id := h.count + 1;
      h.(warming := true, count := id, state := Warming, pending := h.pending + {id},
         timers := h.timers[id := now + WarmupTimeoutMs])
  }

  /** The ping of invocation `id` settles; its `finally` clears the in-flight flag whatever it was. */
  function PingSettled(h: Hook, id: nat, o: PingOutcome): (r: Hook)
    ensures id !in h.pending ==> r == h
    ensures id in h.pending ==>
              && !r.warming && r.pending == h.pending - {id} && r.timers == h.timers - {id}
              && (r.state == Ready <==> o == ReturnedTrue)
              && (r.state == Failed <==> o != ReturnedTrue)
  {
    if id !in h.pending then h
    else h.(state := if o == ReturnedTrue then Ready else Failed, warming := false,
            pending := h.pending - {id}, timers := h.timers - {id})
  }

  /** The timer of invocation `id` fires at `now`: it fails the hook only while some ping is in flight. */
  function TimerFires(h: Hook, id: nat, now: int): (r: Hook)
    ensures !(id in h.timers && now >= h.timers[id]) ==> r == h
    ensures id in h.timers && now >= h.timers[id] ==>
              && r.timers == h.timers - {id} && r.pending == h.pending && !r.warming
              && (h.warming ==> r.state == Failed) && (!h.warming ==> r.state == h.state)
  {
    if !(id in h.timers && now >= h.timers[id]) then h
    else if h.warming then h.(state := Failed, warming := false, timers := h.timers - {id})
    else h.(timers := h.timers - {id})
  }

  /** `retry`: back to idle, with a warmup scheduled on a zero-delay timer. */
  function Retry(h: Hook): (r: Hook)
    ensures r.state == Idle && r.scheduled == h.scheduled + 1
    ensures r.warming == h.warming && r.pending == h.pending && r.timers == h.timers && r.count == h.count
  {
    h.(state := Idle, scheduled := h.scheduled + 1)
  }

  /** A scheduled retry timeout runs `warmup`. */
  function RunScheduled(h: Hook, hasActor: bool, now: int): (r: Hook)
    ensures h.scheduled == 0 ==> r == h
    ensures h.scheduled > 0 ==> r.scheduled == h.scheduled - 1
    ensures h.scheduled > 0 && hasActor && !h.warming ==> r.state == Warming && r.count == h.count + 1
    ensures h.scheduled > 0 && (!hasActor || h.warming) ==> r.state == h.state && r.pending == h.pending
  {
    if h.scheduled == 0 then h else Warmup(h.(scheduled := h.scheduled - 1), hasActor, now)
  }

  /** The auto-start effect. */
  function AutoStart(h: Hook, autoStart: bool, hasActor: bool, now: int): (r: Hook)
    ensures !(autoStart && hasActor && !h.autoAttempted && h.state == Idle) ==> r == h
    ensures autoStart && hasActor && !h.autoAttempted && h.state == Idle ==>
              r.autoAttempted && r.autoStarts == h.autoStarts + 1
  {
    if autoStart && hasActor && !h.autoAttempted && h.state == Idle then
      Warmup(h.(autoAttempted := true, autoStarts := h.autoStarts + 1), hasActor, now)
    else h
  }

  datatype Event =
    | CallWarmup(hasActor: bool, now: int)
    | Settle(id: nat, outcome: PingOutcome)
    | Fire(id: nat, now: int)
    | CallRetry
    | Scheduled(hasActor: bool, now: int)
    | AutoStartEffect(autoStart: bool, hasActor: bool, now: int)

  function Step(h: Hook, e: Event): Hook {
    match e
    case CallWarmup(a, now) => Warmup(h, a, now)
    case Settle(id, o) => PingSettled(h, id, o)
    case Fire(id, now) => TimerFires(h, id, now)
    case CallRetry => Retry(h)
    case Scheduled(a, now) => RunScheduled(h, a, now)
    case AutoStartEffect(au, a, now) => AutoStart(h, au, a, now)
  }

  function Run(h: Hook, es: seq<Event>): Hook
    decreases |es|
  {
    if es == [] then h else Run(Step(h, es[0]), es[1..])
  }

  /**
   * Reachable hooks: ids come from the counter, a live timer belongs to an unsettled ping, the
   * in-flight flag means the newest ping is unsettled, and auto-start has fired at most once.
   */
  predicate Inv(h: Hook) {
    && (forall id :: id in h.pending ==> 1 <= id <= h.count)
    && (forall id :: id in h.timers ==> id in h.pending)
    && (h.warming ==> h.count in h.pending)
    && (h.autoStarts <= 1) && (h.autoStarts == 1 <==> h.autoAttempted)
  }

  lemma StepKeepsInv(h: Hook, e: Event)
    requires Inv(h)
    ensures Inv(Step(h, e))
  {
  }

  lemma {:induction false} RunKeepsInv(h: Hook, es: seq<Event>)
    requires Inv(h)
    ensures Inv(Run(h, es))
    decreases |es|
  {
    if es != [] {
      StepKeepsInv(h, es[0]);
      RunKeepsInv(Step(h, es[0]), es[1..]);
    }
  }

  /** A retry with no ping in flight starts a fresh invocation when its zero-delay timer runs. */
  lemma RetryRestartsWarmup(h: Hook, now: int)
    requires Inv(h) && !h.warming
    ensures var r := RunScheduled(Retry(h), true, now);
            r.state == Warming && r.count == h.count + 1 && r.count in r.pending && r.count !in h.pending
  {
  }

  /** Auto-start fires at most once per hook instance, whatever happens. */
  lemma {:induction false} AutoStartAtMostOnce(es: seq<Event>)
    ensures Run(Initial, es).autoStarts <= 1
  {
    RunKeepsInv(Initial, es);
  }

  /** While one ping is in flight, further `warmup` calls start nothing. */
  lemma InFlightBlocksWarmup(h: Hook, hasActor: bool, now: int)
    requires h.warming
    ensures Warmup(h, hasActor, now) == h
  {
  }

  /**
   * The in-flight guard does not bound outstanding pings: once the first invocation times out,
   * the guard is down and a second ping starts while the first is still unanswered.
   */
  lemma TwoPingsAfterTimeout(t0: int)
    ensures var h1 := Warmup(Initial, true, t0);
            var h2 := TimerFires(h1, 1, t0 + WarmupTimeoutMs);
            var h3 := Warmup(h2, true, t0 + WarmupTimeoutMs);
            h2.state == Failed && h3.pending == {1, 2}
  {
  }

  /** A ping that answers `true` after its timeout still replaces `failed` by `ready`. */
  lemma LateSuccessOverwritesFailure(t0: int)
    ensures var h := TimerFires(Warmup(Initial, true, t0), 1, t0 + WarmupTimeoutMs);
            h.state == Failed && PingSettled(h, 1, ReturnedTrue).state == Ready
  {
  }

  /** A stale ping settling clears the guard of the newer invocation still in flight. */
  lemma StalePingClearsNewerGuard(t0: int)
    ensures var h2 := Warmup(TimerFires(Warmup(Initial, true, t0), 1, t0 + WarmupTimeoutMs), true, t0 + WarmupTimeoutMs);
            h2.warming && !PingSettled(h2, 1, ReturnedOther).warming && 2 in PingSettled(h2, 1, ReturnedOther).pending
  {
  }
}

=== FILE: common.dfy ===
/** The `Option` and `Result` types and the thrown-value record shared by every module of the model. */
module Common {

  /** JavaScript `T | null` (or `T | undefined`) when only presence matters. */
  datatype Option<+T> = None | Some(value: T) {
    function GetOr(default: T): T {
      match this
      case Some(v) => v
      case None => default
    }
  }

  /** A value or the error a source function would have thrown. */
  datatype Result<+T, +E> = Ok(value: T) | Err(error: E)

  /** What a `catch (err)` block sees: an `Error` object with a message, or some other thrown value. */
  datatype Thrown = ErrorObject(name: string, message: string) | NonError

  /** `err instanceof Error ? err.message : fallback` */
  function MessageOr(t: Thrown, fallback: string): string {
    if t.ErrorObject? then t.message else fallback
  }

  /** `Error.prototype.toString`: "name: message", dropping whichever part is empty. */
  function ErrorToString(name: string, message: string): string {
    if name == "" then message else if message == "" then name else name + ": " + message
  }

  /** `error.message || error.toString()` for an `Error` object. */
  function MessageOrToString(name: string, message: string): (r: string)
    ensures message != "" ==> r == message
    ensures message == "" ==> r == name
  {
    if message != "" then message else ErrorToString(name, message)
  }

  /** A JavaScript string is truthy iff it is non-empty. */
  predicate Truthy(s: string) {
    s != ""
  }

  /** A nullable JavaScript string is truthy iff it is present and non-empty. */
  predicate TruthyOpt(o: Option<string>) {
    o.Some? && o.value != ""
  }

  /** A nullable millisecond timestamp is truthy iff it is present and non-zero. */
  predicate TruthyTime(o: Option<int>) {
    o.Some? && o.value != 0
  }
}

/** The parts of JavaScript string behaviour the modelled code relies on. */
module JsText {

  /** `toLowerCase` restricted to ASCII: upper-case Latin letters map to lower case. */
  function LowerChar(c: char): char {
    if 'A' <= c <= 'Z' then (c as int + 32) as char else c
  }

  function Lower(s: string): (r: string)
    ensures |r| == |s|
    ensures forall i :: 0 <= i < |s| ==> r[i] == LowerChar(s[i])
  {
    if s == [] then [] else [LowerChar(s[0])] + Lower(s[1..])
  }

  /** `s.includes(t)`: `t` occurs as a contiguous slice of `s`. */
  predicate Contains(s: string, t: string)
    decreases |s|
  {
    || (|t| <= |s| && s[..|t|] == t)
    || (s != [] && Contains(s[1..], t))
  }

  /** `s.toLowerCase().includes(t)` for a lower-case needle `t`. */
  predicate ContainsCI(s: string, t: string) {
    Contains(Lower(s), t)
  }

  /** Witness helper: if `t` sits at offset `i` of `s` then `s` contains `t`. */
  lemma ContainsAt(s: string, t: string, i: nat)
    requires i + |t| <= |s| && s[i..i + |t|] == t
    ensures Contains(s, t)
    decreases i
  {
    if i > 0 {
      assert s[1..][i - 1..i - 1 + |t|] == s[i..i + |t|];
      ContainsAt(s[1..], t, i - 1);
    }
  }

  /** A string contains every slice of itself that starts at its beginning. */
  lemma ContainsPrefix(s: string, t: string)
    requires |t| <= |s| && s[..|t|] == t
    ensures Contains(s, t)
  {
  }

  /** A needle with a character the haystack lacks never occurs in it. */
  lemma {:induction false} NotContainsMissingChar(s: string, t: string, c: char)
    requires c in t && c !in s
    ensures !Contains(s, t)
    decreases |s|
  {
    if s != [] {
      NotContainsMissingChar(s[1..], t, c);
    }
  }

  /** The characters `String.prototype.trim` removes: ECMAScript WhiteSpace and LineTerminator. */
  predicate IsSpace(c: char) {
    || c in {' ', '\t', '\n', '\r', '\U{000B}', '\U{000C}', '\U{00A0}', '\U{1680}'}
    || c in {'\U{2028}', '\U{2029}', '\U{202F}', '\U{205F}', '\U{3000}', '\U{FEFF}'}
    || '\U{2000}' <= c <= '\U{200A}'
  }

  /** Every character of `s` is white space (vacuously true of ""). */
  predicate Blank(s: string) {
    forall i :: 0 <= i < |s| ==> IsSpace(s[i])
  }

  function TrimStart(s: string): (r: string)
    ensures |r| <= |s| && r == s[|s| - |r|..]
    ensures r == [] || !IsSpace(r[0])
    ensures Blank(s[..|s| - |r|])
  {
    if s == [] then []
    else if IsSpace(s[0]) then
      var q := s[1..];
      var r := TrimStart(q);
      var t := s[..|s| - |r|];
      forall i | 0 <= i < |t| ensures IsSpace(t[i]) {
        if i == 0 {
          assert t[0] == s[0];
        } else {
          assert t[i] == q[..|q| - |r|][i - 1];
        }
      }
      assert r == q[|q| - |r|..] == s[|s| - |r|..];
      r
    else s
  }

  function TrimEnd(s: string): (r: string)
    ensures |r| <= |s| && r == s[..|r|]
    ensures r == [] || !IsSpace(r[|r| - 1])
    ensures Blank(s[|r|..])
  {
    if s == [] then []
    else if IsSpace(s[|s| - 1]) then
      var p := s[..|s| - 1];
      var r := TrimEnd(p);
      var t := s[|r|..];
      forall i | 0 <= i < |t| ensures IsSpace(t[i]) {
        if |r| + i < |p| {
          assert t[i] == p[|r|..][i];
        } else {
          assert t[i] == s[|s| - 1];
        }
      }
      r
    else s
  }

  /** `s.trim()`. */
  function Trim(s: string): (r: string)
    ensures |r| <= |s|
    ensures r == [] || (!IsSpace(r[0]) && !IsSpace(r[|r| - 1]))
  {
    TrimEnd(TrimStart(s))
  }

  /** `s.trim()` is empty exactly when `s` consists of white space only. */
  lemma {:induction false} TrimEmptyIff(s: string)
    ensures Trim(s) == [] <==> Blank(s)
  {
    var a := TrimStart(s);
    var b := TrimEnd(a);
    assert s == s[..|s| - |a|] + a;
    if b == [] {
      assert a[|b|..] == a;
      assert a == [];
      forall i | 0 <= i < |s| ensures IsSpace(s[i]) {
        assert s[i] == s[..|s| - |a|][i];
      }
    } else {
      var k := |s| - |a|;
      assert b[0] == a[0] == s[k];
    }
  }

  /** Trimming a string that already has no white space at either end leaves it alone. */
  lemma TrimOfTrimmed(s: string)
    requires s == [] || (!IsSpace(s[0]) && !IsSpace(s[|s| - 1]))
    ensures Trim(s) == s
  {
  }

  /** `s.trim().trim()` is `s.trim()`. */
  lemma TrimIdempotent(s: string)
    ensures Trim(Trim(s)) == Trim(s)
  {
    TrimOfTrimmed(Trim(s));
  }

  /** Decimal digits of a natural number, as `String(n)` prints it. */
  function NatToString(n: nat): (r: string)
    ensures |r| >= 1
    ensures forall i :: 0 <= i < |r| ==> '0' <= r[i] <= '9'
    decreases n
  {
    if n < 10 then [DigitChar(n)] else NatToString(n / 10) + [DigitChar(n % 10)]
  }

  function DigitChar(d: nat): (c: char)
    requires d < 10
    ensures '0' <= c <= '9'
  {
    ('0' as int + d) as char
  }

  /** `String(n)` for an integer number. */
  function IntToString(n: int): string {
    if n < 0 then "-" + NatToString(-n) else NatToString(n)
  }

  /** Reads a run of decimal digits back as a number; the inverse of `NatToString`. */
  function ParseDigits(s: string): nat
    requires forall i :: 0 <= i < |s| ==> '0' <= s[i] <= '9'
  {
    if s == [] then 0 else ParseDigits(s[..|s| - 1]) * 10 + (s[|s| - 1] as int - '0' as int)
  }

  lemma {:induction false} ParseNatToString(n: nat)
    ensures ParseDigits(NatToString(n)) == n
    decreases n
  {
    if n >= 10 {
      var r := NatToString(n);
      assert r[..|r| - 1] == NatToString(n / 10);
      ParseNatToString(n / 10);
    }
  }
}

/** `localStorage` / `sessionStorage` as a map from keys to string values. */
module Storage {
  import opened Common

  type Store = map<string, string>

  /** `getItem`: the stored value or null. */
  function Get(m: Store, key: string): (r: Option<string>)
    ensures r.Some? <==> key in m
    ensures r.Some? ==> r.value == m[key]
  {
    if key in m then Some(m[key]) else None
  }

  /** `getItem(key) === v`. */
  predicate HasValue(m: Store, key: string, v: string) {
    key in m && m[key] == v
  }

  /**
   * A Web Storage area. When `available` is false every access throws (storage disabled,
   * private mode, quota exceeded); code that catches the exception sees nothing change.
   */
  datatype Area = Area(items: Store, available: bool)

  /** `getItem` inside a `try` whose `catch` returns null. */
  function TryGet(a: Area, key: string): (r: Option<string>)
    ensures r.Some? <==> a.available && key in a.items
    ensures r.Some? ==> r.value == a.items[key]
  {
    if a.available then Get(a.items, key) else None
  }

  /** `setItem` inside a `try` whose `catch` only logs. */
  function TrySet(a: Area, key: string, v: string): (r: Area)
    ensures !a.available ==> r == a
    ensures r.available == a.available
    ensures a.available ==> key in r.items && r.items[key] == v && SameOutside(a.items, r.items, {key})
  {
    if a.available then a.(items := a.items[key := v]) else a
  }

  /** `removeItem` inside a `try` whose `catch` only logs. */
  function TryRemove(a: Area, key: string): (r: Area)
    ensures !a.available ==> r == a
    ensures r.available == a.available
    ensures a.available ==> key !in r.items && SameOutside(a.items, r.items, {key})
  {
    if a.available then a.(items := a.items - {key}) else a
  }

  /** Two stores agree on every key outside `keys`. */
  ghost predicate SameOutside(m: Store, m': Store, keys: set<string>) {
    && (forall k :: k !in keys ==> (k in m <==> k in m'))
    && (forall k :: k !in keys && k in m ==> m[k] == m'[k])
  }
}

=== FILE: daily_inputs.dfy ===
/**
 * `dailyInputs`: where the daily-steps request gets its big goal and weekly mountain from.
 * `JSON.parse` is a parameter (`None` when it throws); `localStorage` is read outside any `try`
 * and is modelled as always readable.
 */
module DailyInputs {
  import opened Common
  import opened Storage
  import opened JsValue
  import opened AIProxy

  const CachedMountainKey := "sweetsteps_weekly_mountain"

  datatype Source = Onboarding | BackendCache | NoSource

  /** The mountain is whatever object was found: a typed one from onboarding or the parsed cache entry. */
  datatype Inputs = Inputs(bigGoal: string, weeklyMountain: Value)

  datatype DailyInputsResult = DailyInputsResult(success: bool, inputs: Option<Inputs>, source: Source)

  const NoInputs := DailyInputsResult(false, None, NoSource)

  /** The shape check on the parsed cache entry: three string fields, possibly empty. */
  predicate CachedShapeOk(v: Value) {
    TruthyValue(v) && Field(v, "name").Str? && Field(v, "weeklyTarget").Str? && Field(v, "note").Str?
  }

  /** The cache entry is usable: present, truthy, parseable and of the right shape, with a truthy profile goal. */
  predicate CacheUsable(backendGoal: Option<string>, local: Store, parse: string -> Option<Value>) {
    && TruthyOpt(backendGoal) && TruthyOpt(Get(local, CachedMountainKey))
    && parse(local[CachedMountainKey]).Some? && CachedShapeOk(parse(local[CachedMountainKey]).value)
  }

  /** `deriveDailyInputs`. */
  function DeriveDailyInputs(onboardingGoal: Option<string>, onboardingMountain: Option<WeeklyMountain>,
                             backendGoal: Option<string>, local: Store, parse: string -> Option<Value>): (r: DailyInputsResult)
    ensures r.success <==> r.inputs.Some?
    ensures !r.success ==> r == NoInputs
    ensures TruthyOpt(onboardingGoal) && onboardingMountain.Some? ==>
              r == DailyInputsResult(true, Some(Inputs(onboardingGoal.value, MountainValue(onboardingMountain.value))), Onboarding)
    ensures r.source == BackendCache <==>
              !(TruthyOpt(onboardingGoal) && onboardingMountain.Some?) && CacheUsable(backendGoal, local, parse)
    ensures r.source == BackendCache ==>
              r.inputs == Some(Inputs(backendGoal.value, parse(local[CachedMountainKey]).value))
    ensures r.source == Onboarding <==> TruthyOpt(onboardingGoal) && onboardingMountain.Some?
    ensures r.success <==> r.source != NoSource
  {
    if TruthyOpt(onboardingGoal) && onboardingMountain.Some? then
      DailyInputsResult(true, Some(Inputs(onboardingGoal.value, MountainValue(onboardingMountain.value))), Onboarding)
    else if TruthyOpt(backendGoal) then
      var raw := Get(local, CachedMountainKey);
      if TruthyOpt(raw) then
        match parse(raw.value)
        case Some(v) =>
          if CachedShapeOk(v) then DailyInputsResult(true, Some(Inputs(backendGoal.value, v)), BackendCache)
          else NoInputs
        case None => NoInputs
      else NoInputs
    else NoInputs
  }

  /** Inputs are found exactly when onboarding has both values or the cache is usable; otherwise the bare failure. */
  lemma SucceedsIffSomeSource(og: Option<string>, om: Option<WeeklyMountain>, bg: Option<string>,
                              local: Store, parse: string -> Option<Value>)
    ensures var r := DeriveDailyInputs(og, om, bg, local, parse);
            && (r.success <==> (TruthyOpt(og) && om.Some?) || CacheUsable(bg, local, parse))
            && (!r.success ==> r == DailyInputsResult(false, None, NoSource))
  {
  }

  /** Only the cache key is read: stores that agree on it give the same result. */
  lemma ReadsOnlyCacheKey(og: Option<string>, om: Option<WeeklyMountain>, bg: Option<string>,
                          l1: Store, l2: Store, parse: string -> Option<Value>)
    requires Get(l1, CachedMountainKey) == Get(l2, CachedMountainKey)
    ensures DeriveDailyInputs(og, om, bg, l1, parse) == DeriveDailyInputs(og, om, bg, l2, parse)
  {
  }

  /**
   * The cache check is weaker than the AI response validator: a cached mountain with empty
   * fields is used, although `validateWeeklyMountain` would reject the same object.
   */
  lemma CacheAcceptsWhatValidatorRejects(goal: string, raw: string, local: Store)
    requires goal != "" && raw != "" && local == map[CachedMountainKey := raw]
    ensures var empty := MountainValue(WeeklyMountain("", "", ""));
            var parse := (s: string) => Some(empty);
            DeriveDailyInputs(None, None, Some(goal), local, parse).source == BackendCache
            && ValidateWeeklyMountain(empty).Err?
  {
    MountainFields(WeeklyMountain("", "", ""));
  }
}

=== FILE: display_name_dialog.dfy ===
/**
 * `DisplayNamePromptDialog`: the name field, its error line, and the save/skip handlers. The
 * dialog ignores outside dismissal, so only these handlers close it (through the parent).
 */
module DisplayNameDialog {
  import opened Common
  import opened JsText

  const EmptyNameError := "Please enter a display name"

  datatype Dialog = Dialog(name: string, error: Option<string>)

  /** The parent callback a handler invokes. */
  datatype Callback = OnSave(name: string) | OnSkip

  const Initial := Dialog("", None)

  /** The Save button's `disabled` property. */
  predicate SaveDisabled(d: Dialog) {
    Trim(d.name) == ""
  }

  /**
   * `handleSave`. `onSaveThrows` says whether the parent's callback throws; if it does, the
   * statement that empties the field is never reached.
   */
  function Save(d: Dialog, onSaveThrows: bool): (r: (Dialog, Option<Callback>))
    ensures Blank(d.name) ==> r == (d.(error := Some(EmptyNameError)), None)
    ensures !Blank(d.name) ==> r.1 == Some(OnSave(Trim(d.name))) && r.0.error.None?
    ensures !Blank(d.name) ==> r.0.name == (if onSaveThrows then d.name else "")
  {
    TrimEmptyIff(d.name);
    var trimmed := Trim(d.name);
    if trimmed == "" then (d.(error := Some(EmptyNameError)), None)
    else if onSaveThrows then (Dialog(d.name, None), Some(OnSave(trimmed)))
    else (Dialog("", None), Some(OnSave(trimmed)))
  }

  /** `handleSkip`: clear everything, then tell the parent. */
  function Skip(d: Dialog): (r: (Dialog, Option<Callback>))
    ensures r == (Initial, Some(OnSkip))
  {
    (Dialog("", None), Some(OnSkip))
  }

  /** `handleKeyDown`: Enter saves, any other key does nothing. */
  function KeyDown(d: Dialog, key: string, onSaveThrows: bool): (r: (Dialog, Option<Callback>))
    ensures key == "Enter" ==> r == Save(d, onSaveThrows)
    ensures key != "Enter" ==> r == (d, None)
  {
    if key == "Enter" then Save(d, onSaveThrows) else (d, None)
  }

  /** The input's `onChange`: take the new text, drop the error. */
  function Change(d: Dialog, value: string): (r: Dialog)
    ensures r.name == value && r.error.None?
  {
    Dialog(value, None)
  }

  /** The disabled Save button and the handler's own guard agree: saving calls the parent iff enabled. */
  lemma DisabledIffSaveRefuses(d: Dialog, throws: bool)
    ensures SaveDisabled(d) <==> Save(d, throws).1.None?
  {
    TrimEmptyIff(d.name);
  }

  /** The name handed to the parent is already trimmed, so trimming it again changes nothing. */
  lemma SavedNameIsTrimmed(d: Dialog, throws: bool)
    requires !SaveDisabled(d)
    ensures Save(d, throws).1.value.name != ""
    ensures Trim(Save(d, throws).1.value.name) == Save(d, throws).1.value.name
  {
    TrimEmptyIff(d.name);
    var n := Trim(d.name);
    assert Save(d, throws).1 == Some(OnSave(n));
    TrimIdempotent(d.name);
  }
}

=== FILE: display_name_gate.dfy ===
/**
 * `PostAuthDisplayNameGate`: after sign-in, decides whether to ask a new account for a display
 * name, and handles the dialog's save and skip callbacks. `localStorage` holds names and skip
 * markers, `sessionStorage` the new-account flag.
 */
module DisplayNameGate {
  import opened Common
  import opened JsText
  import opened Storage
  import opened Identity
  import opened SessionFlags
  import opened LocalDisplayName

  const OnboardingPath := "/onboarding"

  datatype Gate = Gate(showPrompt: bool, local: Area, session: Area, navigatedTo: Option<string>)

  /** The prompt condition for a signed-in, non-anonymous principal (source line 37). */
  predicate WantsPrompt(local: Area, session: Area, principal: string) {
    HasNewAccountFlag(session) && !TruthyOpt(GetDisplayName(local, principal)) && !HasSkipped(local, principal)
  }

  /** One run of the effect over (identity, isInitializing). */
  function PromptEffect(g: Gate, isInitializing: bool, identity: Option<Ident>): (r: Gate)
    ensures r.local == g.local && r.navigatedTo == g.navigatedTo
    ensures isInitializing || identity.None? ==> !r.showPrompt && r.session == g.session
    ensures identity.Some? && identity.value.principal.IsAnonymous() ==> !r.showPrompt && r.session == g.session
    ensures (!isInitializing && identity.Some? && !identity.value.principal.IsAnonymous()) ==>
              var p := identity.value.principal.text;
              && (r.showPrompt <==> WantsPrompt(g.local, g.session, p))
              && (HasNewAccountFlag(g.session) && !r.showPrompt ==> r.session == ClearNewAccountFlag(g.session))
              && (!HasNewAccountFlag(g.session) ==> r.session == g.session)
    ensures r.showPrompt ==> r.session == g.session
  {
    if isInitializing || identity.None? then g.(showPrompt := false)
    else if identity.value.principal.IsAnonymous() then g.(showPrompt := false)
    else
      var p := identity.value.principal.text;
      var existing := TruthyOpt(GetDisplayName(g.local, p));
      var skipped := HasSkipped(g.local, p);
      var isNew := HasNewAccountFlag(g.session);
      if isNew && !existing && !skipped then g.(showPrompt := true)
      else if isNew && (existing || skipped) then g.(showPrompt := false, session := ClearNewAccountFlag(g.session))
      else g.(showPrompt := false)
  }

  /**
   * `handleSave`: nothing without an identity; otherwise store the name (an exception from
   * `setDisplayName` escapes before anything else happens), hide the prompt, clear the flag and
   * go to onboarding.
   */
  function HandleSave(g: Gate, identity: Option<Ident>, name: string): (r: Result<Gate, SaveError>)
    ensures identity.None? ==> r == Ok(g)
    ensures identity.Some? ==>
              match SetDisplayName(g.local, identity.value.principal.text, name)
              case Err(e) => r == Err(e)
              case Ok(l) => r == Ok(Gate(false, l, ClearNewAccountFlag(g.session), Some(OnboardingPath)))
  {
    if identity.None? then Ok(g)
    else
      match SetDisplayName(g.local, identity.value.principal.text, name)
      case Err(e) => Err(e)
      case Ok(l) => Ok(Gate(false, l, ClearNewAccountFlag(g.session), Some(OnboardingPath)))
  }

  /** `handleSkip`: nothing without an identity; otherwise mark skipped, hide, clear the flag, go to onboarding. */
  function HandleSkip(g: Gate, identity: Option<Ident>): (r: Gate)
    ensures identity.None? ==> r == g
    ensures identity.Some? ==>
              && !r.showPrompt && r.navigatedTo == Some(OnboardingPath)
              && r.local == SetSkipped(g.local, identity.value.principal.text)
              && r.session == ClearNewAccountFlag(g.session)
  {
    if identity.None? then g
    else Gate(false, SetSkipped(g.local, identity.value.principal.text), ClearNewAccountFlag(g.session), Some(OnboardingPath))
  }

  /** Once the name is saved, the effect never asks the same principal again. */
  lemma NoPromptAfterSave(g: Gate, id: Ident, name: string)
    requires HandleSave(g, Some(id), name).Ok?
    ensures !PromptEffect(HandleSave(g, Some(id), name).value, false, Some(id)).showPrompt
  {
    var p := id.principal.text;
    SaveThenGet(g.local, p, name, p);
  }

  /** Once skipped, the effect never asks again, even when storage is unavailable. */
  lemma NoPromptAfterSkip(g: Gate, id: Ident)
    ensures !PromptEffect(HandleSkip(g, Some(id)), false, Some(id)).showPrompt
  {
    SkipKeepsNames(g.local, id.principal.text, id.principal.text);
  }

  /** Without a new-account flag the prompt never shows, and the effect writes nothing. */
  lemma NoFlagNoPrompt(g: Gate, init: bool, id: Option<Ident>)
    requires !HasNewAccountFlag(g.session)
    ensures PromptEffect(g, init, id) == g.(showPrompt := false)
  {
  }
}

=== FILE: flow_diagnostics.dfy ===
/** `authDiagnostics`: the steps of a sign-in flow, their banner labels and correlation ids. */
module AuthDiagnostics {
  import opened Common
  import opened JsText

  datatype AuthStep =
    | Idle | Click | IIInitiation | IIPopupOpen | IICallback | IdentityValidation | ActorReady
    | RbacBootstrap | OnboardingCheck | Navigation | Success | Error | Stalled

  /** Every step, in declaration order. */
  const AllSteps: seq<AuthStep> :=
    [Idle, Click, IIInitiation, IIPopupOpen, IICallback, IdentityValidation, ActorReady,
     RbacBootstrap, OnboardingCheck, Navigation, Success, Error, Stalled]

  /** `getStepLabel`: the table entry (every entry is non-empty, so the `|| step` fallback never applies). */
  function StepLabel(s: AuthStep): (r: string)
    ensures r != ""
  {
    match s
    case Idle => "Ready"
    case Click => "Starting..."
    case IIInitiation => "Opening Internet Identity..."
    case IIPopupOpen => "Waiting for authentication..."
    case IICallback => "Processing authentication..."
    case IdentityValidation => "Validating identity..."
    case ActorReady => "Connecting to backend..."
    case RbacBootstrap => "Initializing permissions..."
    case OnboardingCheck => "Checking account status..."
    case Navigation => "Redirecting..."
    case Success => "Success!"
    case Error => "Error"
    case Stalled => "Stalled"
  }

  /** Reading a banner label back: the step whose label it is, if any. */
  function StepOfLabel(text: string): (r: Option<AuthStep>)
    ensures r.Some? ==> StepLabel(r.value) == text
  {
    if text == "Ready" then Some(Idle)
    else if text == "Starting..." then Some(Click)
    else if text == "Opening Internet Identity..." then Some(IIInitiation)
    else if text == "Waiting for authentication..." then Some(IIPopupOpen)
    else if text == "Processing authentication..." then Some(IICallback)
    else if text == "Validating identity..." then Some(IdentityValidation)
    else if text == "Connecting to backend..." then Some(ActorReady)
    else if text == "Initializing permissions..." then Some(RbacBootstrap)
    else if text == "Checking account status..." then Some(OnboardingCheck)
    else if text == "Redirecting..." then Some(Navigation)
    else if text == "Success!" then Some(Success)
    else if text == "Error" then Some(Error)
    else if text == "Stalled" then Some(Stalled)
    else None
  }

  /** The label identifies the step: reading it back gives the step again. */
  lemma LabelRoundTrip(s: AuthStep)
    ensures StepOfLabel(StepLabel(s)) == Some(s)
  {
    LabelShapes();
  }

  /** The length and first character of every label; no two labels agree on both. */
  lemma LabelShapes()
    ensures |StepLabel(Idle)| == 5 && StepLabel(Idle)[0] == 'R'
    ensures |StepLabel(Click)| == 11 && StepLabel(Click)[0] == 'S'
    ensures |StepLabel(IIInitiation)| == 28 && StepLabel(IIInitiation)[0] == 'O'
    ensures |StepLabel(IIPopupOpen)| == 29 && StepLabel(IIPopupOpen)[0] == 'W'
    ensures |StepLabel(IICallback)| == 28 && StepLabel(IICallback)[0] == 'P'
    ensures |StepLabel(IdentityValidation)| == 22 && StepLabel(IdentityValidation)[0] == 'V'
    ensures |StepLabel(ActorReady)| == 24 && StepLabel(ActorReady)[0] == 'C'
    ensures |StepLabel(RbacBootstrap)| == 27 && StepLabel(RbacBootstrap)[0] == 'I'
    ensures |StepLabel(OnboardingCheck)| == 26 && StepLabel(OnboardingCheck)[0] == 'C'
    ensures |StepLabel(Navigation)| == 14 && StepLabel(Navigation)[0] == 'R'
    ensures |StepLabel(Success)| == 8 && StepLabel(Success)[0] == 'S'
    ensures |StepLabel(Error)| == 5 && StepLabel(Error)[0] == 'E'
    ensures |StepLabel(Stalled)| == 7 && StepLabel(Stalled)[0] == 'S'
  {
  }

  /** Hence the thirteen labels are pairwise distinct. */
  lemma LabelsDistinct(a: AuthStep, b: AuthStep)
    requires a != b
    ensures StepLabel(a) != StepLabel(b)
  {
    LabelRoundTrip(a);
    LabelRoundTrip(b);
  }

  /** The step type has exactly thirteen values. */
  lemma ThirteenSteps(s: AuthStep)
    ensures |AllSteps| == 13
    ensures s in AllSteps
    ensures forall i, j :: 0 <= i < j < |AllSteps| ==> AllSteps[i] != AllSteps[j]
  {
  }

  /** `generateCorrelationId` at clock `now`; `suffix` stands for the random base-36 part. */
  function CorrelationId(now: int, suffix: string): (r: string)
    ensures |r| > 5 && r[..5] == "auth-"
  {
    "auth-" + IntToString(now) + "-" + suffix
  }
}

/**
 * `useAuthFlowDiagnostics`: the step log of one sign-in attempt. The state record and the
 * step-start ref form one value; each callback is a function of it and the clock. The 100 ms
 * elapsed-time interval is not modelled.
 */
module AuthFlowDiagnostics {
  import opened Common
  import opened AuthDiagnostics

  /** Free-form metadata attached to a closed step. */
  type Metadata = map<string, string>

  datatype StepTiming = StepTiming(step: AuthStep, startTime: int, endTime: Option<int>,
                                   duration: Option<int>, metadata: Option<Metadata>)

  datatype Outcome = OutcomeSuccess | OutcomeError | OutcomeStalled

  datatype SlowStep = SlowStep(step: AuthStep, duration: int)

  datatype FlowState = FlowState(correlationId: Option<string>, currentStep: AuthStep, stepLabel: string,
                                 startTime: Option<int>, elapsedMs: Option<int>, steps: seq<StepTiming>,
                                 outcome: Option<Outcome>, outcomeMessage: Option<string>,
                                 slowStep: Option<SlowStep>)

  /** The hook: its state and `stepStartTimeRef`. */
  datatype Hook = Hook(state: FlowState, stepStart: Option<int>)

  const IdleState := FlowState(None, Idle, StepLabel(Idle), None, None, [], None, None, None)
  const Initial := Hook(IdleState, None)

  /** `DEFAULT_THRESHOLDS`: the steps that have a slow-step budget, in milliseconds. */
  function Threshold(s: AuthStep): (r: Option<int>)
    ensures r.Some? <==> s in {IdentityValidation, ActorReady, RbacBootstrap, OnboardingCheck}
  {
    match s
    case IdentityValidation => Some(2000)
    case ActorReady => Some(3000)
    case RbacBootstrap => Some(5000)
    case OnboardingCheck => Some(5000)
    case _ => None
  }

  /** The step the outcome is reported as. */
  function OutcomeStep(o: Outcome): AuthStep {
    match o
    case OutcomeSuccess => Success
    case OutcomeError => Error
    case OutcomeStalled => Stalled
  }

  /** An attempt is in progress: truthy correlation id and start time. */
  predicate Active(s: FlowState) {
    TruthyOpt(s.correlationId) && TruthyTime(s.startTime)
  }

  /** A step counts as closed when its end time is truthy. */
  predicate Closed(t: StepTiming) {
    TruthyTime(t.endTime)
  }

  function Last<T>(xs: seq<T>): T
    requires xs != []
  {
    xs[|xs| - 1]
  }

  /** `now - stepStartTimeRef.current` when the ref is truthy. */
  function SinceStepStart(h: Hook, now: int): (r: Option<int>)
    ensures r.Some? <==> TruthyTime(h.stepStart)
  {
    if TruthyTime(h.stepStart) then Some(now - h.stepStart.value) else None
  }

  /** Closes the last step if it is still open; every other step is left alone. */
  function CloseLast(steps: seq<StepTiming>, now: int, duration: Option<int>, meta: Option<Metadata>, setMeta: bool): (r: seq<StepTiming>)
    ensures |r| == |steps|
    ensures forall i :: 0 <= i < |steps| - 1 ==> r[i] == steps[i]
    ensures steps != [] && !Closed(Last(steps)) ==>
              Last(r) == Last(steps).(endTime := Some(now), duration := duration,
                                      metadata := if setMeta then meta else Last(steps).metadata)
    ensures steps == [] || Closed(Last(steps)) ==> r == steps
  {
    if steps != [] && !Closed(Last(steps)) then
      var t := Last(steps);
      steps[..|steps| - 1] + [t.(endTime := Some(now), duration := duration,
                                 metadata := if setMeta then meta else t.metadata)]
    else steps
  }

  /** `startAttempt`: a fresh log with one open 'click' step, and the new correlation id. */
  function StartAttempt(h: Hook, now: int, suffix: string): (r: (Hook, string))
    ensures r.0.state.correlationId == Some(r.1) && |r.1| > 5 && r.1[..5] == "auth-"
    ensures r.0.state.currentStep == Click && r.0.state.stepLabel == StepLabel(Click)
    ensures r.0.state.steps == [StepTiming(Click, now, None, None, None)]
    ensures r.0.state.startTime == Some(now) && r.0.state.elapsedMs == Some(0)
    ensures r.0.state.outcome.None? && r.0.state.outcomeMessage.None? && r.0.state.slowStep.None?
    ensures r.0.stepStart == Some(now)
  {
    var id := CorrelationId(now, suffix);
    (Hook(FlowState(Some(id), Click, StepLabel(Click), Some(now), Some(0),
                    [StepTiming(Click, now, None, None, None)], None, None, None), Some(now)), id)
  }

  /** `transitionStep(newStep, metadata)` at clock `now`. */
  function TransitionStep(h: Hook, newStep: AuthStep, meta: Option<Metadata>, now: int): (r: Hook)
    ensures !Active(h.state) ==> r == h
    ensures Active(h.state) ==>
              && |r.state.steps| == |h.state.steps| + 1
              && Last(r.state.steps) == StepTiming(newStep, now, None, None, None)
              && r.state.currentStep == newStep && r.state.stepLabel == StepLabel(newStep)
              && r.state.elapsedMs == Some(now - h.state.startTime.value)
              && r.state.correlationId == h.state.correlationId && r.state.startTime == h.state.startTime
              && r.state.outcome == h.state.outcome && r.stepStart == Some(now)
    ensures Active(h.state) ==> forall i :: 0 <= i < |h.state.steps| - 1 ==> r.state.steps[i] == h.state.steps[i]
    ensures Active(h.state) && h.state.steps != [] && !Closed(Last(h.state.steps)) ==>
              r.state.steps[|h.state.steps| - 1]
                == Last(h.state.steps).(endTime := Some(now), duration := SinceStepStart(h, now), metadata := meta)
    ensures Active(h.state) && h.state.steps != [] && Closed(Last(h.state.steps)) ==>
              r.state.steps[|h.state.steps| - 1] == Last(h.state.steps)
  {
    var s := h.state;
    if !Active(s) then h
    else
      var dur := SinceStepStart(h, now);
      var closed := CloseLast(s.steps, now, dur, meta, true);
      var slow :=
        if dur.Some? && s.steps != [] && Threshold(Last(s.steps).step).Some?
           && dur.value > Threshold(Last(s.steps).step).value
        then Some(SlowStep(Last(s.steps).step, dur.value))
        else s.slowStep;
      Hook(s.(currentStep := newStep, stepLabel := StepLabel(newStep),
              steps := closed + [StepTiming(newStep, now, None, None, None)],
              elapsedMs := Some(now - s.startTime.value), slowStep := slow),
           Some(now))
  }

  /** `completeAttempt(outcome, message)` at clock `now`. */
  function CompleteAttempt(h: Hook, o: Outcome, message: Option<string>, now: int): (r: Hook)
    ensures !Active(h.state) ==> r == h
    ensures Active(h.state) ==>
              && |r.state.steps| == |h.state.steps|
              && r.state.currentStep == OutcomeStep(o) && r.state.stepLabel == StepLabel(OutcomeStep(o))
              && r.state.outcome == Some(o)
              && (r.state.outcomeMessage.Some? <==> TruthyOpt(message))
              && (TruthyOpt(message) ==> r.state.outcomeMessage == message)
              && r.state.elapsedMs == Some(now - h.state.startTime.value)
              && r.state.slowStep == h.state.slowStep && r == r.(stepStart := h.stepStart)
              && r.state.correlationId == h.state.correlationId && r.state.startTime == h.state.startTime
    ensures Active(h.state) ==> forall i :: 0 <= i < |h.state.steps| - 1 ==> r.state.steps[i] == h.state.steps[i]
    ensures Active(h.state) && h.state.steps != [] && !Closed(Last(h.state.steps)) ==>
              Last(r.state.steps) == Last(h.state.steps).(endTime := Some(now), duration := SinceStepStart(h, now))
    ensures Active(h.state) && h.state.steps != [] && Closed(Last(h.state.steps)) ==>
              Last(r.state.steps) == Last(h.state.steps)
  {
    var s := h.state;
    if !Active(s) then h
    else
      var closed := CloseLast(s.steps, now, SinceStepStart(h, now), None, false);
      h.(state := s.(currentStep := OutcomeStep(o), stepLabel := StepLabel(OutcomeStep(o)), steps := closed,
                     outcome := Some(o), outcomeMessage := if TruthyOpt(message) then message else None,
                     elapsedMs := Some(now - s.startTime.value)))
  }

  /** `reset`: back to the idle state with an empty ref. */
  function Reset(h: Hook): (r: Hook)
    ensures r.state.currentStep == Idle && r.state.steps == [] && !Active(r.state)
    ensures r.stepStart.None? && r.state.outcome.None? && r.state.slowStep.None?
    ensures r.state.correlationId.None? && r.state.startTime.None? && r.state.elapsedMs.None?
    ensures r.state.outcomeMessage.None? && r.state.stepLabel == StepLabel(Idle)
  {
    Initial
  }

  datatype Event =
    | Start(now: int, suffix: string)
    | Transition(step: AuthStep, meta: Option<Metadata>, now: int)
    | Complete(outcome: Outcome, message: Option<string>, now: int)
    | ResetFlow

  function Step(h: Hook, e: Event): Hook {
    match e
    case Start(now, suffix) => StartAttempt(h, now, suffix).0
    case Transition(st, meta, now) => TransitionStep(h, st, meta, now)
    case Complete(o, msg, now) => CompleteAttempt(h, o, msg, now)
    case ResetFlow => Reset(h)
  }

  function Run(h: Hook, es: seq<Event>): Hook
    decreases |es|
  {
    if es == [] then h else Run(Step(h, es[0]), es[1..])
  }

  /** Clock readings are positive (`Date.now()` after 1970). */
  predicate PositiveClock(e: Event) {
    !e.ResetFlow? ==> e.now > 0
  }

  /**
   * Reachable hooks: the log is non-empty exactly during an attempt and the ref holds the last
   * step's start; only the last step may be open; every closed step's duration is its end
   * minus its start.
   */
  predicate Inv(h: Hook) {
    var steps := h.state.steps;
    && (steps == [] <==> !Active(h.state))
    && (steps == [] ==> h.stepStart.None?)
    && (steps != [] ==> h.stepStart == Some(Last(steps).startTime))
    && (forall i :: 0 <= i < |steps| ==> steps[i].startTime > 0)
    && (forall i :: 0 <= i < |steps| - 1 ==> Closed(steps[i]))
    && (forall i :: 0 <= i < |steps| && Closed(steps[i]) ==>
          steps[i].duration == Some(steps[i].endTime.value - steps[i].startTime))
  }

  lemma InitialInv()
    ensures Inv(Initial)
  {
  }

  lemma TransitionKeepsInv(h: Hook, st: AuthStep, meta: Option<Metadata>, now: int)
    requires Inv(h) && now > 0
    ensures Inv(TransitionStep(h, st, meta, now))
  {
    if Active(h.state) {
      var steps := h.state.steps;
      var n := |steps|;
      var closed := CloseLast(steps, now, SinceStepStart(h, now), meta, true);
      var rs := TransitionStep(h, st, meta, now).state.steps;
      assert rs == closed + [StepTiming(st, now, None, None, None)];
      assert Closed(closed[n - 1]);
      assert closed[n - 1].startTime == steps[n - 1].startTime;
      assert closed[n - 1].duration == Some(closed[n - 1].endTime.value - closed[n - 1].startTime);
      forall i | 0 <= i < n + 1
        ensures rs[i].startTime > 0
        ensures i < n ==> Closed(rs[i])
        ensures Closed(rs[i]) ==> rs[i].duration == Some(rs[i].endTime.value - rs[i].startTime)
      {
        if i < n - 1 {
          assert rs[i] == steps[i];
        }
      }
    }
  }

  lemma CompleteKeepsInv(h: Hook, o: Outcome, msg: Option<string>, now: int)
    requires Inv(h) && now > 0
    ensures Inv(CompleteAttempt(h, o, msg, now))
  {
    if Active(h.state) {
      var steps := h.state.steps;
      var n := |steps|;
      var rs := CompleteAttempt(h, o, msg, now).state.steps;
      assert rs == CloseLast(steps, now, SinceStepStart(h, now), None, false);
      assert rs[n - 1].startTime == steps[n - 1].startTime;
      forall i | 0 <= i < n
        ensures rs[i].startTime > 0
        ensures i < n - 1 ==> Closed(rs[i])
        ensures Closed(rs[i]) ==> rs[i].duration == Some(rs[i].endTime.value - rs[i].startTime)
      {
        if i < n - 1 {
          assert rs[i] == steps[i];
        }
      }
    }
  }

  lemma StepKeepsInv(h: Hook, e: Event)
    requires Inv(h) && PositiveClock(e)
    ensures Inv(Step(h, e))
  {
    match e
    case Start(now, suffix) =>
    case Transition(st, meta, now) => TransitionKeepsInv(h, st, meta, now);
    case Complete(o, msg, now) => CompleteKeepsInv(h, o, msg, now);
    case ResetFlow =>
  }

  lemma {:induction false} RunKeepsInv(h: Hook, es: seq<Event>)
    requires Inv(h)
    requires forall i :: 0 <= i < |es| ==> PositiveClock(es[i])
    ensures Inv(Run(h, es))
    decreases |es|
  {
    if es != [] {
      StepKeepsInv(h, es[0]);
      RunKeepsInv(Step(h, es[0]), es[1..]);
    }
  }

  /** After any history with positive clocks, at most one step is open, and it is the last one. */
  lemma {:induction false} AtMostOneOpenStep(es: seq<Event>, i: int, j: int)
    requires forall k :: 0 <= k < |es| ==> PositiveClock(es[k])
    requires var steps := Run(Initial, es).state.steps;
             0 <= i < |steps| && 0 <= j < |steps| && !Closed(steps[i]) && !Closed(steps[j])
    ensures i == j == |Run(Initial, es).state.steps| - 1
  {
    RunKeepsInv(Initial, es);
  }

  /**
   * A transition records the closing step as slow exactly when its measured duration exceeds
   * that step's budget; otherwise the previous slow step is kept.
   */
  lemma SlowStepIffOverBudget(h: Hook, st: AuthStep, meta: Option<Metadata>, now: int)
    requires Inv(h) && Active(h.state) && now > 0
    requires !Closed(Last(h.state.steps))
    ensures var r := TransitionStep(h, st, meta, now);
            var closed := r.state.steps[|h.state.steps| - 1];
            var budget := Threshold(closed.step);
            && Closed(closed) && closed.step == Last(h.state.steps).step
            && (if budget.Some? && closed.duration.value > budget.value
                then r.state.slowStep == Some(SlowStep(closed.step, closed.duration.value))
                else r.state.slowStep == h.state.slowStep)
  {
  }

  /** A second `completeAttempt` overwrites the outcome but leaves the already-closed log as it is. */
  lemma SecondCompleteKeepsLog(h: Hook, o1: Outcome, o2: Outcome, m1: Option<string>, m2: Option<string>, t1: int, t2: int)
    requires Inv(h) && Active(h.state) && t1 > 0
    ensures var c1 := CompleteAttempt(h, o1, m1, t1);
            var c2 := CompleteAttempt(c1, o2, m2, t2);
            && c1.state.steps != [] && Closed(Last(c1.state.steps))
            && c2.state.steps == c1.state.steps && c2.state.outcome == Some(o2)
  {
    var c1 := CompleteAttempt(h, o1, m1, t1);
    assert Closed(Last(c1.state.steps));
  }
}

=== FILE: identity.dfy ===
/**
 * The identity an Internet Identity client hands out, reduced to what the front end inspects:
 * its principal (anonymous or not) and, for a delegation identity, whether its delegation chain
 * is still valid at the moment of the check (`isDelegationValid` is a foreign call, so its answer
 * is part of the value).
 */
module Identity {
  import opened Common

  /** Textual form of the anonymous principal (the one-byte principal 0x04). */
  const AnonymousPrincipalText := "2vxsx-fae"

  datatype Principal = Principal(text: string) {
    predicate IsAnonymous() {
      text == AnonymousPrincipalText
    }
  }

  datatype Kind = DelegationIdentity(delegationValid: bool) | OtherIdentity

  datatype Ident = Ident(principal: Principal, kind: Kind)

  /** `loginStatus` of the Internet Identity hook (`useInternetIdentity` is not part of this model). */
  datatype Status = Initializing | Idle | LoggingIn | Success | LoginError

  /** `isIdentityValid`: usable for authenticated calls. */
  function IsIdentityValid(id: Option<Ident>): (r: bool)
    ensures id.None? ==> !r
    ensures id.Some? && id.value.principal.IsAnonymous() ==> !r
    ensures (id.Some? && !id.value.principal.IsAnonymous() && id.value.kind.DelegationIdentity?)
              ==> (r <==> id.value.kind.delegationValid)
    ensures id.Some? && !id.value.principal.IsAnonymous() && id.value.kind.OtherIdentity? ==> r
  {
    match id
    case None => false
    case Some(i) =>
      if i.principal.IsAnonymous() then false
      else if i.kind.DelegationIdentity? then i.kind.delegationValid
      else true
  }

  /** `isSessionStale`: an identity is present but no longer usable. */
  function IsSessionStale(id: Option<Ident>): (r: bool)
    ensures id.None? ==> !r
    ensures r ==> id.Some? && !IsIdentityValid(id)
  {
    if id.None? then false else !IsIdentityValid(id)
  }

  /** Every identity value is exactly one of: absent, valid, stale. */
  lemma ValidityTrichotomy(id: Option<Ident>)
    ensures id.None? || IsIdentityValid(id) || IsSessionStale(id)
    ensures !(IsIdentityValid(id) && IsSessionStale(id))
    ensures id.Some? ==> (IsSessionStale(id) <==> !IsIdentityValid(id))
  {
  }

  /** A valid identity is present and has a non-anonymous principal. */
  lemma ValidImpliesNamed(id: Option<Ident>)
    requires IsIdentityValid(id)
    ensures id.Some? && !id.value.principal.IsAnonymous()
  {
  }
}

=== FILE: identity_card.dfy ===
/** `IdentityConfirmationCard`: how the current principal and its display name are shown. */
module IdentityCard {
  import opened Common

  /** Principal text longer than this is shortened. */
  const MaxShownLength: nat := 20

  /** `principal.length > 20 ? first 10 + '...' + last 6 : principal`. */
  function DisplayPrincipal(principal: string): (r: string)
    ensures |principal| <= MaxShownLength ==> r == principal
    ensures |principal| > MaxShownLength ==>
              && |r| == 19
              && r[..10] == principal[..10]
              && r[10..13] == "..."
              && r[13..] == principal[|principal| - 6..]
    ensures |r| <= |principal|
  {
    if |principal| > MaxShownLength then principal[..10] + "..." + principal[|principal| - 6..]
    else principal
  }

  /** What the card renders around the principal. */
  datatype View = View(nameBlock: Option<string>, principalLabel: string, continueLabel: string,
                       buttonsDisabled: bool, shownPrincipal: string)

  function Render(principal: string, displayName: Option<string>, isLoading: bool): (v: View)
    ensures v.nameBlock.Some? <==> TruthyOpt(displayName)
    ensures v.nameBlock.Some? ==> v.nameBlock == displayName
    ensures v.principalLabel == (if TruthyOpt(displayName) then "Principal ID" else "Current Identity")
    ensures v.buttonsDisabled <==> isLoading
    ensures v.continueLabel == (if isLoading then "Checking..." else "Continue with this identity")
    ensures v.shownPrincipal == DisplayPrincipal(principal)
    ensures v.nameBlock.Some? ==> v.nameBlock.value != ""
    ensures v.principalLabel == "Principal ID" <==> v.nameBlock.Some?
    ensures |v.shownPrincipal| <= MaxShownLength
  {
    View(if TruthyOpt(displayName) then displayName else None,
         if TruthyOpt(displayName) then "Principal ID" else "Current Identity",
         if isLoading then "Checking..." else "Continue with this identity",
         isLoading,
         DisplayPrincipal(principal))
  }

  /** Shortening is stable: a shown principal is never shortened again. */
  lemma DisplayIsIdempotent(principal: string)
    ensures DisplayPrincipal(DisplayPrincipal(principal)) == DisplayPrincipal(principal)
  {
  }

  /** A long principal keeps its first 10 and last 6 characters. */
  lemma LongPrincipalKeepsEnds(principal: string, i: nat)
    requires |principal| > MaxShownLength
    ensures i < 10 ==> DisplayPrincipal(principal)[i] == principal[i]
    ensures i < 6 ==> DisplayPrincipal(principal)[13 + i] == principal[|principal| - 6 + i]
  {
    var r := DisplayPrincipal(principal);
    if i < 10 { assert r[..10][i] == r[i]; }
    if i < 6 { assert r[13..][i] == r[13 + i]; }
  }
}

=== FILE: ii_config.dfy ===
/**
 * `iiConfig`: the option records handed to the Internet Identity auth client. The loaded
 * configuration and the `II_URL` environment value are inputs.
 */
module IIConfig {
  import opened Common

  /** Nanoseconds in one hour. */
  const OneHourInNanoseconds: nat := 3_600_000_000_000
  const DefaultIdentityProvider := "https://identity.ic0.app"

  /** The part of the loaded configuration these functions read: `ii_derivation_origin`. */
  datatype Config = Config(iiDerivationOrigin: Option<string>)

  datatype IdleOptions = IdleOptions(disableDefaultIdleCallback: bool, disableIdle: bool)
  datatype CreateLoginOptions = CreateLoginOptions(derivationOrigin: string)
  datatype CreateOptions = CreateOptions(idleOptions: IdleOptions, loginOptions: Option<CreateLoginOptions>)
  datatype LoginOptions = LoginOptions(identityProvider: string, maxTimeToLive: nat, derivationOrigin: Option<string>)

  /** The `...(config.ii_derivation_origin && {...})` spread: present only for a truthy origin. */
  function Origin(c: Config): (r: Option<string>)
    ensures r.Some? <==> TruthyOpt(c.iiDerivationOrigin)
    ensures r.Some? ==> r == c.iiDerivationOrigin
  {
    if TruthyOpt(c.iiDerivationOrigin) then c.iiDerivationOrigin else None
  }

  /** `getAuthClientCreateOptions`. */
  function GetAuthClientCreateOptions(c: Config): (r: CreateOptions)
    ensures r.idleOptions.disableDefaultIdleCallback && r.idleOptions.disableIdle
    ensures r.loginOptions.Some? <==> TruthyOpt(c.iiDerivationOrigin)
    ensures r.loginOptions.Some? ==> Some(r.loginOptions.value.derivationOrigin) == c.iiDerivationOrigin
  {
    CreateOptions(IdleOptions(true, true),
                  match Origin(c) case Some(o) => Some(CreateLoginOptions(o)) case None => None)
  }

  /** `getLoginOptions`, given the environment's `II_URL` (absent when unset). */
  function GetLoginOptions(c: Config, iiUrl: Option<string>): (r: LoginOptions)
    ensures TruthyOpt(iiUrl) ==> r.identityProvider == iiUrl.value
    ensures !TruthyOpt(iiUrl) ==> r.identityProvider == DefaultIdentityProvider
    ensures r.maxTimeToLive == 2_592_000_000_000_000
    ensures r.derivationOrigin.Some? <==> TruthyOpt(c.iiDerivationOrigin)
    ensures r.derivationOrigin.Some? ==> r.derivationOrigin == c.iiDerivationOrigin
  {
    LoginOptions(if TruthyOpt(iiUrl) then iiUrl.value else DefaultIdentityProvider,
                 OneHourInNanoseconds * (24 * 30),
                 Origin(c))
  }

  /** The delegation lifetime is thirty days of nanoseconds. */
  lemma MaxTimeToLiveIsThirtyDays(c: Config, iiUrl: Option<string>)
    ensures GetLoginOptions(c, iiUrl).maxTimeToLive == 30 * 24 * 60 * 60 * 1_000_000_000
  {
  }

  /** The two option records agree on the derivation origin for every configuration. */
  lemma OriginsAgree(c: Config, iiUrl: Option<string>)
    ensures var co := GetAuthClientCreateOptions(c);
            var lo := GetLoginOptions(c, iiUrl);
            (co.loginOptions.Some? <==> lo.derivationOrigin.Some?)
            && (co.loginOptions.Some? ==> lo.derivationOrigin == Some(co.loginOptions.value.derivationOrigin))
  {
  }
}

=== FILE: ii_return.dfy ===
/**
 * `iiReturnDetection`: is the user coming back from an Internet Identity round trip? The URL
 * hash and the session parameter are read by the caller and passed in; the functions are pure,
 * so the detection writes neither storage nor the URL.
 */
module IIReturnDetection {
  import opened Common
  import opened JsText

  const UserInitiatedAuthKey := "sweetsteps_user_initiated_auth"
  const AuthorizeMarker := "authorize="

  const HashReason := "authorize callback in URL hash"
  const SessionFlagReason := "user-initiated auth session flag"

  /** `hash && hash.includes('authorize=')`. */
  predicate HashHasMarker(hash: string) {
    Truthy(hash) && Contains(hash, AuthorizeMarker)
  }

  /** `getSessionParameter(USER_INITIATED_AUTH_KEY) === 'true'`. */
  predicate UserInitiated(sessionParam: Option<string>) {
    sessionParam == Some("true")
  }

  /** `hasIIReturnEvidence`, given the location hash and the session parameter's value. */
  function HasIIReturnEvidence(hash: string, sessionParam: Option<string>): (r: bool)
    ensures HashHasMarker(hash) ==> r
    ensures !HashHasMarker(hash) ==> (r <==> sessionParam == Some("true"))
    ensures !r ==> !Contains(hash, AuthorizeMarker) && sessionParam != Some("true")
  {
    if HashHasMarker(hash) then true
    else UserInitiated(sessionParam)
  }

  /** `getIIReturnEvidenceReason`: why evidence was found, or null. */
  function GetIIReturnEvidenceReason(hash: string, sessionParam: Option<string>): (r: Option<string>)
    ensures r.Some? <==> HasIIReturnEvidence(hash, sessionParam)
    ensures HashHasMarker(hash) ==> r == Some(HashReason)
    ensures !HashHasMarker(hash) && UserInitiated(sessionParam) ==> r == Some(SessionFlagReason)
  {
    if HashHasMarker(hash) then Some(HashReason)
    else if UserInitiated(sessionParam) then Some(SessionFlagReason)
    else None
  }

  /** The flag must be exactly "true": "TRUE", "1" or an empty value are not evidence. */
  lemma OnlyExactTrueCounts(v: string)
    requires v != "true"
    ensures !HasIIReturnEvidence("", Some(v))
    ensures !HasIIReturnEvidence("", None)
  {
  }

  /** A typical callback hash is evidence, whatever the session flag says. */
  lemma CallbackHashIsEvidence(sessionParam: Option<string>)
    ensures GetIIReturnEvidenceReason("#authorize=abc", sessionParam) == Some(HashReason)
  {
    var h := "#" + AuthorizeMarker + "abc";
    assert |AuthorizeMarker| == 10;
    assert h[1..11] == AuthorizeMarker;
    ContainsAt(h, AuthorizeMarker, 1);
    assert h == "#authorize=abc";
  }
}

=== FILE: js_value.dfy ===
/**
 * JavaScript values as parsed JSON delivers them (and as the validators receive them as
 * `unknown`). Numbers are restricted to integers; functions, symbols and cyclic objects do not
 * occur in parsed JSON and are not represented.
 */
module JsValue {
  import opened Common
  import opened JsText

  datatype Value =
    | Undefined
    | Null
    | Bool(b: bool)
    | Num(n: int)
    | Str(s: string)
    | Arr(items: seq<Value>)
    | Obj(fields: map<string, Value>)

  /** JavaScript truthiness. */
  predicate TruthyValue(v: Value) {
    match v
    case Undefined => false
    case Null => false
    case Bool(b) => b
    case Num(n) => n != 0
    case Str(s) => s != ""
    case Arr(_) => true
    case Obj(_) => true
  }

  /** `typeof v === 'object'`: null, arrays and plain objects. */
  predicate TypeofObject(v: Value) {
    v.Null? || v.Arr? || v.Obj?
  }

  /** Only decimal digits. */
  predicate AllDigits(f: string) {
    forall i :: 0 <= i < |f| ==> '0' <= f[i] <= '9'
  }

  /** The array index a property name denotes: a canonical decimal numeral. */
  function IndexOf(f: string): (r: Option<nat>)
    ensures r.Some? ==> NatToString(r.value) == f
  {
    if f != [] && AllDigits(f) && NatToString(ParseDigits(f)) == f then Some(ParseDigits(f)) else None
  }

  /** Every index is read back from its own numeral. */
  lemma IndexOfNumeral(i: nat)
    ensures IndexOf(NatToString(i)) == Some(i)
  {
    ParseNatToString(i);
  }

  /**
   * `v[f]` for a value that is neither null nor undefined: own fields of objects, elements and
   * `length` of arrays and strings; inherited members are never strings and read as undefined.
   */
  function Field(v: Value, f: string): (r: Value)
    ensures v.Obj? ==> (f in v.fields ==> r == v.fields[f]) && (f !in v.fields ==> r == Undefined)
    ensures v.Arr? && IndexOf(f).Some? && IndexOf(f).value < |v.items| ==> r == v.items[IndexOf(f).value]
    ensures r.Str? ==> v.Obj? || v.Arr? || v.Str?
  {
    match v
    case Obj(m) => if f in m then m[f] else Undefined
    case Arr(items) =>
      if f == "length" then Num(|items|)
      else (match IndexOf(f) case Some(i) => if i < |items| then items[i] else Undefined case None => Undefined)
    case Str(s) =>
      if f == "length" then Num(|s|)
      else (match IndexOf(f) case Some(i) => if i < |s| then Str([s[i]]) else Undefined case None => Undefined)
    case _ => Undefined
  }

  /** `isValidString`: a string whose trim is non-empty. */
  predicate IsValidString(v: Value) {
    v.Str? && Trim(v.s) != ""
  }

  /** A valid string is exactly a string that is not all white space. */
  lemma ValidStringIffNotBlank(v: Value)
    ensures IsValidString(v) <==> v.Str? && !Blank(v.s)
  {
    if v.Str? {
      TrimEmptyIff(v.s);
    }
  }
}

=== FILE: landing.dfy ===
/**
 * The "Why SweetSteps?" carousel of the landing page: a modal flag and the index of the feature
 * slide on show. Buttons, dot indicators and (while the modal is open) the arrow and Escape keys
 * move the index; closing the modal rewinds it to the first slide.
 */
module Landing {
  import opened JsText

  /** `features.length`: three feature cards. */
  const FeatureCount: nat := 3

  datatype Carousel = Carousel(isOpen: bool, slide: int)

  /** First render: modal closed, first slide. */
  const Initial := Carousel(false, 0)

  /** `goToNextSlide`. */
  function Next(c: Carousel): (r: Carousel)
    ensures r.isOpen == c.isOpen
    ensures c.slide < FeatureCount - 1 ==> r.slide == c.slide + 1
    ensures c.slide >= FeatureCount - 1 ==> r == c
  {
    if c.slide < FeatureCount - 1 then c.(slide := c.slide + 1) else c
  }

  /** `goToPrevSlide`. */
  function Prev(c: Carousel): (r: Carousel)
    ensures r.isOpen == c.isOpen
    ensures c.slide > 0 ==> r.slide == c.slide - 1
    ensures c.slide <= 0 ==> r == c
  {
    if c.slide > 0 then c.(slide := c.slide - 1) else c
  }

  /** `closeModal`: hide the modal and rewind to the first slide. */
  function Close(c: Carousel): (r: Carousel)
    ensures !r.isOpen && r.slide == 0
  {
    Carousel(false, 0)
  }

  /** The keydown listener, registered only while the modal is open; other keys do nothing. */
  function KeyDown(c: Carousel, key: string): (r: Carousel)
    ensures !c.isOpen ==> r == c
    ensures c.isOpen && key == "Escape" ==> r == Close(c)
    ensures c.isOpen && key == "ArrowRight" ==> r == Next(c)
    ensures c.isOpen && key == "ArrowLeft" ==> r == Prev(c)
    ensures key !in {"Escape", "ArrowRight", "ArrowLeft"} ==> r == c
  {
    if !c.isOpen then c
    else if key == "Escape" then Close(c)
    else if key == "ArrowRight" then Next(c)
    else if key == "ArrowLeft" then Prev(c)
    else c
  }

  /** Where a card sits relative to the one on show: its transition classes. */
  datatype Placement = Shown | OffLeft | OffRight

  function PlacementOf(index: nat, c: Carousel): (r: Placement)
    ensures r == Shown <==> index == c.slide
    ensures r == OffLeft <==> index < c.slide
    ensures r == OffRight <==> index > c.slide
  {
    if index == c.slide then Shown else if index < c.slide then OffLeft else OffRight
  }

  /** The indicator text, "k of 3", with a one-based slide number. */
  function Indicator(c: Carousel): (r: string)
    requires 0 <= c.slide
    ensures r == NatToString(c.slide + 1) + " of " + NatToString(FeatureCount)
    ensures ParseDigits(r[..|NatToString(c.slide + 1)|]) == c.slide + 1
  {
    ParseNatToString(c.slide + 1);
    var r := NatToString(c.slide + 1) + " of " + NatToString(FeatureCount);
    assert r[..|NatToString(c.slide + 1)|] == NatToString(c.slide + 1);
    r
  }

  /**
   * A user action. The controls inside the modal (close button, overlay, arrows, dots) are
   * rendered only while it is open; the dots exist for indices 0 to 2.
   */
  datatype Event = OpenClick | CloseClick | PrevClick | NextClick | DotClick(index: nat) | Key(key: string)

  predicate Possible(c: Carousel, e: Event) {
    match e
    case OpenClick => true
    case Key(_) => true
    case DotClick(i) => c.isOpen && i < FeatureCount
    case _ => c.isOpen
  }

  function Step(c: Carousel, e: Event): Carousel {
    if !Possible(c, e) then c
    else match e
      case OpenClick => c.(isOpen := true)
      case CloseClick => Close(c)
      case PrevClick => Prev(c)
      case NextClick => Next(c)
      case DotClick(i) => c.(slide := i)
      case Key(k) => KeyDown(c, k)
  }

  function Run(c: Carousel, es: seq<Event>): Carousel
    decreases |es|
  {
    if es == [] then c else Run(Step(c, es[0]), es[1..])
  }

  /** The index names one of the three cards, and a closed modal is on the first one. */
  predicate Inv(c: Carousel) {
    && 0 <= c.slide < FeatureCount
    && (!c.isOpen ==> c.slide == 0)
  }

  lemma StepKeepsInv(c: Carousel, e: Event)
    requires Inv(c)
    ensures Inv(Step(c, e))
  {
  }

  /** Every sequence of clicks and key presses from the first render keeps the index in range. */
  lemma {:induction false} RunKeepsInv(c: Carousel, es: seq<Event>)
    requires Inv(c)
    ensures Inv(Run(c, es))
    decreases |es|
  {
    if es != [] {
      StepKeepsInv(c, es[0]);
      RunKeepsInv(Step(c, es[0]), es[1..]);
    }
  }

  /** After any history, exactly one card is on show. */
  lemma {:induction false} ExactlyOneCardShown(es: seq<Event>) returns (k: nat)
    ensures k < FeatureCount && PlacementOf(k, Run(Initial, es)) == Shown
    ensures forall i: nat :: PlacementOf(i, Run(Initial, es)) == Shown ==> i == k
  {
    RunKeepsInv(Initial, es);
    k := Run(Initial, es).slide;
  }

  /** Next then Prev is a round trip away from the last card, and Prev then Next away from the first. */
  lemma NextPrevRoundTrip(c: Carousel)
    requires Inv(c)
    ensures c.slide < FeatureCount - 1 ==> Prev(Next(c)) == c
    ensures c.slide > 0 ==> Next(Prev(c)) == c
  {
  }

  /** Pressing ArrowRight `k` times from slide `s` lands on `min(s + k, 2)`: the last card saturates. */
  lemma {:induction false} ArrowRightSaturates(c: Carousel, k: nat)
    requires Inv(c) && c.isOpen
    ensures var r := Run(c, seq(k, _ => Key("ArrowRight")));
            r.isOpen && r.slide == if c.slide + k < FeatureCount then c.slide + k else FeatureCount - 1
    decreases k
  {
    var es := seq(k, _ => Key("ArrowRight"));
    if k > 0 {
      assert es[1..] == seq(k - 1, _ => Key("ArrowRight"));
      ArrowRightSaturates(Step(c, es[0]), k - 1);
    }
  }

  /** With the modal closed, no key changes anything: the listener is not registered. */
  lemma KeysIgnoredWhileClosed(c: Carousel, key: string)
    requires !c.isOpen
    ensures Step(c, Key(key)) == c
  {
  }

  /** Escape from any card closes the modal, and reopening starts again from the first card. */
  lemma ReopenStartsAtFirstCard(c: Carousel)
    requires c.isOpen
    ensures Run(c, [Key("Escape"), OpenClick]) == Carousel(true, 0)
  {
    assert [Key("Escape"), OpenClick][1..] == [OpenClick];
  }
}

=== FILE: local_display_name.dfy ===
/**
 * `useLocalDisplayName`: per-principal display names and "skipped" markers in `localStorage`.
 * Reads and the skip/clear writes swallow storage failures; `setDisplayName` rethrows.
 */
module LocalDisplayName {
  import opened Common
  import opened JsText
  import opened Storage

  const DisplayNamePrefix := "sweetsteps_display_name_"
  const SkipFlagPrefix := "sweetsteps_skip_display_name_"

  function NameKey(principal: string): string {
    DisplayNamePrefix + principal
  }

  function SkipKey(principal: string): string {
    SkipFlagPrefix + principal
  }

  /** Why `setDisplayName` threw. */
  datatype SaveError =
    | EmptyName       // `new Error('Display name cannot be empty')`
    | StorageFailure  // `setItem` threw and the `catch` rethrew it

  const EmptyNameMessage := "Display name cannot be empty"

  /** `getDisplayName`. */
  function GetDisplayName(a: Area, principal: string): (r: Option<string>)
    ensures !a.available ==> r.None?
    ensures a.available ==> r == Get(a.items, NameKey(principal))
  {
    TryGet(a, NameKey(principal))
  }

  /** `setDisplayName`: the trimmed name under the principal's key, or the error it throws. */
  function SetDisplayName(a: Area, principal: string, name: string): (r: Result<Area, SaveError>)
    ensures r == Err(EmptyName) <==> Blank(name)
    ensures r == Err(StorageFailure) <==> !Blank(name) && !a.available
    ensures r.Ok? ==> r.value == a.(items := a.items[NameKey(principal) := Trim(name)]) && Trim(name) != ""
  {
    TrimEmptyIff(name);
    var trimmed := Trim(name);
    if trimmed == "" then Err(EmptyName)
    else if !a.available then Err(StorageFailure)
    else Ok(a.(items := a.items[NameKey(principal) := trimmed]))
  }

  /** `hasSkipped`: the stored marker is exactly "true". */
  function HasSkipped(a: Area, principal: string): (r: bool)
    ensures r <==> a.available && HasValue(a.items, SkipKey(principal), "true")
  {
    TryGet(a, SkipKey(principal)) == Some("true")
  }

  /** `setSkipped`. */
  function SetSkipped(a: Area, principal: string): (r: Area)
    ensures !a.available ==> r == a
    ensures a.available ==> r.items == a.items[SkipKey(principal) := "true"] && r.available
  {
    TrySet(a, SkipKey(principal), "true")
  }

  /** `clearDisplayName`: both of the principal's keys go. */
  function ClearDisplayName(a: Area, principal: string): (r: Area)
    ensures !a.available ==> r == a
    ensures a.available ==> r.items == a.items - {NameKey(principal), SkipKey(principal)} && r.available
  {
    TryRemove(TryRemove(a, NameKey(principal)), SkipKey(principal))
  }

  /** Different principals get different keys. */
  lemma KeysAreInjective(p: string, q: string)
    ensures NameKey(p) == NameKey(q) ==> p == q
    ensures SkipKey(p) == SkipKey(q) ==> p == q
  {
    if NameKey(p) == NameKey(q) {
      assert p == NameKey(p)[|DisplayNamePrefix|..];
    }
    if SkipKey(p) == SkipKey(q) {
      assert p == SkipKey(p)[|SkipFlagPrefix|..];
    }
  }

  /** A name key is never a skip key: the prefixes already differ at index 11. */
  lemma NameAndSkipKeysNeverCollide(p: string, q: string)
    ensures NameKey(p) != SkipKey(q)
  {
    assert NameKey(p)[11] == 'd';
    assert SkipKey(q)[11] == 's';
  }

  /** A successful save is read back, trimmed, and no other principal's name or skip marker moves. */
  lemma SaveThenGet(a: Area, p: string, name: string, q: string)
    requires SetDisplayName(a, p, name).Ok?
    ensures var a' := SetDisplayName(a, p, name).value;
            && GetDisplayName(a', p) == Some(Trim(name))
            && (q != p ==> GetDisplayName(a', q) == GetDisplayName(a, q))
            && HasSkipped(a', q) == HasSkipped(a, q)
  {
    KeysAreInjective(p, q);
    NameAndSkipKeysNeverCollide(p, q);
  }

  /** Skipping never changes any principal's display name. */
  lemma SkipKeepsNames(a: Area, p: string, q: string)
    ensures GetDisplayName(SetSkipped(a, p), q) == GetDisplayName(a, q)
    ensures a.available ==> HasSkipped(SetSkipped(a, p), p)
  {
    NameAndSkipKeysNeverCollide(q, p);
  }

  /** Clearing removes exactly the principal's two keys. */
  lemma ClearRemovesOnlyOwnKeys(a: Area, p: string)
    requires a.available
    ensures var a' := ClearDisplayName(a, p);
            && GetDisplayName(a', p).None? && !HasSkipped(a', p)
            && SameOutside(a.items, a'.items, {NameKey(p), SkipKey(p)})
  {
  }

  /** With storage unavailable every read answers "nothing". */
  lemma UnavailableReadsNothing(a: Area, p: string)
    requires !a.available
    ensures GetDisplayName(a, p).None? && !HasSkipped(a, p)
  {
  }
}

=== FILE: login_page.dfy ===
/**
 * The Login page's attempt machine. React effects are modelled as explicit events that may run
 * at any point in any order, which covers every schedule React can produce; the actor's
 * `canAccessOnboarding` answer arrives as a separate event for each call still outstanding.
 */
module LoginPage {
  import opened Common
  import Identity
  import opened AuthPages
  import AG = AttemptGuard

  datatype Phase = Idle | Connecting | Validating | CheckingAccess | Redirecting | Error

  const OnboardingPath := "/onboarding"
  const WeeklyMountainPath := "/weekly-mountain"

  datatype Page = Page(
    env: Env,
    phase: Phase,
    validated: bool,
    checkError: Option<string>,
    guard: AG.Guard,
    effectChecks: nat,     // `canAccessOnboarding` calls made by the redirect effect, not yet settled
    retryChecks: nat,      // calls made by the retry handler, not yet settled
    loginCalls: nat,       // times `login()` was called
    clearCalls: nat,       // times `clear()` was called
    navigations: seq<string>)

  function Initial(env: Env): Page {
    Page(env, Idle, false, None, AG.Initial, 0, 0, 0, 0, [])
  }

  /** The stale-session effect. */
  function StaleEffect(p: Page): (r: Page)
    ensures r.clearCalls == p.clearCalls + 1 <==>
              p.phase == Idle && p.env.identity.Some? && !Identity.IsIdentityValid(p.env.identity)
    ensures r.clearCalls != p.clearCalls + 1 ==> r == p
    ensures r.(clearCalls := p.clearCalls) == p
  {
    if ShouldClearStale(p.env.identity, p.phase == Idle) then p.(clearCalls := p.clearCalls + 1) else p
  }

  /** The validation effect: recompute only in `idle` or `validating`. */
  function ValidationEffect(p: Page): (r: Page)
    ensures r.(validated := p.validated) == p
    ensures p.env.identity.None? ==> !r.validated
    ensures p.phase in {Idle, Validating} ==> (r.validated <==> Identity.IsIdentityValid(p.env.identity))
    ensures p.phase !in {Idle, Validating} && p.env.identity.Some? ==> r.validated == p.validated
  {
    Identity.ValidityTrichotomy(p.env.identity);
    p.(validated := Validate(p.env.identity, p.validated, p.phase in {Idle, Validating}))
  }

  /** Every input the redirect effect waits for. */
  predicate ReadyToCheck(p: Page) {
    p.validated && p.env.identity.Some? && p.env.hasActor && !p.env.actorFetching
  }

  /** The redirect effect: start an access check unless one is already under way or done. */
  function CheckEffect(p: Page): (r: Page)
    ensures !ReadyToCheck(p) || p.phase in {CheckingAccess, Redirecting} ==> r == p
    ensures ReadyToCheck(p) && p.phase !in {CheckingAccess, Redirecting} ==>
              r == p.(phase := CheckingAccess, checkError := None, effectChecks := p.effectChecks + 1)
  {
    if !ReadyToCheck(p) then p
    else if p.phase in {CheckingAccess, Redirecting} then p
    else p.(phase := CheckingAccess, checkError := None, effectChecks := p.effectChecks + 1)
  }

  /** The login-status effect. */
  function StatusEffect(p: Page): (r: Page)
    ensures p.env.loginStatus == Identity.LoginError ==> r == p.(phase := Error, guard := AG.EndAttempt(p.guard))
    ensures p.env.loginStatus == Identity.Success && p.phase == Connecting ==> r == p.(phase := Validating)
    ensures p.env.loginStatus != Identity.LoginError && !(p.env.loginStatus == Identity.Success && p.phase == Connecting) ==> r == p
  {
    if p.env.loginStatus == Identity.LoggingIn && p.phase == Connecting then p
    else if p.env.loginStatus == Identity.Success && p.phase == Connecting then p.(phase := Validating)
    else if p.env.loginStatus == Identity.LoginError then p.(phase := Error, guard := AG.EndAttempt(p.guard))
    else p
  }

  /** `handleLogin` at clock `now`. */
  function HandleLogin(p: Page, now: int): (r: Page)
    ensures p.guard.isAttempting ==> r == p
    ensures !p.guard.isAttempting ==>
              && r.phase == Connecting && !r.validated && r.checkError.None?
              && r.guard == AG.StartAttempt(p.guard, now).0
              && r.loginCalls == p.loginCalls + 1
              && r.navigations == p.navigations
  {
    var (g, accepted) := AG.StartAttempt(p.guard, now);
    if !accepted then p
    else p.(guard := g, checkError := None, validated := false, phase := Connecting, loginCalls := p.loginCalls + 1)
  }

  /** `handleRetryOnboardingCheck`: never calls `login` and never touches the attempt guard. */
  function Retry(p: Page): (r: Page)
    ensures r.guard == p.guard && r.loginCalls == p.loginCalls
    ensures !r.validated && r.checkError.None?
    ensures p.env.identity.Some? && p.env.hasActor && !p.env.actorFetching ==>
              r.phase == CheckingAccess && r.retryChecks == p.retryChecks + 1
    ensures !(p.env.identity.Some? && p.env.hasActor && !p.env.actorFetching) ==>
              r.phase == Idle && r.retryChecks == p.retryChecks
  {
    var q := p.(checkError := None, phase := Idle, validated := false);
    if p.env.identity.Some? && p.env.hasActor && !p.env.actorFetching then
      q.(phase := CheckingAccess, retryChecks := p.retryChecks + 1)
    else q
  }

  /** Where a settled access check sends the user. */
  function Destination(canAccess: bool): (r: string)
    ensures r == OnboardingPath <==> canAccess
    ensures r in {OnboardingPath, WeeklyMountainPath}
  {
    if canAccess then OnboardingPath else WeeklyMountainPath
  }

  /** The error text after a failed check. */
  function CheckFailureText(t: Thrown): string {
    "Failed to check your account status: " + MessageOr(t, "Unknown error occurred")
    + ". Please try again or return to the landing page."
  }

  /** One of the redirect effect's calls settles; its `catch` also ends the attempt. */
  function EffectCheckSettled(p: Page, outcome: Result<bool, Thrown>): (r: Page)
    ensures p.effectChecks == 0 ==> r == p
    ensures p.effectChecks > 0 && outcome.Ok? ==>
              r == p.(effectChecks := p.effectChecks - 1, phase := Redirecting,
                      navigations := p.navigations + [Destination(outcome.value)])
    ensures p.effectChecks > 0 && outcome.Err? ==>
              r == p.(effectChecks := p.effectChecks - 1, phase := Error,
                      checkError := Some(CheckFailureText(outcome.error)), guard := AG.EndAttempt(p.guard))
  {
    if p.effectChecks == 0 then p
    else
      var q := p.(effectChecks := p.effectChecks - 1);
      match outcome
      case Ok(canAccess) => q.(phase := Redirecting, navigations := q.navigations + [Destination(canAccess)])
      case Err(t) => q.(phase := Error, checkError := Some(CheckFailureText(t)), guard := AG.EndAttempt(q.guard))
  }

  /** One of the retry handler's calls settles; its `catch` leaves the attempt guard alone. */
  function RetryCheckSettled(p: Page, outcome: Result<bool, Thrown>): (r: Page)
    ensures r.guard == p.guard
    ensures p.retryChecks == 0 ==> r == p
    ensures p.retryChecks > 0 && outcome.Ok? ==>
              r == p.(retryChecks := p.retryChecks - 1, phase := Redirecting,
                      navigations := p.navigations + [Destination(outcome.value)])
    ensures p.retryChecks > 0 && outcome.Err? ==>
              r == p.(retryChecks := p.retryChecks - 1, phase := Error, checkError := Some(CheckFailureText(outcome.error)))
  {
    if p.retryChecks == 0 then p
    else
      var q := p.(retryChecks := p.retryChecks - 1);
      match outcome
      case Ok(canAccess) => q.(phase := Redirecting, navigations := q.navigations + [Destination(canAccess)])
      case Err(t) => q.(phase := Error, checkError := Some(CheckFailureText(t)))
  }

  /** `isProcessing`. */
  predicate IsProcessing(p: Page) {
    p.guard.isAttempting || p.phase != Idle
  }

  const DefaultLabel := "Log in with Internet Identity"

  /** `getButtonLabel`. */
  function ButtonLabel(ph: Phase): (r: string)
    ensures r == DefaultLabel <==> ph in {Idle, Error}
  {
    match ph
    case Connecting => "Connecting..."
    case Validating => "Validating..."
    case CheckingAccess => "Loading..."
    case Redirecting => "Redirecting..."
    case _ => DefaultLabel
  }

  datatype Event =
    | EnvChanged(env: Env)
    | Click(now: int)
    | RetryClick
    | EffectCheckDone(outcome: Result<bool, Thrown>)
    | RetryCheckDone(outcome: Result<bool, Thrown>)
    | RunStaleEffect
    | RunValidationEffect
    | RunCheckEffect
    | RunStatusEffect

  function Step(p: Page, e: Event): Page {
    match e
    case EnvChanged(env) => p.(env := env)
    case Click(now) => HandleLogin(p, now)
    case RetryClick => Retry(p)
    case EffectCheckDone(o) => EffectCheckSettled(p, o)
    case RetryCheckDone(o) => RetryCheckSettled(p, o)
    case RunStaleEffect => StaleEffect(p)
    case RunValidationEffect => ValidationEffect(p)
    case RunCheckEffect => CheckEffect(p)
    case RunStatusEffect => StatusEffect(p)
  }

  function Run(p: Page, es: seq<Event>): Page
    decreases |es|
  {
    if es == [] then p else Run(Step(p, es[0]), es[1..])
  }

  /**
   * Reachable pages: the guard is consistent, an attempt is active while connecting or
   * validating, the page is redirecting only after a navigation, and every navigation goes to
   * onboarding or the weekly mountain (never to the sweet summit).
   */
  predicate Inv(p: Page) {
    && AG.Inv(p.guard)
    && (p.phase in {Connecting, Validating} ==> p.guard.isAttempting)
    && (p.phase == Redirecting ==> |p.navigations| > 0)
    && (forall i :: 0 <= i < |p.navigations| ==> p.navigations[i] in {OnboardingPath, WeeklyMountainPath})
  }

  lemma StepKeepsInv(p: Page, e: Event)
    requires Inv(p)
    ensures Inv(Step(p, e))
  {
    if e.EffectCheckDone? || e.RetryCheckDone? {
      SettledKeepsInv(p, e);
    }
  }

  /** A settled access check appends at most one navigation, to one of the two allowed pages. */
  lemma SettledKeepsInv(p: Page, e: Event)
    requires Inv(p) && (e.EffectCheckDone? || e.RetryCheckDone?)
    ensures Inv(Step(p, e))
  {
    var r := Step(p, e);
    if r.navigations != p.navigations {
      assert r.navigations == p.navigations + [Destination(e.outcome.value)];
      AppendKeepsAllowed(p.navigations, Destination(e.outcome.value));
    }
  }

  /** Appending an allowed path to a log of allowed paths keeps every entry allowed. */
  lemma {:induction false} AppendKeepsAllowed(ns: seq<string>, d: string)
    requires forall i :: 0 <= i < |ns| ==> ns[i] in {OnboardingPath, WeeklyMountainPath}
    requires d in {OnboardingPath, WeeklyMountainPath}
    ensures forall i :: 0 <= i < |ns + [d]| ==> (ns + [d])[i] in {OnboardingPath, WeeklyMountainPath}
  {
    forall i | 0 <= i < |ns + [d]| ensures (ns + [d])[i] in {OnboardingPath, WeeklyMountainPath} {
      if i < |ns| {
        assert (ns + [d])[i] == ns[i];
      }
    }
  }

  lemma {:induction false} RunKeepsInv(p: Page, es: seq<Event>)
    requires Inv(p)
    ensures Inv(Run(p, es))
    decreases |es|
  {
    if es != [] {
      StepKeepsInv(p, es[0]);
      RunKeepsInv(Step(p, es[0]), es[1..]);
    }
  }

  /** From a fresh page, whatever happens, Login never navigates to the sweet summit. */
  lemma {:induction false} NeverToSweetSummit(env: Env, es: seq<Event>, i: nat)
    requires i < |Run(Initial(env), es).navigations|
    ensures Run(Initial(env), es).navigations[i] != "/sweet-summit"
  {
    RunKeepsInv(Initial(env), es);
  }

  /** While an attempt is active a second click changes nothing. */
  lemma SecondClickIgnored(p: Page, t1: int, t2: int)
    requires !p.guard.isAttempting
    ensures HandleLogin(HandleLogin(p, t1), t2) == HandleLogin(p, t1)
  {
  }

  /**
   * The redirect guard does not exclude `error`: after a failed check, with the identity still
   * validated and the actor ready, the effect starts another check.
   */
  lemma FailedCheckReenters(p: Page, t: Thrown)
    requires p.effectChecks > 0 && ReadyToCheck(p)
    ensures var q := EffectCheckSettled(p, Err(t));
            q.phase == Error && CheckEffect(q).phase == CheckingAccess
  {
  }

  /** A label other than the default is only ever shown while the page is processing. */
  lemma LabelImpliesProcessing(p: Page)
    requires ButtonLabel(p.phase) != DefaultLabel
    ensures IsProcessing(p)
  {
  }
}

=== FILE: mobile_login.dfy ===
/**
 * The two mobile login hooks (`useMobileInternetIdentityLogin` and its patched variant) share
 * one outcome classification; they differ only in how the login options are obtained. The
 * `AuthClient` calls are foreign: what they did is the input `LoginRun`.
 */
module MobileLogin {
  import opened Common
  import opened JsText

  const NotReadyMessage := "Authentication client not ready. Please wait a moment and try again."
  const BlockedMessage := "Popup was blocked. Please allow popups and try again."
  const CancelledMessage := "Login was cancelled."
  const IncompleteMessage := "Login did not complete. Please try again."
  const InitFailedMessage := "Failed to initialize authentication client"
  const OnErrorFallback := "Login failed"
  const UnknownError := "Unknown error"

  /** `MobileLoginResult`; an absent `blocked`/`cancelled` is false. */
  datatype MobileLoginResult = MobileLoginResult(success: bool, hasIdentity: bool, error: Option<string>,
                                                 blocked: bool, cancelled: bool)

  /**
   * What `authClient.login` and the follow-up checks did: `onErrorArg` is the argument of the last
   * `onError` call (absent if it was never called); or the awaited call threw.
   */
  datatype LoginRun =
    | Returned(onErrorArg: Option<Option<string>>, isAuthenticated: bool, hasIdentity: bool)
    | Threw(thrown: Thrown)

  /** Client pre-initialisation, attempted once per hook instance. */
  datatype Init = NotCreated | Created | InitFailed

  function InitOutcome(created: bool): (r: (Init, Option<string>))
    ensures created ==> r == (Created, None)
    ensures !created ==> r == (InitFailed, Some(InitFailedMessage))
  {
    if created then (Created, None) else (InitFailed, Some(InitFailedMessage))
  }

  function Failure(msg: string): MobileLoginResult {
    MobileLoginResult(false, false, Some(msg), false, false)
  }

  predicate MentionsBlocking(msg: string) {
    ContainsCI(msg, "popup") || ContainsCI(msg, "blocked")
  }

  predicate MentionsCancel(msg: string) {
    ContainsCI(msg, "cancel") || ContainsCI(msg, "interrupt")
  }

  /** The `loginError` variable after the run: `error || 'Login failed'` of the last `onError`. */
  function RecordedError(onErrorArg: Option<Option<string>>): (r: Option<string>)
    ensures onErrorArg.None? ==> r.None?
    ensures onErrorArg.Some? ==> r.Some? && r.value != ""
    ensures onErrorArg.Some? && TruthyOpt(onErrorArg.value) ==> r == onErrorArg.value
  {
    match onErrorArg
    case None => None
    case Some(arg) => if TruthyOpt(arg) then arg else Some(OnErrorFallback)
  }

  /** Classification of a login error string reported through `onError`. */
  function ClassifyReported(err: string): (r: MobileLoginResult)
    ensures !r.success && !(r.blocked && r.cancelled)
    ensures r.blocked <==> MentionsBlocking(err)
    ensures r.cancelled <==> !MentionsBlocking(err) && MentionsCancel(err)
    ensures !r.blocked && !r.cancelled ==> r.error == Some(err)
  {
    if MentionsBlocking(err) then MobileLoginResult(false, false, Some(BlockedMessage), true, false)
    else if MentionsCancel(err) then MobileLoginResult(false, false, Some(CancelledMessage), false, true)
    else Failure(err)
  }

  /** The `catch` path: only popup blocking is recognised. */
  function ClassifyThrown(t: Thrown): (r: MobileLoginResult)
    ensures !r.success && !r.cancelled
    ensures r.blocked <==> MentionsBlocking(MessageOr(t, UnknownError))
    ensures !r.blocked ==> r.error == Some(MessageOr(t, UnknownError))
  {
    var msg := MessageOr(t, UnknownError);
    if MentionsBlocking(msg) then MobileLoginResult(false, false, Some(BlockedMessage), true, false)
    else Failure(msg)
  }

  /** The body of the `try` once `login` has returned. */
  function ClassifyRun(run: LoginRun): (r: MobileLoginResult)
    ensures run.Threw? ==> r == ClassifyThrown(run.thrown)
    ensures run.Returned? ==> (r.success <==> run.isAuthenticated && run.hasIdentity)
    ensures run.Returned? && !r.success && run.onErrorArg.None? ==> r == Failure(IncompleteMessage)
    ensures run.Returned? && !r.success && run.onErrorArg.Some? ==>
              r == ClassifyReported(RecordedError(run.onErrorArg).value)
  {
    match run
    case Threw(t) => ClassifyThrown(t)
    case Returned(arg, authed, hasId) =>
      if authed && hasId then MobileLoginResult(true, true, None, false, false)
      else
        match RecordedError(arg)
        case Some(e) => ClassifyReported(e)
        case None => Failure(IncompleteMessage)
  }

  /** `login` of `useMobileInternetIdentityLogin`. */
  function Login(init: Init, run: LoginRun): (r: MobileLoginResult)
    ensures init != Created ==> r == Failure(NotReadyMessage)
    ensures init == Created ==> r == ClassifyRun(run)
  {
    if init != Created then Failure(NotReadyMessage) else ClassifyRun(run)
  }

  /**
   * `login` of the patched hook: `getLoginOptions` runs inside the same `try`, so its failure
   * (`optionsFailure`) is classified like a throw from `login` itself.
   */
  function LoginPatched(init: Init, optionsFailure: Option<Thrown>, run: LoginRun): (r: MobileLoginResult)
    ensures init != Created ==> r == Failure(NotReadyMessage)
    ensures init == Created && optionsFailure.Some? ==> r == ClassifyThrown(optionsFailure.value)
  {
    if init != Created then Failure(NotReadyMessage)
    else if optionsFailure.Some? then ClassifyThrown(optionsFailure.value)
    else ClassifyRun(run)
  }

  /** When the shared options load, both hooks report the same outcome. */
  lemma PatchedAgreesWhenOptionsLoad(init: Init, run: LoginRun)
    ensures LoginPatched(init, None, run) == Login(init, run)
  {
  }

  /** An authenticated client with an identity is a success even if `onError` fired first. */
  lemma SuccessBeatsReportedError(arg: Option<string>)
    ensures ClassifyRun(Returned(Some(arg), true, true)).success
  {
  }

  /** A message mentioning both a popup and a cancellation counts as blocked, not cancelled. */
  lemma BlockingCheckedFirst(err: string)
    requires MentionsBlocking(err) && MentionsCancel(err)
    ensures ClassifyReported(err).blocked && !ClassifyReported(err).cancelled
  {
  }

  /** A thrown cancellation is not recognised: its message is passed through instead. */
  lemma ThrownCancelIsNotCancelled(msg: string)
    requires !MentionsBlocking(msg)
    ensures ClassifyThrown(ErrorObject("Error", msg)) == Failure(msg)
  {
  }

  /** Every failure carries an error text, and no result is both blocked and cancelled. */
  lemma FailuresExplainThemselves(init: Init, opt: Option<Thrown>, run: LoginRun)
    ensures var r := LoginPatched(init, opt, run);
            (!r.success ==> r.error.Some?) && !(r.blocked && r.cancelled) && (r.success ==> r.error.None?)
  {
  }
}

=== FILE: onboarding.dfy ===
/**
 * The Onboarding page: two routing effects, the three-step wizard and the submit handler. The
 * submit handler's awaits are split into a start and a finish, with the AI plan and the profile
 * save as inputs to the finish.
 */
module OnboardingPage {
  import opened Common
  import opened JsText
  import opened Storage
  import opened PostAuthRouting
  import AIProxy

  const SignupPath := "/signup"
  const NoActorError := "Unable to connect to the backend. Please try again."
  const DefaultSubmitError := "Unable to process your onboarding. Please try again."

  /**
   * The profile redirect: once the query has settled and no submit is running, a user with a
   * profile is routed on. There is no once-guard; every run with these inputs navigates again.
   */
  function ProfileRedirect(q: ProfileQuery, isSubmitting: bool, local: Store): (r: Option<string>)
    ensures q.isLoading || !q.isFetched || isSubmitting ==> r.None?
    ensures r.Some? <==> Settled(q) && !isSubmitting && q.data != ProfileNull
    ensures r.Some? ==> r.value in {SweetSummitPath, WeeklyMountainPath}
    ensures r.Some? ==> (r.value == SweetSummitPath <==> HasValue(local, SweetSummitSeenKey, "false"))
  {
    if q.isLoading || !q.isFetched || isSubmitting then None
    else if q.data != ProfileNull then Some(RouteFrom(q.data, local))
    else None
  }

  /** The signup redirect: only once auth is stable, the actor is ready, and nobody is signed in. */
  function SignupRedirect(isAuthStabilized: bool, actorFetching: bool, isAuthenticated: bool): (r: Option<string>)
    ensures r.Some? <==> isAuthStabilized && !actorFetching && !isAuthenticated
    ensures r.Some? ==> r.value == SignupPath
  {
    if !isAuthStabilized then None
    else if actorFetching then None
    else if !isAuthenticated then Some(SignupPath)
    else None
  }

  /** The options of the step-3 timeframe select. */
  const TimeframeOptions: set<string> := {"1-month", "3-months", "6-months", "1-year"}

  /** The three answers, as `completeResult.answers` names them: vague goal, current progress, time limit. */
  datatype Answers = Answers(goal: string, standing: string, timeframe: string)

  /** What `setOnboardingResult` stores: the answers and the whole validated AI plan. */
  datatype OnboardingResult = OnboardingResult(answers: Answers, aiResponse: AIProxy.OnboardingPlan)

  /**
   * The page state. `loading` is the loading-screen condition of the last render, and
   * `submitted` holds the answers the running submit captured when it was clicked.
   */
  datatype Wizard = Wizard(
    step: int,
    goal: string,
    standing: string,
    timeframe: string,
    isSubmitting: bool,
    error: Option<string>,
    local: Store,
    context: Option<OnboardingResult>,
    savedProfileName: Option<string>,
    navigations: seq<string>,
    loading: bool,
    submitted: Answers)

  /**
   * First render (`useState(1)`) followed by the mount effect that resets the step to 1. Auth
   * has not stabilised yet on the first render, so the loading screen shows.
   */
  function Mount(local: Store): (w: Wizard)
    ensures w.step == 1 && !w.isSubmitting && w.error.None? && w.navigations == []
    ensures w.loading && w.context.None? && w.savedProfileName.None?
  {
    Wizard(1, "", "", "", false, None, local, None, None, [], true, Answers("", "", ""))
  }

  /** `handleNext`. */
  function Next(w: Wizard): (r: Wizard)
    ensures w.step < 3 ==> r == w.(step := w.step + 1, error := None)
    ensures w.step >= 3 ==> r == w
  {
    if w.step < 3 then w.(step := w.step + 1, error := None) else w
  }

  /** `handleBack`. */
  function Back(w: Wizard): (r: Wizard)
    ensures w.step > 1 && !w.isSubmitting ==> r == w.(step := w.step - 1, error := None)
    ensures !(w.step > 1 && !w.isSubmitting) ==> r == w
  {
    if w.step > 1 && !w.isSubmitting then w.(step := w.step - 1, error := None) else w
  }

  /** The enablement of Continue on steps 1 and 2 and of Submit on step 3. */
  predicate CanContinueStep1(w: Wizard) { Trim(w.goal) != "" }
  predicate CanContinueStep2(w: Wizard) { Trim(w.standing) != "" }
  predicate CanSubmit(w: Wizard) { w.timeframe != "" }

  /**
   * The first, synchronous part of `handleSubmit`. The handler's closure keeps the answers of
   * the render it came from, so the rest of the submit works on those.
   */
  function SubmitStart(w: Wizard, hasActor: bool): (r: Wizard)
    ensures !hasActor ==> r == w.(error := Some(NoActorError))
    ensures hasActor ==> r == w.(isSubmitting := true, error := None,
                                 submitted := Answers(w.goal, w.standing, w.timeframe))
  {
    if !hasActor then w.(error := Some(NoActorError))
    else w.(isSubmitting := true, error := None, submitted := Answers(w.goal, w.standing, w.timeframe))
  }

  /** `err.message || default`. */
  function SubmitErrorText(t: Thrown): (r: string)
    ensures r != ""
    ensures t.ErrorObject? && t.message != "" ==> r == t.message
  {
    if t.ErrorObject? && t.message != "" then t.message else DefaultSubmitError
  }

  /**
   * The rest of `handleSubmit`: the AI plan (or what it threw), then the profile save, whose
   * name field carries the plan's `bigGoal`; on success the summit flag is set to "false" and
   * the user goes to the sweet summit. The `finally` always ends submitting.
   */
  function SubmitFinish(w: Wizard, plan: Result<AIProxy.OnboardingPlan, Thrown>, save: Result<(), Thrown>): (r: Wizard)
    ensures !r.isSubmitting
    ensures plan.Err? ==> r == w.(isSubmitting := false, error := Some(SubmitErrorText(plan.error)))
    ensures plan.Ok? && save.Err? ==>
              r == w.(isSubmitting := false, error := Some(SubmitErrorText(save.error)),
                      context := Some(OnboardingResult(w.submitted, plan.value)))
    ensures plan.Ok? && save.Ok? ==>
              && r.savedProfileName == Some(plan.value.bigGoal)
              && HasValue(r.local, SweetSummitSeenKey, "false")
              && r.navigations == w.navigations + [SweetSummitPath]
              && r.error == w.error
    ensures plan.Ok? ==> r.context == Some(OnboardingResult(w.submitted, plan.value))
    ensures plan.Ok? && save.Ok? ==>
              r == w.(context := Some(OnboardingResult(w.submitted, plan.value)),
                      savedProfileName := Some(plan.value.bigGoal), local := w.local[SweetSummitSeenKey := "false"],
                      navigations := w.navigations + [SweetSummitPath], isSubmitting := false)
  {
    match plan
    case Err(t) => w.(isSubmitting := false, error := Some(SubmitErrorText(t)))
    case Ok(aiResponse) =>
      var w1 := w.(context := Some(OnboardingResult(w.submitted, aiResponse)));
      match save
      case Err(t) => w1.(isSubmitting := false, error := Some(SubmitErrorText(t)))
      case Ok(_) =>
        w1.(savedProfileName := Some(aiResponse.bigGoal),
            local := w1.local[SweetSummitSeenKey := "false"],
            navigations := w1.navigations + [SweetSummitPath],
            isSubmitting := false)
  }

  /** Whether a render with these hook values shows the loading screen instead of the wizard. */
  function ShowsLoading(isAuthStabilized: bool, actorFetching: bool, profileLoading: bool): (r: bool)
    ensures !r <==> isAuthStabilized && !actorFetching && !profileLoading
  {
    !isAuthStabilized || actorFetching || profileLoading
  }

  /**
   * `Render` is a re-render with new hook values. The input events are the controls of the
   * wizard; `SubmitSettled` is the end of a running submit, with the plan and the save as inputs.
   */
  datatype Event =
    | Render(isAuthStabilized: bool, actorFetching: bool, profileLoading: bool)
    | NextClick
    | BackClick
    | EditGoal(goal: string)
    | EditStanding(standing: string)
    | PickTimeframe(timeframe: string)
    | SubmitClick(hasActor: bool)
    | SubmitSettled(plan: Result<AIProxy.OnboardingPlan, Thrown>, save: Result<(), Thrown>)

  /**
   * A control event is possible only while the wizard (not the loading screen) shows, and only
   * on the step that renders the control: the goal input and Continue on step 1, the standing
   * input, Back and Continue on step 2, the timeframe select, Back and Complete Setup on step 3.
   * Continue needs that step's answer non-blank, Complete Setup a chosen timeframe, and both
   * step-3 buttons are disabled while submitting; the select offers only its four options.
   */
  predicate Possible(w: Wizard, e: Event) {
    match e
    case Render(_, _, _) => true
    case SubmitSettled(_, _) => w.isSubmitting
    case NextClick => !w.loading && ((w.step == 1 && CanContinueStep1(w)) || (w.step == 2 && CanContinueStep2(w)))
    case BackClick => !w.loading && (w.step == 2 || (w.step == 3 && !w.isSubmitting))
    case EditGoal(_) => !w.loading && w.step == 1
    case EditStanding(_) => !w.loading && w.step == 2
    case PickTimeframe(t) => !w.loading && w.step == 3 && t in TimeframeOptions
    case SubmitClick(_) => !w.loading && w.step == 3 && CanSubmit(w) && !w.isSubmitting
  }

  function Step(w: Wizard, e: Event): Wizard {
    if !Possible(w, e) then w
    else match e
      case Render(a, f, p) => w.(loading := ShowsLoading(a, f, p))
      case NextClick => Next(w)
      case BackClick => Back(w)
      case EditGoal(g) => w.(goal := g)
      case EditStanding(s) => w.(standing := s)
      case PickTimeframe(t) => w.(timeframe := t)
      case SubmitClick(hasActor) => SubmitStart(w, hasActor)
      case SubmitSettled(plan, save) => SubmitFinish(w, plan, save)
  }

  function Run(w: Wizard, es: seq<Event>): Wizard
    decreases |es|
  {
    if es == [] then w else Run(Step(w, es[0]), es[1..])
  }

  /** The wizard step stays within 1..3 through any clicks and edits. */
  lemma {:induction false} StepStaysInRange(w: Wizard, es: seq<Event>)
    requires 1 <= w.step <= 3
    ensures 1 <= Run(w, es).step <= 3
    decreases |es|
  {
    if es != [] {
      StepStaysInRange(Step(w, es[0]), es[1..]);
    }
  }

  /** The wizard moves forward only from a step whose answer is filled in (not blank). */
  lemma AdvanceNeedsAnswer(w: Wizard, e: Event)
    requires Step(w, e).step > w.step
    ensures e.NextClick? && !w.loading
    ensures w.step == 1 ==> Trim(w.goal) != ""
    ensures w.step == 2 ==> Trim(w.standing) != ""
    ensures w.step in {1, 2} && Step(w, e).step == w.step + 1
  {
  }

  /**
   * A submit starts only from a Complete Setup click on step 3 with a timeframe chosen, while
   * the wizard shows and no submit runs, and it captures the answers of that moment.
   */
  lemma SubmitNeedsTimeframe(w: Wizard, e: Event)
    requires !w.isSubmitting && Step(w, e).isSubmitting
    ensures e.SubmitClick? && e.hasActor
    ensures w.step == 3 && CanSubmit(w) && !w.loading
    ensures Step(w, e).submitted == Answers(w.goal, w.standing, w.timeframe)
  {
  }

  /** While the loading screen shows, no control event changes anything. */
  lemma LoadingBlocksControls(w: Wizard, e: Event)
    requires w.loading && !e.Render? && !e.SubmitSettled?
    ensures Step(w, e) == w
  {
  }

  /** Each input writes only its own answer, and only on the step that renders it. */
  lemma EditsStayOnTheirStep(w: Wizard, e: Event)
    ensures e.EditGoal? ==>
              Step(w, e) == if !w.loading && w.step == 1 then w.(goal := e.goal) else w
    ensures e.EditStanding? ==>
              Step(w, e) == if !w.loading && w.step == 2 then w.(standing := e.standing) else w
    ensures e.PickTimeframe? ==>
              Step(w, e) == if !w.loading && w.step == 3 && e.timeframe in TimeframeOptions
                            then w.(timeframe := e.timeframe) else w
  {
  }

  /**
   * The page invariant: the step is 1..3, the timeframe is empty or one of the select's
   * options, and a running submit is on step 3 with answers whose timeframe is an option.
   */
  predicate Inv(w: Wizard) {
    && 1 <= w.step <= 3
    && (w.timeframe == "" || w.timeframe in TimeframeOptions)
    && (w.isSubmitting ==> w.step == 3 && w.submitted.timeframe in TimeframeOptions)
  }

  lemma StepKeepsInv(w: Wizard, e: Event)
    requires Inv(w)
    ensures Inv(Step(w, e))
  {
  }

  /** From mount, any sequence of renders, clicks, edits and settled submits keeps the invariant. */
  lemma {:induction false} RunKeepsInv(local: Store, es: seq<Event>)
    ensures Inv(Run(Mount(local), es))
  {
    RunFromKeepsInv(Mount(local), es);
  }

  lemma {:induction false} RunFromKeepsInv(w: Wizard, es: seq<Event>)
    requires Inv(w)
    ensures Inv(Run(w, es))
    decreases |es|
  {
    if es != [] {
      StepKeepsInv(w, es[0]);
      RunFromKeepsInv(Step(w, es[0]), es[1..]);
    }
  }

  /** Without an actor the submit never starts, so it never reaches the save. */
  lemma NoActorNeverSubmits(w: Wizard)
    requires !w.isSubmitting
    ensures !SubmitStart(w, false).isSubmitting && SubmitStart(w, false).error == Some(NoActorError)
  {
  }

  /**
   * After a successful submit, once the refreshed profile is present, the profile redirect
   * agrees with the submit: both send the user to the sweet summit.
   */
  lemma SubmitAndRedirectAgree(w: Wizard, plan: AIProxy.OnboardingPlan, name: string)
    ensures var r := SubmitFinish(w, Ok(plan), Ok(()));
            ProfileRedirect(ProfileQuery(false, true, ProfilePresent(name)), r.isSubmitting, r.local)
              == Some(SweetSummitPath)
  {
  }

  /** While a submit runs the profile redirect stays quiet, whatever the query says. */
  lemma SubmittingBlocksProfileRedirect(w: Wizard, q: ProfileQuery)
    ensures ProfileRedirect(q, SubmitStart(w, true).isSubmitting, w.local).None?
  {
  }
}

=== FILE: password_identity.dfy ===
/**
 * `passwordIdentity`: the 32-byte Ed25519 seed derived from a username and a password, and the
 * persistence of the resulting key. Key generation and its JSON form are foreign; the stored
 * text and its decoding are parameters.
 */
module PasswordIdentity {
  import opened Common
  import opened JsText
  import opened Storage

  type Byte = bv8

  const StorageKey := "sweetsteps_password_identity"
  const SeedLength: nat := 32

  /** `TextEncoder.encode` of one Unicode scalar value: its UTF-8 bytes. */
  function EncodeChar(c: char): (r: seq<Byte>)
    ensures 1 <= |r| <= 4
    ensures (c as int < 0x80) <==> |r| == 1
    ensures c as int < 0x80 ==> r == [c as int as Byte]
  {
    var n := c as int;
    if n < 0x80 then [n as Byte]
    else if n < 0x800 then [(0xC0 + n / 64) as Byte, (0x80 + n % 64) as Byte]
    else if n < 0x10000 then [(0xE0 + n / 4096) as Byte, (0x80 + (n / 64) % 64) as Byte, (0x80 + n % 64) as Byte]
    else [(0xF0 + n / 262144) as Byte, (0x80 + (n / 4096) % 64) as Byte, (0x80 + (n / 64) % 64) as Byte,
          (0x80 + n % 64) as Byte]
  }

  /** `TextEncoder.encode`: the UTF-8 encoding of a string. */
  function Encode(s: string): (r: seq<Byte>)
    ensures |r| >= |s|
  {
    if s == [] then [] else EncodeChar(s[0]) + Encode(s[1..])
  }

  /** The text the seed is derived from: the lower-cased username, a colon, the password. */
  function Combined(username: string, password: string): string {
    Lower(username) + ":" + password
  }

  /** `data[i % data.length]`: an empty array would read `undefined`, which XOR treats as 0. */
  function ByteAt(data: seq<Byte>, i: nat): Byte {
    if |data| == 0 then 0 else data[i % |data|]
  }

  /** The mixing constant `i * 7` of position `i` (at most 217, so it fits a byte). */
  function Mix(i: nat): Byte
    requires i < SeedLength
  {
    (i * 7) as Byte
  }

  /** The seed as a whole: position `i` holds the data byte at `i` (cyclically) mixed with `7 i`. */
  function SeedOf(data: seq<Byte>): (r: seq<Byte>)
    ensures |r| == SeedLength
    ensures forall i :: 0 <= i < SeedLength ==> r[i] == ByteAt(data, i) ^ Mix(i)
  {
    seq(SeedLength, i requires 0 <= i < SeedLength => ByteAt(data, i) ^ Mix(i))
  }

  /** The filling loop of `createIdentityFromCredentials`. */
  method DeriveSeed(username: string, password: string) returns (seed: seq<Byte>)
    ensures |seed| == SeedLength
    ensures seed == SeedOf(Encode(Combined(username, password)))
  {
    var data := Encode(Combined(username, password));
    seed := [];
    var i := 0;
    while i < SeedLength
      invariant 0 <= i <= SeedLength && |seed| == i
      invariant forall k :: 0 <= k < i ==> seed[k] == ByteAt(data, k) ^ Mix(k)
    {
      seed := seed + [data[i % |data|] ^ Mix(i)];
      i := i + 1;
    }
  }

  /** The colon guarantees at least one byte, so every seed byte reads real data. */
  lemma DataNeverEmpty(username: string, password: string)
    ensures |Encode(Combined(username, password))| >= 1
  {
  }

  /** Undoing the mixing recovers the data: for data of at least 32 bytes, exactly its first 32. */
  function Unmix(seed: seq<Byte>): (r: seq<Byte>)
    requires |seed| == SeedLength
    ensures |r| == SeedLength
  {
    seq(SeedLength, i requires 0 <= i < SeedLength => seed[i] ^ Mix(i))
  }

  lemma UnmixRecoversPrefix(data: seq<Byte>)
    requires |data| >= SeedLength
    ensures Unmix(SeedOf(data)) == data[..SeedLength]
  {
    var u := Unmix(SeedOf(data));
    forall i | 0 <= i < SeedLength ensures u[i] == data[i] {
      SmallMod(i, |data|);
      assert (data[i] ^ Mix(i)) ^ Mix(i) == data[i];
    }
  }

  /** Only the first 32 bytes matter: encodings that agree there give the same seed. */
  lemma OnlyFirst32BytesMatter(d1: seq<Byte>, d2: seq<Byte>)
    requires |d1| >= SeedLength && |d2| >= SeedLength && d1[..SeedLength] == d2[..SeedLength]
    ensures SeedOf(d1) == SeedOf(d2)
  {
    forall i | 0 <= i < SeedLength ensures ByteAt(d1, i) == ByteAt(d2, i) {
      SmallMod(i, |d1|);
      SmallMod(i, |d2|);
      assert d1[i] == d1[..SeedLength][i] == d2[..SeedLength][i] == d2[i];
    }
    assert forall i :: 0 <= i < SeedLength ==> SeedOf(d1)[i] == SeedOf(d2)[i];
  }

  lemma SmallMod(i: nat, n: nat)
    requires i < n
    ensures i % n == i
  {
  }

  /** Usernames that differ only in (ASCII) case derive the same seed. */
  lemma UsernameCaseIgnored(u1: string, u2: string, password: string)
    requires Lower(u1) == Lower(u2)
    ensures SeedOf(Encode(Combined(u1, password))) == SeedOf(Encode(Combined(u2, password)))
  {
  }

  /** Passwords are case-sensitive: "a" and "A" give different seeds for the same username. */
  lemma PasswordCaseMatters()
    ensures SeedOf(Encode(Combined("", "a"))) != SeedOf(Encode(Combined("", "A")))
  {
    assert Combined("", "a") == [':', 'a'];
    assert Combined("", "A") == [':', 'A'];
    assert Encode([':', 'a']) == [58, 97];
    assert Encode([':', 'A']) == [58, 65];
    assert SeedOf([58, 97])[1] != SeedOf([58, 65])[1];
  }

  /** `storeIdentity`: writes the serialised key; a storage failure is swallowed. */
  function StoreIdentity(a: Area, serialized: string): (r: Area)
    ensures a.available ==> Get(r.items, StorageKey) == Some(serialized)
    ensures !a.available ==> r == a
    ensures forall k :: k != StorageKey ==> Get(r.items, k) == Get(a.items, k)
  {
    TrySet(a, StorageKey, serialized)
  }

  /** `restoreIdentity`: nothing stored, an empty value or a failed decoding give null. */
  function RestoreIdentity<K>(a: Area, decode: string -> Option<K>): (r: Option<K>)
    ensures !TruthyOpt(TryGet(a, StorageKey)) ==> r.None?
    ensures TruthyOpt(TryGet(a, StorageKey)) ==> r == decode(TryGet(a, StorageKey).value)
  {
    var stored := TryGet(a, StorageKey);
    if !TruthyOpt(stored) then None else decode(stored.value)
  }

  /** `clearStoredIdentity`: removes the one key. */
  function ClearStoredIdentity(a: Area): (r: Area)
    ensures StorageKey !in r.items || !a.available
    ensures forall k :: k != StorageKey ==> Get(r.items, k) == Get(a.items, k)
  {
    TryRemove(a, StorageKey)
  }

  /** What was stored is what is restored. */
  lemma StoreThenRestore<K>(a: Area, serialized: string, decode: string -> Option<K>)
    requires a.available && serialized != ""
    ensures RestoreIdentity(StoreIdentity(a, serialized), decode) == decode(serialized)
  {
  }

  /** After clearing, nothing is restored. */
  lemma ClearThenRestoreNothing<K>(a: Area, decode: string -> Option<K>)
    ensures RestoreIdentity(ClearStoredIdentity(a), decode).None?
  {
  }
}

=== FILE: platform.dfy ===
/**
 * `platform`: Chrome-on-Android detection from the user agent, with a module-level cache.
 * The regular expressions carry the `i` flag without `u`, so they fold ASCII letters only;
 * `ContainsCI` with lower-case needles is exactly that test.
 */
module Platform {
  import opened Common
  import opened JsText

  datatype PlatformInfo = PlatformInfo(isChromeAndroid: bool, userAgent: string, platform: string)

  /** `navigator.userAgent` and `navigator.platform`, either of which may be missing. */
  datatype Navigator = Navigator(userAgent: Option<string>, platform: Option<string>)

  /** `/Chrome/i` and not Edge, Samsung Internet or Opera. */
  predicate IsChromeUA(ua: string) {
    ContainsCI(ua, "chrome") && !ContainsCI(ua, "edg") && !ContainsCI(ua, "samsungbrowser") && !ContainsCI(ua, "opr")
  }

  /** `detectPlatform`. */
  function DetectPlatform(nav: Navigator): (r: PlatformInfo)
    ensures r.userAgent == nav.userAgent.GetOr("") && r.platform == nav.platform.GetOr("")
    ensures r.isChromeAndroid <==>
              (&& ContainsCI(r.userAgent, "android") && ContainsCI(r.userAgent, "chrome")
               && !ContainsCI(r.userAgent, "edg") && !ContainsCI(r.userAgent, "samsungbrowser")
               && !ContainsCI(r.userAgent, "opr"))
  {
    var ua := nav.userAgent.GetOr("");
    PlatformInfo(ContainsCI(ua, "android") && IsChromeUA(ua), ua, nav.platform.GetOr(""))
  }

  /** The module-level `cachedPlatformInfo`. */
  type Cache = Option<PlatformInfo>

  /** `getPlatformInfo`: detect on first use, then answer from the cache. */
  function GetPlatformInfo(cache: Cache, nav: Navigator): (r: (Cache, PlatformInfo))
    ensures r.0 == Some(r.1)
    ensures cache.Some? ==> r.0 == cache
    ensures cache.None? ==> r.1 == DetectPlatform(nav)
  {
    match cache
    case Some(info) => (cache, info)
    case None => (Some(DetectPlatform(nav)), DetectPlatform(nav))
  }

  /** `isChromeAndroid`: the cached record's flag. */
  function IsChromeAndroid(cache: Cache, nav: Navigator): (r: (Cache, bool))
    ensures r.0.Some? && r.1 == r.0.value.isChromeAndroid
    ensures cache.Some? ==> r.0 == cache
  {
    var c := if cache.Some? then cache else Some(DetectPlatform(nav));
    (c, c.value.isChromeAndroid)
  }

  /** Both entry points leave the same cache and agree on the flag. */
  lemma EntryPointsAgree(cache: Cache, nav: Navigator)
    ensures IsChromeAndroid(cache, nav).0 == GetPlatformInfo(cache, nav).0
    ensures IsChromeAndroid(cache, nav).1 == GetPlatformInfo(cache, nav).1.isChromeAndroid
  {
  }

  /** Once filled, the cache answers every later call, whatever the navigator says then. */
  lemma CacheIsSticky(cache: Cache, nav1: Navigator, nav2: Navigator)
    ensures var c1 := GetPlatformInfo(cache, nav1).0;
            GetPlatformInfo(c1, nav2) == (c1, c1.value)
            && IsChromeAndroid(c1, nav2).1 == c1.value.isChromeAndroid
  {
  }

  /** A missing user agent is the empty string, which never matches. */
  lemma MissingUserAgentIsNotChromeAndroid(p: Option<string>)
    ensures !DetectPlatform(Navigator(None, p)).isChromeAndroid
  {
  }
}

=== FILE: post_auth_timeout.dfy ===
/**
 * `usePostAuthTimeout`: one timeout per post-login phase. The effect re-runs whenever its
 * dependencies (phase, explicit budget, callback identity) change; the 100 ms elapsed-time
 * interval is not modelled, so `elapsedMs` only ever takes the value the resets give it.
 */
module PostAuthTimeout {
  import opened Common

  datatype Phase = Validation | ActorReady | OnboardingCheck

  /** `DEFAULT_TIMEOUTS`. */
  function DefaultTimeout(p: Phase): nat {
    match p
    case Validation => 10000
    case ActorReady => 15000
    case OnboardingCheck => 10000
  }

  /** `timeoutMs ?? DEFAULT_TIMEOUTS[phase]`: only an absent override falls back. */
  function Budget(p: Phase, timeoutMs: Option<int>): (r: int)
    ensures timeoutMs.Some? ==> r == timeoutMs.value
    ensures timeoutMs.None? ==> r == DefaultTimeout(p)
    ensures timeoutMs.None? ==> r >= 10000 && (r == 15000 <==> p == ActorReady)
  {
    if timeoutMs.Some? then timeoutMs.value else DefaultTimeout(p)
  }

  /** `setTimeout` runs a negative delay as zero. */
  function Delay(ms: int): (r: nat)
    ensures ms >= 0 ==> r == ms
    ensures ms < 0 ==> r == 0
  {
    if ms < 0 then 0 else ms
  }

  /** The effect's dependency list; `callback` identifies the `onTimeout` function value. */
  datatype Deps = Deps(phase: Option<Phase>, timeoutMs: Option<int>, callback: int)

  /**
   * `deadline` is the pending timeout; `arms` counts timers armed and `calls` counts
   * `onTimeout` invocations, over the hook's lifetime.
   */
  datatype State = State(deps: Deps, isTimedOut: bool, elapsedMs: int, startTime: Option<int>,
                         deadline: Option<int>, arms: nat, calls: nat)

  /** `reset`: clears the flag and the elapsed time and cancels the timer. */
  function Reset(s: State): (r: State)
    ensures !r.isTimedOut && r.elapsedMs == 0 && r.startTime.None? && r.deadline.None?
    ensures r.deps == s.deps && r.arms == s.arms && r.calls == s.calls
  {
    s.(isTimedOut := false, elapsedMs := 0, startTime := None, deadline := None)
  }

  /** The effect body for dependencies `d` at clock `now`. */
  function Effect(s: State, d: Deps, now: int): (r: State)
    ensures !r.isTimedOut && r.elapsedMs == 0 && r.deps == d && r.calls == s.calls
    ensures d.phase.None? ==> r.deadline.None? && r.arms == s.arms
    ensures d.phase.Some? ==>
              r.deadline == Some(now + Delay(Budget(d.phase.value, d.timeoutMs)))
              && r.startTime == Some(now) && r.arms == s.arms + 1
  {
    var s1 := Reset(s).(deps := d);
    if d.phase.None? then s1
    else s1.(startTime := Some(now), deadline := Some(now + Delay(Budget(d.phase.value, d.timeoutMs))),
             arms := s1.arms + 1)
  }

  function Mount(d: Deps, now: int): State {
    Effect(State(d, false, 0, None, None, 0, 0), d, now)
  }

  /** A render: the cleanup and the effect run only when a dependency changed. */
  function Render(s: State, d: Deps, now: int): (r: State)
    ensures d == s.deps ==> r == s
    ensures d != s.deps ==> r.deps == d && !r.isTimedOut && r.elapsedMs == 0 && r.calls == s.calls
  {
    if d == s.deps then s else Effect(s, d, now)
  }

  /** The clock reaches `now`: a due timeout sets the flag and calls `onTimeout`. */
  function Tick(s: State, now: int): (r: State)
    ensures s.deadline.Some? && now >= s.deadline.value ==>
              r.isTimedOut && r.calls == s.calls + 1 && r.deadline.None?
    ensures !(s.deadline.Some? && now >= s.deadline.value) ==> r == s
  {
    if s.deadline.Some? && now >= s.deadline.value then s.(isTimedOut := true, calls := s.calls + 1, deadline := None)
    else s
  }

  datatype Event = RenderWith(deps: Deps, now: int) | Clock(now: int) | ManualReset

  function Step(s: State, e: Event): State {
    match e
    case RenderWith(d, now) => Render(s, d, now)
    case Clock(now) => Tick(s, now)
    case ManualReset => Reset(s)
  }

  function Run(s: State, es: seq<Event>): State
    decreases |es|
  {
    if es == [] then s else Run(Step(s, es[0]), es[1..])
  }

  /**
   * Reachable states: a pending timer belongs to a present phase and the flag is still down;
   * the flag is only up for a present phase; `onTimeout` has run at most once per timer armed,
   * and never for the timer still pending.
   */
  predicate Inv(s: State) {
    && (s.deadline.Some? ==> s.deps.phase.Some? && !s.isTimedOut)
    && (s.isTimedOut ==> s.deps.phase.Some?)
    && s.calls + (if s.deadline.Some? then 1 else 0) <= s.arms
  }

  lemma {:induction false} RunKeepsInv(s: State, es: seq<Event>)
    requires Inv(s)
    ensures Inv(Run(s, es))
    decreases |es|
  {
    if es != [] {
      RunKeepsInv(Step(s, es[0]), es[1..]);
    }
  }

  /** Over any history, `onTimeout` runs no more often than timers were armed. */
  lemma {:induction false} OneCallPerTimer(d: Deps, now: int, es: seq<Event>)
    ensures var s := Run(Mount(d, now), es);
            s.calls <= s.arms && (s.isTimedOut ==> s.deps.phase.Some?)
  {
    RunKeepsInv(Mount(d, now), es);
  }

  /** With no phase nothing is armed, so no clock reading ever times out. */
  lemma NoPhaseNeverTimesOut(d: Deps, t0: int, t: int)
    requires d.phase.None?
    ensures !Tick(Mount(d, t0), t).isTimedOut
  {
  }

  /** A phase with its default budget times out exactly when the budget has elapsed. */
  lemma DefaultBudgetElapses(p: Phase, cb: int, t0: int)
    ensures var s := Mount(Deps(Some(p), None, cb), t0);
            !Tick(s, t0 + DefaultTimeout(p) - 1).isTimedOut && Tick(s, t0 + DefaultTimeout(p)).isTimedOut
  {
  }

  /** A manual reset cancels the timer, and nothing re-arms it until a dependency changes. */
  lemma ManualResetDisarms(s: State, now: int, t: int)
    ensures var r := Render(Reset(s), s.deps, now);
            !Tick(r, t).isTimedOut && Tick(r, t).calls == s.calls
  {
  }
}

=== FILE: routing.dfy ===
/**
 * Where a signed-in user goes next. Three places decide it from the profile query and the
 * "sweet summit seen" flag; `Route` is the decision they share, and each caller is a wrapper
 * with its own preconditions and once-guard.
 */
module PostAuthRouting {
  import opened Common
  import opened Storage

  const OnboardingPath := "/onboarding"
  const SweetSummitPath := "/sweet-summit"
  const WeeklyMountainPath := "/weekly-mountain"

  const SweetSummitSeenKey := "sweetsteps_sweet_summit_seen"

  /** `data` of the profile query: undefined before any fetch, null for "no profile", or a profile. */
  datatype Profile = ProfileUndefined | ProfileNull | ProfilePresent(name: string)

  /** The profile query as the routers read it. */
  datatype ProfileQuery = ProfileQuery(isLoading: bool, isFetched: bool, data: Profile)

  /** The query has answered: not loading and fetched. */
  predicate Settled(q: ProfileQuery) {
    !q.isLoading && q.isFetched
  }

  /**
   * The shared decision. `userProfile !== null` counts an undefined profile as existing; the
   * summit flag must be exactly "false" to send the user to the sweet summit.
   */
  function Route(profile: Profile, summitSeen: Option<string>): (r: string)
    ensures r in {OnboardingPath, SweetSummitPath, WeeklyMountainPath}
    ensures r == OnboardingPath <==> profile == ProfileNull
    ensures r == SweetSummitPath <==> profile != ProfileNull && summitSeen == Some("false")
  {
    if profile == ProfileNull then OnboardingPath
    else if summitSeen == Some("false") then SweetSummitPath
    else WeeklyMountainPath
  }

  /** Route with the flag read from `localStorage`. */
  function RouteFrom(profile: Profile, local: Store): string {
    Route(profile, Get(local, SweetSummitSeenKey))
  }
}

/**
 * `InternetIdentityAuthorizeCallbackHandler`: routes once after an Internet Identity callback
 * the user started in this visit. Reading the `authorize` secret from the hash consumes it.
 */
module CallbackHandler {
  import opened Common
  import opened Storage
  import opened Identity
  import opened PostAuthRouting

  const UserInitiatedAuthKey := "sweetsteps_user_initiated_auth"

  /** What the effect reads on one run. */
  datatype Inputs = Inputs(session: Store, local: Store, isSettled: bool, isAuthenticated: bool,
                           identity: Option<Ident>, profile: ProfileQuery)

  /** `hasHandledRef`, the secret still in the URL hash, and the navigations made. */
  datatype Handler = Handler(handled: bool, marker: Option<string>, navigations: seq<string>)

  function Mount(marker: Option<string>): Handler {
    Handler(false, marker, [])
  }

  /** The identity checks at source lines 56-59. */
  predicate SignedIn(i: Inputs) {
    i.isAuthenticated && i.identity.Some? && !i.identity.value.principal.IsAnonymous()
  }

  /** Everything that must hold before the handler commits (sets `handled`). */
  predicate Commits(h: Handler, i: Inputs) {
    && !h.handled && h.marker.Some? && Truthy(h.marker.value)
    && HasValue(i.session, UserInitiatedAuthKey, "true")
    && i.isSettled && SignedIn(i)
  }

  /** One run of the effect. */
  function Effect(h: Handler, i: Inputs): (r: Handler)
    ensures h.handled ==> r == h
    ensures !h.handled ==> r.marker.None?
    ensures r.handled <==> h.handled || Commits(h, i)
    ensures Commits(h, i) && Settled(i.profile) ==>
              r.navigations == h.navigations + [RouteFrom(i.profile.data, i.local)]
    ensures !(Commits(h, i) && Settled(i.profile)) ==> r.navigations == h.navigations
  {
    if h.handled then h
    else
      var principal := h.marker;
      var h1 := h.(marker := None);
      if !(principal.Some? && Truthy(principal.value)) then h1
      else if !HasValue(i.session, UserInitiatedAuthKey, "true") then h1
      else if !i.isSettled then h1
      else if !SignedIn(i) then h1
      else
        var h2 := h1.(handled := true);
        if i.profile.isLoading || !i.profile.isFetched then h2
        else h2.(navigations := h2.navigations + [RouteFrom(i.profile.data, i.local)])
  }

  datatype Event = Render(inputs: Inputs) | HashChanged(marker: Option<string>)

  function Step(h: Handler, e: Event): Handler {
    match e
    case Render(i) => Effect(h, i)
    case HashChanged(m) => h.(marker := m)
  }

  function Run(h: Handler, es: seq<Event>): Handler
    decreases |es|
  {
    if es == [] then h else Run(Step(h, es[0]), es[1..])
  }

  /** At most one navigation, and only once handled. */
  predicate Inv(h: Handler) {
    |h.navigations| <= (if h.handled then 1 else 0)
  }

  lemma {:induction false} RunKeepsInv(h: Handler, es: seq<Event>)
    requires Inv(h)
    ensures Inv(Run(h, es))
    decreases |es|
  {
    if es != [] {
      RunKeepsInv(Step(h, es[0]), es[1..]);
    }
  }

  /** A mounted handler navigates at most once, whatever renders and hash changes follow. */
  lemma {:induction false} AtMostOneNavigation(marker: Option<string>, es: seq<Event>)
    ensures |Run(Mount(marker), es).navigations| <= 1
  {
    RunKeepsInv(Mount(marker), es);
  }

  /** Once handled, nothing ever changes the navigations again. */
  lemma {:induction false} HandledIsFinal(h: Handler, es: seq<Event>)
    requires h.handled
    ensures Run(h, es).handled && Run(h, es).navigations == h.navigations
    decreases |es|
  {
    if es != [] {
      HandledIsFinal(Step(h, es[0]), es[1..]);
    }
  }

  /**
   * Committing while the profile is still loading loses the route: the handler is marked
   * handled first, so it never navigates afterwards.
   */
  lemma LoadingProfileNeverRoutes(h: Handler, i: Inputs, es: seq<Event>)
    requires Commits(h, i) && !Settled(i.profile)
    ensures Run(Effect(h, i), es).navigations == h.navigations
  {
    HandledIsFinal(Effect(h, i), es);
  }

  /** A run that stops early because auth has not settled consumes the secret: the next run finds none. */
  lemma EarlyReturnConsumesMarker(h: Handler, i: Inputs, j: Inputs)
    requires !h.handled && !i.isSettled
    ensures Effect(Effect(h, i), j) == Effect(h, i)
  {
  }
}

/** `useAuthPageAutoredirect`: sends a signed-in visitor of /login or /signup on, once. */
module AuthPageAutoredirect {
  import opened Common
  import opened Identity
  import opened PostAuthRouting

  datatype Inputs = Inputs(identity: Option<Ident>, isInitializing: bool, hasActor: bool,
                           actorFetching: bool, profile: ProfileQuery)

  datatype Hook = Hook(redirected: bool, navigations: seq<string>)

  /** Everything the effect waits for (source lines 27-36). */
  predicate Ready(i: Inputs) {
    !i.isInitializing && IsIdentityValid(i.identity) && i.hasActor && !i.actorFetching && Settled(i.profile)
  }

  /** The destination: the profile alone decides; there is no summit branch. */
  function Destination(profile: Profile): (r: string)
    ensures r == WeeklyMountainPath <==> profile != ProfileNull
    ensures r == Route(profile, None)
  {
    if profile != ProfileNull then WeeklyMountainPath else OnboardingPath
  }

  /** One run of the effect: the once-flag is set and then the navigation is made. */
  function Effect(h: Hook, i: Inputs): (r: Hook)
    ensures h.redirected || !Ready(i) ==> r == h
    ensures !h.redirected && Ready(i) ==>
              r.redirected && r.navigations == h.navigations + [Destination(i.profile.data)]
  {
    if h.redirected || !Ready(i) then h
    else Hook(true, h.navigations + [Destination(i.profile.data)])
  }

  /** `isRedirecting`, as read during render. */
  function IsRedirecting(h: Hook): bool {
    h.redirected
  }

  function Run(h: Hook, ins: seq<Inputs>): Hook
    decreases |ins|
  {
    if ins == [] then h else Run(Effect(h, ins[0]), ins[1..])
  }

  /** The flag is set exactly when the one navigation has been made. */
  predicate Inv(h: Hook) {
    |h.navigations| == (if h.redirected then 1 else 0)
  }

  lemma {:induction false} RunKeepsInv(h: Hook, ins: seq<Inputs>)
    requires Inv(h)
    ensures Inv(Run(h, ins))
    decreases |ins|
  {
    if ins != [] {
      RunKeepsInv(Effect(h, ins[0]), ins[1..]);
    }
  }

  /** From mount, at most one navigation, and `isRedirecting` reports whether it happened. */
  lemma {:induction false} AtMostOneRedirect(ins: seq<Inputs>)
    ensures var h := Run(Hook(false, []), ins);
            |h.navigations| <= 1 && (IsRedirecting(h) <==> |h.navigations| == 1)
  {
    RunKeepsInv(Hook(false, []), ins);
  }

  /**
   * The autoredirect and the callback handler agree except for one case: a user with a profile
   * whose summit flag is exactly "false" goes to the weekly mountain here, to the sweet summit there.
   */
  lemma AgreesWithSharedRouteExceptSummit(profile: Profile, summitSeen: Option<string>)
    ensures Destination(profile) != Route(profile, summitSeen) <==>
              profile != ProfileNull && summitSeen == Some("false")
  {
  }
}

=== FILE: safe_render.dfy ===
/**
 * `safeRender`: turning AI-provided values of unknown shape into text. `JSON.stringify` of an
 * object is a parameter (`None` when it throws).
 */
module SafeRender {
  import opened Common
  import opened JsText
  import opened JsValue

  const ComplexObject := "[Complex Object]"
  const InvalidResponseFallback := "Unable to display this content. The AI response was in an unexpected format. Please try generating your plan again."

  /** `String(v)` for booleans and integer numbers. */
  function Show(v: Value): string
    requires v.Bool? || v.Num?
  {
    if v.Bool? then (if v.b then "true" else "false") else IntToString(v.n)
  }

  /** `parts.join('\n')`. */
  function JoinLines(parts: seq<string>): (r: string)
    ensures parts == [] ==> r == ""
    ensures |parts| == 1 ==> r == parts[0]
  {
    if parts == [] then "" else if |parts| == 1 then parts[0] else parts[0] + "\n" + JoinLines(parts[1..])
  }

  /** `toSafeString`. */
  function ToSafeString(v: Value, stringify: Value -> Option<string>): (r: string)
    ensures v.Undefined? || v.Null? ==> r == ""
    ensures v.Str? ==> r == v.s
    ensures v.Obj? && stringify(v).None? ==> r == ComplexObject
    decreases v, 1
  {
    match v
    case Undefined => ""
    case Null => ""
    case Str(s) => s
    case Bool(_) => Show(v)
    case Num(_) => Show(v)
    case Arr(items) => JoinLines(SafeParts(items, stringify))
    case Obj(_) => match stringify(v) case Some(t) => t case None => ComplexObject
  }

  /** `items.map(toSafeString).filter(Boolean)`: the non-empty conversions, in order. */
  function SafeParts(items: seq<Value>, stringify: Value -> Option<string>): (r: seq<string>)
    ensures forall i :: 0 <= i < |r| ==> r[i] != ""
    ensures |r| <= |items|
    decreases items, 0
  {
    if items == [] then []
    else
      var s := ToSafeString(items[0], stringify);
      (if s != "" then [s] else []) + SafeParts(items[1..], stringify)
  }

  /** An array renders as nothing exactly when every element renders as nothing. */
  lemma {:induction false} EmptyArrayTextIff(items: seq<Value>, stringify: Value -> Option<string>)
    ensures SafeParts(items, stringify) == [] <==> forall i :: 0 <= i < |items| ==> ToSafeString(items[i], stringify) == ""
    decreases items
  {
    if items != [] {
      EmptyArrayTextIff(items[1..], stringify);
      assert forall i :: 1 <= i < |items| ==> items[i] == items[1..][i - 1];
    }
  }

  /** Joining non-empty parts gives the empty text only for no parts at all. */
  lemma {:induction false} JoinEmptyIff(parts: seq<string>)
    requires forall i :: 0 <= i < |parts| ==> parts[i] != ""
    ensures JoinLines(parts) == "" <==> parts == []
    decreases parts
  {
    if |parts| > 1 {
      JoinEmptyIff(parts[1..]);
    }
  }

  /** Hence an array's text is empty iff each element's text is. */
  lemma ArrayTextEmptyIff(items: seq<Value>, stringify: Value -> Option<string>)
    ensures ToSafeString(Arr(items), stringify) == "" <==>
              forall i :: 0 <= i < |items| ==> ToSafeString(items[i], stringify) == ""
  {
    EmptyArrayTextIff(items, stringify);
    JoinEmptyIff(SafeParts(items, stringify));
  }

  /** A one-element array renders like its element. */
  lemma SingletonArray(x: Value, stringify: Value -> Option<string>)
    ensures ToSafeString(Arr([x]), stringify) == ToSafeString(x, stringify)
  {
    assert [x][1..] == [];
  }

  /** Wrapping an array in another array changes nothing: nested arrays flatten into lines. */
  lemma NestedArrayFlattens(items: seq<Value>, stringify: Value -> Option<string>)
    ensures ToSafeString(Arr([Arr(items)]), stringify) == ToSafeString(Arr(items), stringify)
  {
    SingletonArray(Arr(items), stringify);
  }

  /** `safeExtractString(obj, field, fallback)`. */
  function SafeExtractString(obj: Value, field: string, fallback: string): (r: string)
    ensures !TruthyValue(obj) || !TypeofObject(obj) ==> r == fallback
    ensures TruthyValue(obj) && TypeofObject(obj) && IsValidString(Field(obj, field)) ==> r == Field(obj, field).s
    ensures TruthyValue(obj) && TypeofObject(obj) && !IsValidString(Field(obj, field)) ==> r == fallback
    ensures r == fallback || (Trim(r) != "")
  {
    if !TruthyValue(obj) || !TypeofObject(obj) then fallback
    else
      var value := Field(obj, field);
      if IsValidString(value) then value.s else fallback
  }

  /** The default fallback is the empty string. */
  function SafeExtractStringOrEmpty(obj: Value, field: string): (r: string)
    ensures r == "" || Trim(r) != ""
  {
    SafeExtractString(obj, field, "")
  }

  /** Storing a valid string under a field of an object and extracting it gives it back. */
  lemma ExtractStored(m: map<string, Value>, field: string, text: string, fallback: string)
    requires Trim(text) != ""
    ensures SafeExtractString(Obj(m[field := Str(text)]), field, fallback) == text
  {
  }

  /** A white-space-only field yields the fallback. */
  lemma BlankFieldFallsBack(m: map<string, Value>, field: string, text: string, fallback: string)
    requires Blank(text)
    ensures SafeExtractString(Obj(m[field := Str(text)]), field, fallback) == fallback
  {
    TrimEmptyIff(text);
  }
}

=== FILE: session_flags.dfy ===
/**
 * `sessionFlags`: the new-account marker in `sessionStorage`. Every access is wrapped in a
 * `try` whose `catch` only logs, so an unavailable storage area changes nothing and reads false.
 */
module SessionFlags {
  import opened Common
  import opened Storage

  const NewAccountFlagKey := "sweetsteps:new-account-flow"

  /** `setNewAccountFlag`. */
  function SetNewAccountFlag(a: Area): (r: Area)
    ensures r.available == a.available
    ensures a.available ==> HasValue(r.items, NewAccountFlagKey, "true")
    ensures !a.available ==> r == a
  {
    TrySet(a, NewAccountFlagKey, "true")
  }

  /** `hasNewAccountFlag`: the stored value is exactly "true". */
  function HasNewAccountFlag(a: Area): (r: bool)
    ensures r <==> a.available && HasValue(a.items, NewAccountFlagKey, "true")
  {
    TryGet(a, NewAccountFlagKey) == Some("true")
  }

  /** `clearNewAccountFlag`. */
  function ClearNewAccountFlag(a: Area): (r: Area)
    ensures r.available == a.available
    ensures a.available ==> NewAccountFlagKey !in r.items
    ensures !a.available ==> r == a
  {
    TryRemove(a, NewAccountFlagKey)
  }

  /** After a set the flag reads true, unless the storage area is unavailable. */
  lemma SetThenHas(a: Area)
    ensures HasNewAccountFlag(SetNewAccountFlag(a)) <==> a.available
  {
  }

  /** After a clear the flag reads false in every case. */
  lemma ClearThenNotHas(a: Area)
    ensures !HasNewAccountFlag(ClearNewAccountFlag(a))
  {
  }

  /** Neither write touches any key other than the flag's own. */
  lemma OnlyFlagKeyTouched(a: Area)
    ensures SameOutside(a.items, SetNewAccountFlag(a).items, {NewAccountFlagKey})
    ensures SameOutside(a.items, ClearNewAccountFlag(a).items, {NewAccountFlagKey})
  {
  }
}

=== FILE: session_reset.dfy ===
/**
 * `clearSweetStepsSession`: on logout or account deletion, remove the three locally persisted
 * pieces of SweetSteps state and nothing else.
 */
module SessionReset {
  import opened Common
  import opened Storage
  import opened PostAuthRouting
  import LocalDisplayName
  import DailyInputs

  /** `ONBOARDING_STORAGE_KEY` of the onboarding helpers. */
  const OnboardingStorageKey := "sweetsteps_onboarding_result"
  const WeeklyMountainCacheKey := "sweetsteps_weekly_mountain_cache"

  const ResetKeys: set<string> := {OnboardingStorageKey, WeeklyMountainCacheKey, SweetSummitSeenKey}

  function ClearSweetStepsSession(m: Store): (r: Store)
    ensures OnboardingStorageKey !in r && WeeklyMountainCacheKey !in r && SweetSummitSeenKey !in r
    ensures SameOutside(m, r, ResetKeys)
    ensures r.Keys <= m.Keys
  {
    m - {OnboardingStorageKey} - {WeeklyMountainCacheKey} - {SweetSummitSeenKey}
  }

  /** Resetting twice is the same as resetting once. */
  lemma ResetIsIdempotent(m: Store)
    ensures ClearSweetStepsSession(ClearSweetStepsSession(m)) == ClearSweetStepsSession(m)
  {
  }

  /** The daily-input cache key and every display-name or skip key survive a reset. */
  lemma ResetKeepsOtherState(m: Store, principal: string)
    ensures var r := ClearSweetStepsSession(m);
            && Get(r, DailyInputs.CachedMountainKey) == Get(m, DailyInputs.CachedMountainKey)
            && Get(r, LocalDisplayName.NameKey(principal)) == Get(m, LocalDisplayName.NameKey(principal))
            && Get(r, LocalDisplayName.SkipKey(principal)) == Get(m, LocalDisplayName.SkipKey(principal))
  {
    assert LocalDisplayName.NameKey(principal)[11] == 'd';
    assert LocalDisplayName.SkipKey(principal)[11] == 's';
  }

  /** After a reset a returning user with a profile is routed to the weekly mountain, never the sweet summit. */
  lemma ResetSkipsSweetSummit(m: Store, profile: Profile)
    requires profile != ProfileNull
    ensures RouteFrom(profile, ClearSweetStepsSession(m)) == WeeklyMountainPath
  {
  }
}

=== FILE: signup_page.dfy ===
/**
 * The Signup page's attempt machine: like Login, but without an access check. A validated
 * identity with an actor moves straight to `redirecting` and navigates to onboarding. Effects
 * are explicit events that may run in any order.
 */
module SignupPage {
  import opened Common
  import Identity
  import opened AuthPages
  import AG = AttemptGuard

  /** The phase type has no `checking-access`. */
  datatype Phase = Idle | Connecting | Validating | Redirecting | Error

  const OnboardingPath := "/onboarding"

  datatype Page = Page(
    env: Env,
    phase: Phase,
    validated: bool,
    guard: AG.Guard,
    loginCalls: nat,
    clearCalls: nat,
    navigations: seq<string>)

  function Initial(env: Env): Page {
    Page(env, Idle, false, AG.Initial, 0, 0, [])
  }

  function StaleEffect(p: Page): (r: Page)
    ensures r.clearCalls == p.clearCalls + 1 <==>
              p.phase == Idle && p.env.identity.Some? && !Identity.IsIdentityValid(p.env.identity)
    ensures r.clearCalls != p.clearCalls + 1 ==> r == p
    ensures r.(clearCalls := p.clearCalls) == p
  {
    if ShouldClearStale(p.env.identity, p.phase == Idle) then p.(clearCalls := p.clearCalls + 1) else p
  }

  function ValidationEffect(p: Page): (r: Page)
    ensures r.(validated := p.validated) == p
    ensures p.env.identity.None? ==> !r.validated
    ensures p.phase in {Idle, Validating} ==> (r.validated <==> Identity.IsIdentityValid(p.env.identity))
    ensures p.phase !in {Idle, Validating} && p.env.identity.Some? ==> r.validated == p.validated
  {
    Identity.ValidityTrichotomy(p.env.identity);
    p.(validated := Validate(p.env.identity, p.validated, p.phase in {Idle, Validating}))
  }

  /** The redirect effect: enter `redirecting` and navigate, unless already redirecting. */
  function RedirectEffect(p: Page): (r: Page)
    ensures !(p.validated && p.env.identity.Some? && p.env.hasActor) || p.phase == Redirecting ==> r == p
    ensures p.validated && p.env.identity.Some? && p.env.hasActor && p.phase != Redirecting ==>
              r == p.(phase := Redirecting, navigations := p.navigations + [OnboardingPath])
  {
    if !(p.validated && p.env.identity.Some? && p.env.hasActor) then p
    else if p.phase == Redirecting then p
    else p.(phase := Redirecting, navigations := p.navigations + [OnboardingPath])
  }

  function StatusEffect(p: Page): (r: Page)
    ensures p.env.loginStatus == Identity.LoginError ==> r == p.(phase := Error, guard := AG.EndAttempt(p.guard))
    ensures p.env.loginStatus == Identity.Success && p.phase == Connecting ==> r == p.(phase := Validating)
    ensures p.env.loginStatus != Identity.LoginError && !(p.env.loginStatus == Identity.Success && p.phase == Connecting) ==> r == p
  {
    if p.env.loginStatus == Identity.LoggingIn && p.phase == Connecting then p
    else if p.env.loginStatus == Identity.Success && p.phase == Connecting then p.(phase := Validating)
    else if p.env.loginStatus == Identity.LoginError then p.(phase := Error, guard := AG.EndAttempt(p.guard))
    else p
  }

  /** `handleSignup` at clock `now`. */
  function HandleSignup(p: Page, now: int): (r: Page)
    ensures p.guard.isAttempting ==> r == p
    ensures !p.guard.isAttempting ==>
              && r.phase == Connecting && !r.validated
              && r.guard == AG.Guard(true, Some(now))
              && r.loginCalls == p.loginCalls + 1
              && r.navigations == p.navigations && r.clearCalls == p.clearCalls
  {
    var (g, accepted) := AG.StartAttempt(p.guard, now);
    if !accepted then p
    else p.(guard := g, validated := false, phase := Connecting, loginCalls := p.loginCalls + 1)
  }

  const DefaultLabel := "Sign up with Internet Identity"

  function ButtonLabel(ph: Phase): (r: string)
    ensures r == DefaultLabel <==> ph in {Idle, Error}
  {
    match ph
    case Connecting => "Connecting..."
    case Validating => "Validating..."
    case Redirecting => "Redirecting..."
    case _ => DefaultLabel
  }

  datatype Event =
    | EnvChanged(env: Env)
    | Click(now: int)
    | RunStaleEffect
    | RunValidationEffect
    | RunRedirectEffect
    | RunStatusEffect

  function Step(p: Page, e: Event): Page {
    match e
    case EnvChanged(env) => p.(env := env)
    case Click(now) => HandleSignup(p, now)
    case RunStaleEffect => StaleEffect(p)
    case RunValidationEffect => ValidationEffect(p)
    case RunRedirectEffect => RedirectEffect(p)
    case RunStatusEffect => StatusEffect(p)
  }

  function Run(p: Page, es: seq<Event>): Page
    decreases |es|
  {
    if es == [] then p else Run(Step(p, es[0]), es[1..])
  }

  /** Reachable pages: consistent guard, attempt active while connecting or validating, only onboarding navigations. */
  predicate Inv(p: Page) {
    && AG.Inv(p.guard)
    && (p.phase in {Connecting, Validating} ==> p.guard.isAttempting)
    && (p.phase == Redirecting ==> |p.navigations| > 0)
    && (forall i :: 0 <= i < |p.navigations| ==> p.navigations[i] == OnboardingPath)
  }

  lemma StepKeepsInv(p: Page, e: Event)
    requires Inv(p)
    ensures Inv(Step(p, e))
  {
    var r := Step(p, e);
    if e.RunRedirectEffect? {
      forall i | 0 <= i < |r.navigations| ensures r.navigations[i] == OnboardingPath {
        if i < |p.navigations| {
          assert r.navigations[i] == p.navigations[i];
        }
      }
    }
  }

  lemma {:induction false} RunKeepsInv(p: Page, es: seq<Event>)
    requires Inv(p)
    ensures Inv(Run(p, es))
    decreases |es|
  {
    if es != [] {
      StepKeepsInv(p, es[0]);
      RunKeepsInv(Step(p, es[0]), es[1..]);
    }
  }

  /** From a fresh page, every navigation Signup makes goes to onboarding. */
  lemma {:induction false} OnlyToOnboarding(env: Env, es: seq<Event>, i: nat)
    requires i < |Run(Initial(env), es).navigations|
    ensures Run(Initial(env), es).navigations[i] == OnboardingPath
  {
    RunKeepsInv(Initial(env), es);
  }

  /**
   * A step adds a navigation only by entering `redirecting` from another phase, so the page
   * navigates once per stay in `redirecting`.
   */
  lemma NavigatesOnlyOnEntry(p: Page, e: Event)
    ensures |Step(p, e).navigations| != |p.navigations| ==>
              && |Step(p, e).navigations| == |p.navigations| + 1
              && p.phase != Redirecting && Step(p, e).phase == Redirecting
  {
  }

  /** Leaving `redirecting` takes a login error or a newly accepted click. */
  lemma LeavingRedirecting(p: Page, e: Event)
    requires p.phase == Redirecting && Step(p, e).phase != Redirecting
    ensures (e.RunStatusEffect? && p.env.loginStatus == Identity.LoginError)
            || (e.Click? && !p.guard.isAttempting)
  {
  }
}

=== FILE: signup_test.dfy ===
/**
 * `SignupTest`: the backup signup page. Two effects send a signed-in user to onboarding and the
 * button reflects the hook's status. The click handler only awaits `login()` and logs any
 * rejection, so it changes no page state and lets nothing escape; it has no member here.
 */
module SignupTestPage {
  import opened Common
  import Identity

  const OnboardingPath := "/onboarding"

  /** The first effect: an identity, an actor and a successful login. */
  function RedirectOnSuccess(hasIdentity: bool, hasActor: bool, status: Identity.Status): (r: Option<string>)
    ensures r.Some? <==> hasIdentity && hasActor && status == Identity.Success
    ensures r.Some? ==> r.value == OnboardingPath
  {
    if hasIdentity && hasActor && status == Identity.Success then Some(OnboardingPath) else None
  }

  /** The second effect: an identity and an actor once initialisation is over. */
  function RedirectWhenReady(hasIdentity: bool, hasActor: bool, isInitializing: bool): (r: Option<string>)
    ensures r.Some? <==> hasIdentity && hasActor && !isInitializing
    ensures r.Some? ==> r.value == OnboardingPath
  {
    if hasIdentity && hasActor && !isInitializing then Some(OnboardingPath) else None
  }

  /** `disabled={isConnecting}`. */
  predicate ButtonDisabled(isInitializing: bool, status: Identity.Status) {
    isInitializing || status == Identity.LoggingIn
  }

  const DefaultLabel := "Sign up with Internet Identity"

  /** The button text: logging in first, then initialising, then the default. */
  function ButtonLabel(isInitializing: bool, status: Identity.Status): (r: string)
    ensures status == Identity.LoggingIn ==> r == "Connecting to Internet Identity..."
    ensures status != Identity.LoggingIn && isInitializing ==> r == "Initializing..."
    ensures r == DefaultLabel <==> !ButtonDisabled(isInitializing, status)
  {
    if status == Identity.LoggingIn then "Connecting to Internet Identity..."
    else if isInitializing then "Initializing..."
    else DefaultLabel
  }

  /** Both effects lead to the same place, and a successful login implies the first one fires. */
  lemma EffectsAgree(hasIdentity: bool, hasActor: bool, status: Identity.Status, init: bool)
    ensures RedirectOnSuccess(hasIdentity, hasActor, status).Some? && RedirectWhenReady(hasIdentity, hasActor, init).Some? ==>
              RedirectOnSuccess(hasIdentity, hasActor, status) == RedirectWhenReady(hasIdentity, hasActor, init)
    ensures !hasIdentity || !hasActor ==>
              RedirectOnSuccess(hasIdentity, hasActor, status).None? && RedirectWhenReady(hasIdentity, hasActor, init).None?
  {
  }
}

=== FILE: stabilization.dfy ===
/**
 * `useAuthStabilization`: after initialisation completes, one 100 ms timer flips
 * `isAuthStabilized` to true. The effect depends on `isInitializing` only.
 */
module AuthStabilization {
  import opened Common
  import opened Identity

  const StabilizationMs: nat := 100

  datatype State = State(isInitializing: bool, identity: Option<Ident>, isStabilized: bool, deadline: Option<int>)

  /** What the hook returns: exactly these four fields. */
  datatype Output = Output(isAuthStabilized: bool, isAuthenticated: bool, identity: Option<Ident>, isInitializing: bool)

  /** The effect body, run with the previous timer already cancelled. */
  function Effect(init: bool, identity: Option<Ident>, stabilized: bool, now: int): (r: State)
    ensures r.isInitializing == init && r.identity == identity
    ensures init ==> !r.isStabilized && r.deadline.None?
    ensures !init ==> r.isStabilized == stabilized && r.deadline == Some(now + StabilizationMs)
  {
    if init then State(init, identity, false, None)
    else State(init, identity, stabilized, Some(now + StabilizationMs))
  }

  function Mount(init: bool, identity: Option<Ident>, now: int): State {
    Effect(init, identity, false, now)
  }

  /** A render with new inputs; only a change of `isInitializing` re-runs the effect. */
  function Rerender(s: State, init: bool, identity: Option<Ident>, now: int): (r: State)
    ensures init == s.isInitializing ==>
              r.isStabilized == s.isStabilized && r.deadline == s.deadline && r.identity == identity
    ensures init != s.isInitializing ==> r == Effect(init, identity, s.isStabilized, now)
  {
    if init == s.isInitializing then s.(identity := identity)
    else Effect(init, identity, s.isStabilized, now)
  }

  /** Clock reaches `now`: a due timer stabilises the signal. */
  function Tick(s: State, now: int): (r: State)
    ensures s.deadline.Some? && now >= s.deadline.value ==> r.isStabilized && r.deadline.None?
    ensures s.deadline.None? || now < s.deadline.value ==> r == s
  {
    if s.deadline.Some? && now >= s.deadline.value then s.(isStabilized := true, deadline := None) else s
  }

  /** The hook's return value. */
  function View(s: State): (o: Output)
    ensures o.isAuthenticated <==> s.identity.Some?
    ensures o.isAuthStabilized == s.isStabilized && o.identity == s.identity
    ensures o.isInitializing == s.isInitializing
  {
    Output(s.isStabilized, s.identity.Some?, s.identity, s.isInitializing)
  }

  /** Reachable states: never stabilised while initialising, and a pending timer means not yet stabilised. */
  predicate Inv(s: State) {
    && (s.isInitializing ==> !s.isStabilized && s.deadline.None?)
    && (s.deadline.Some? ==> !s.isStabilized)
  }

  datatype Event = Render(init: bool, identity: Option<Ident>, now: int) | Clock(now: int)

  function Step(s: State, e: Event): State {
    match e
    case Render(init, id, now) => Rerender(s, init, id, now)
    case Clock(now) => Tick(s, now)
  }

  function Run(s: State, es: seq<Event>): State
    decreases |es|
  {
    if es == [] then s else Run(Step(s, es[0]), es[1..])
  }

  lemma {:induction false} RunKeepsInv(s: State, es: seq<Event>)
    requires Inv(s)
    ensures Inv(Run(s, es))
    decreases |es|
  {
    if es != [] {
      RunKeepsInv(Step(s, es[0]), es[1..]);
    }
  }

  /** While initialising, the hook never reports a stabilised signal, whatever happened before. */
  lemma {:induction false} NotStabilizedWhileInitializing(init: bool, id: Option<Ident>, now: int, es: seq<Event>)
    ensures var s := Run(Mount(init, id, now), es);
            s.isInitializing ==> !View(s).isAuthStabilized
  {
    RunKeepsInv(Mount(init, id, now), es);
  }

  /** Initialisation completes at `t`; with no further change of `isInitializing`, 100 ms later the signal is stable. */
  lemma StabilizesAfterWindow(s: State, id: Option<Ident>, t: int)
    requires Inv(s) && s.isInitializing
    ensures !Tick(Rerender(s, false, id, t), t + StabilizationMs - 1).isStabilized
    ensures Tick(Rerender(s, false, id, t), t + StabilizationMs).isStabilized
  {
  }

  /** Identity changes alone neither re-arm the timer nor touch stabilisation. */
  lemma IdentityChangeIsInert(s: State, id: Option<Ident>, now: int)
    ensures Rerender(s, s.isInitializing, id, now) == s.(identity := id)
  {
  }
}

=== FILE: stalled_auth.dfy ===
/**
 * `useStalledAuthDetection`: decides whether to show the popup-help panel. One effect over
 * (attempt timestamp, login status, identity) either hides the panel at once or arms a single
 * 3000 ms timer whose callback shows the panel if the attempt is still logging in.
 */
module StalledAuth {
  import opened Common
  import opened Identity

  const StalledTimeoutMs: nat := 3000

  /** The effect's dependency list. */
  datatype Deps = Deps(timestamp: Option<int>, status: Status, identity: Option<Ident>)

  /** A pending `setTimeout`: when it fires and the values its closure captured. */
  datatype Timer = Timer(deadline: int, status: Status, hasIdentity: bool)

  datatype State = State(deps: Deps, showHelp: bool, timer: Option<Timer>)

  /** Terminal signals that hide the panel at once (source lines 21-24). */
  predicate Resolved(d: Deps) {
    d.identity.Some? || d.status == LoginError || d.status == Success
  }

  /** One run of the effect body at clock `now`, from a state whose timer was already cancelled. */
  function Effect(showHelp: bool, d: Deps, now: int): (r: State)
    ensures r.deps == d
    ensures Resolved(d) ==> !r.showHelp && r.timer.None?
    ensures !Resolved(d) && !TruthyTime(d.timestamp) ==> !r.showHelp && r.timer.None?
    ensures !Resolved(d) && TruthyTime(d.timestamp) ==>
              r.showHelp == showHelp
              && r.timer == Some(Timer(now + StalledTimeoutMs, d.status, d.identity.Some?))
  {
    if Resolved(d) then State(d, false, None)
    else if !TruthyTime(d.timestamp) then State(d, false, None)
    else State(d, showHelp, Some(Timer(now + StalledTimeoutMs, d.status, d.identity.Some?)))
  }

  /** First render: `useState(false)` then the effect. */
  function Mount(d: Deps, now: int): State {
    Effect(false, d, now)
  }

  /** A re-render: if any dependency changed, the cleanup cancels the timer and the effect runs again. */
  function Rerender(s: State, d: Deps, now: int): (r: State)
    ensures d == s.deps ==> r == s
    ensures d != s.deps ==> r == Effect(s.showHelp, d, now)
  {
    if d == s.deps then s else Effect(s.showHelp, d, now)
  }

  /** The clock reaches `now`; a pending timer whose deadline has passed fires. */
  function Tick(s: State, now: int): (r: State)
    ensures r.deps == s.deps
    ensures s.timer.None? || now < s.timer.value.deadline ==> r == s
    ensures r.showHelp && !s.showHelp ==>
              s.timer.Some? && now >= s.timer.value.deadline
              && s.timer.value.status == LoggingIn && !s.timer.value.hasIdentity
    ensures s.timer.Some? && now >= s.timer.value.deadline ==>
              && r.timer.None?
              && (r.showHelp <==> s.showHelp || (s.timer.value.status == LoggingIn && !s.timer.value.hasIdentity))
  {
    match s.timer
    case None => s
    case Some(t) =>
      if now < t.deadline then s
      else State(s.deps, s.showHelp || (t.status == LoggingIn && !t.hasIdentity), None)
  }

  /**
   * What every reachable state satisfies: a timer is pending, and the panel is up, only for an
   * unresolved attempt that has a timestamp, and a pending timer captured the current dependencies.
   */
  predicate Inv(s: State) {
    && (s.timer.Some? ==> && s.timer.value.status == s.deps.status
                          && s.timer.value.hasIdentity == s.deps.identity.Some?
                          && !Resolved(s.deps) && TruthyTime(s.deps.timestamp))
    && (s.showHelp ==> !Resolved(s.deps) && TruthyTime(s.deps.timestamp))
  }

  datatype Event = Render(deps: Deps, now: int) | Clock(now: int)

  function Step(s: State, e: Event): State {
    match e
    case Render(d, now) => Rerender(s, d, now)
    case Clock(now) => Tick(s, now)
  }

  function Run(s: State, es: seq<Event>): State
    decreases |es|
  {
    if es == [] then s else Run(Step(s, es[0]), es[1..])
  }

  lemma StepKeepsInv(s: State, e: Event)
    requires Inv(s)
    ensures Inv(Step(s, e))
  {
  }

  /** From mount on, every sequence of renders and clock ticks keeps `Inv`. */
  lemma {:induction false} RunKeepsInv(s: State, es: seq<Event>)
    requires Inv(s)
    ensures Inv(Run(s, es))
    decreases |es|
  {
    if es != [] {
      StepKeepsInv(s, es[0]);
      RunKeepsInv(Step(s, es[0]), es[1..]);
    }
  }

  /** The help panel is never shown while an identity is present, after any history. */
  lemma {:induction false} NoHelpWithIdentity(d: Deps, now: int, es: seq<Event>)
    ensures var s := Run(Mount(d, now), es);
            s.deps.identity.Some? ==> !s.showHelp
  {
    RunKeepsInv(Mount(d, now), es);
  }

  /**
   * Moving to another unresolved status (say 'idle') while the attempt still has a timestamp
   * keeps a panel that is already shown: only the branches for resolved or timestamp-less
   * dependencies hide it.
   */
  lemma HelpSurvivesNonTerminalChange(s: State, d: Deps, now: int)
    requires s.showHelp
    requires !Resolved(d) && TruthyTime(d.timestamp)
    ensures Rerender(s, d, now).showHelp
  {
  }

  /** Scenario: an attempt still logging in with no identity shows help exactly when 3000 ms have passed. */
  lemma StallShownAfterTimeout(ts: int, start: int)
    requires ts != 0
    ensures var d := Deps(Some(ts), LoggingIn, None);
            var s := Mount(d, start);
            !Tick(s, start + StalledTimeoutMs - 1).showHelp
            && Tick(s, start + StalledTimeoutMs).showHelp
  {
  }
}

=== FILE: task_modal.dfy ===
/**
 * `TaskModal`: a count-down timer for one daily task. Each user action is an event that can
 * only happen when its control is on screen; the one-second interval is a `Tick` event that
 * fires only while the countdown effect has an interval running.
 */
module TaskModal {
  import opened JsText

  datatype TimerState = Idle | Running | Paused | Finished

  /** The callbacks handed in by the parent, in the order they were called. */
  datatype Callback = Completed | Closed

  datatype Modal = Modal(isOpen: bool, estimatedMinutes: int, selectedMinutes: int,
                         remainingSeconds: int, timer: TimerState, calls: seq<Callback>)

  /** `Math.min(Math.max(estimatedMinutes, 5), 60)`. */
  function ClampMinutes(m: int): (r: int)
    ensures 5 <= r <= 60
    ensures 5 <= m <= 60 ==> r == m
    ensures m < 5 ==> r == 5
    ensures m > 60 ==> r == 60
  {
    if m < 5 then 5 else if m > 60 then 60 else m
  }

  /** `resetTimer`. */
  function ResetTimer(m: Modal): (r: Modal)
    ensures r.timer == Idle && r.remainingSeconds == 0 && r.selectedMinutes == ClampMinutes(m.estimatedMinutes)
    ensures r.isOpen == m.isOpen && r.calls == m.calls && r.estimatedMinutes == m.estimatedMinutes
  {
    m.(timer := Idle, remainingSeconds := 0, selectedMinutes := ClampMinutes(m.estimatedMinutes))
  }

  /**
   * A parent render with props `isOpen` and `estimated`. The reset effect runs only when `isOpen`
   * changed, and the clamping effect only when `isOpen` or the estimate changed; each does its
   * work only on its own branch of `isOpen`.
   */
  function Props(m: Modal, isOpen: bool, estimated: int): (r: Modal)
    ensures isOpen == m.isOpen && estimated == m.estimatedMinutes ==> r == m
    ensures isOpen && (!m.isOpen || estimated != m.estimatedMinutes) ==>
              r == m.(isOpen := true, estimatedMinutes := estimated, selectedMinutes := ClampMinutes(estimated))
    ensures !isOpen && m.isOpen ==> r == ResetTimer(m.(isOpen := false, estimatedMinutes := estimated))
    ensures !isOpen && !m.isOpen ==> r == m.(estimatedMinutes := estimated)
  {
    var m1 := m.(isOpen := isOpen, estimatedMinutes := estimated);
    var m2 := if isOpen != m.isOpen && !isOpen then ResetTimer(m1) else m1;
    if (isOpen != m.isOpen || estimated != m.estimatedMinutes) && isOpen then m2.(selectedMinutes := ClampMinutes(estimated))
    else m2
  }

  /** First render: `selectedMinutes` starts unclamped, then both effects run once. */
  function Mount(isOpen: bool, estimated: int): (r: Modal)
    ensures r.timer == Idle && r.remainingSeconds == 0 && r.calls == []
    ensures r.selectedMinutes == ClampMinutes(estimated)
  {
    var m0 := Modal(isOpen, estimated, estimated, 0, Idle, []);
    if isOpen then m0.(selectedMinutes := ClampMinutes(estimated)) else ResetTimer(m0)
  }

  /** `handleStartTimer`. */
  function Start(m: Modal): (r: Modal)
    ensures r.timer == Running && r.remainingSeconds == m.selectedMinutes * 60
  {
    m.(remainingSeconds := m.selectedMinutes * 60, timer := Running)
  }

  /** One interval callback: the last second finishes the countdown. */
  function Tick(m: Modal): (r: Modal)
    ensures m.remainingSeconds <= 1 ==> r.remainingSeconds == 0 && r.timer == Finished
    ensures m.remainingSeconds > 1 ==> r.remainingSeconds == m.remainingSeconds - 1 && r.timer == m.timer
  {
    if m.remainingSeconds <= 1 then m.(remainingSeconds := 0, timer := Finished)
    else m.(remainingSeconds := m.remainingSeconds - 1)
  }

  /** The slider's stops: 5 to 60 in steps of 5. */
  predicate SliderStop(v: int) {
    5 <= v <= 60 && v % 5 == 0
  }

  datatype Event =
    | SetProps(isOpen: bool, estimated: int)
    | Slide(value: int)
    | StartClick | PauseClick | ResumeClick | CancelClick | YesClick | NoClick | CloseClick
    | Second

  /** Whether the event can happen in this state: its control is rendered, or the interval is running. */
  predicate Possible(m: Modal, e: Event) {
    match e
    case SetProps(_, _) => true
    case Second => m.timer == Running && m.remainingSeconds > 0
    case _ =>
      m.isOpen &&
      match e
      case Slide(v) => m.timer == Idle && SliderStop(v)
      case StartClick => m.timer == Idle
      case PauseClick => m.timer == Running
      case ResumeClick => m.timer == Paused
      case CancelClick => m.timer == Running || m.timer == Paused
      case YesClick => m.timer == Finished
      case NoClick => m.timer == Finished
      case CloseClick => true
      case _ => false
  }

  /** The handlers. */
  function Handle(m: Modal, e: Event): Modal {
    match e
    case SetProps(o, est) => Props(m, o, est)
    case Slide(v) => m.(selectedMinutes := v)
    case StartClick => Start(m)
    case PauseClick => m.(timer := Paused)
    case ResumeClick => m.(timer := Running)
    case CancelClick => ResetTimer(m)
    case YesClick => m.(calls := m.calls + [Completed, Closed])
    case NoClick => ResetTimer(m)
    case CloseClick => ResetTimer(m).(calls := m.calls + [Closed])
    case Second => Tick(m)
  }

  function Step(m: Modal, e: Event): (r: Modal)
    ensures !Possible(m, e) ==> r == m
  {
    if Possible(m, e) then Handle(m, e) else m
  }

  function Run(m: Modal, es: seq<Event>): Modal
    decreases |es|
  {
    if es == [] then m else Run(Step(m, es[0]), es[1..])
  }

  /**
   * Reachable modals: the selection is within the slider's range; the countdown is positive
   * exactly while running or paused and zero otherwise.
   */
  predicate Inv(m: Modal) {
    && 5 <= m.selectedMinutes <= 60
    && (m.timer == Running || m.timer == Paused <==> m.remainingSeconds > 0)
    && m.remainingSeconds >= 0
  }

  lemma MountInv(isOpen: bool, estimated: int)
    ensures Inv(Mount(isOpen, estimated))
  {
  }

  lemma {:induction false} RunKeepsInv(m: Modal, es: seq<Event>)
    requires Inv(m)
    ensures Inv(Run(m, es))
    decreases |es|
  {
    if es != [] {
      RunKeepsInv(Step(m, es[0]), es[1..]);
    }
  }

  /** A parent re-render with the same props keeps the user's slider choice. */
  lemma SamePropsKeepSelection(m: Modal, v: int)
    requires m.isOpen && m.timer == Idle && SliderStop(v)
    ensures Step(Step(m, Slide(v)), SetProps(true, m.estimatedMinutes)).selectedMinutes == v
  {
  }

  /** Pausing and resuming never change the remaining time. */
  lemma PauseResumeKeepTime(m: Modal)
    requires m.isOpen && m.timer == Running
    ensures Step(Step(m, PauseClick), ResumeClick) == m
  {
  }

  /** A started countdown of `n` minutes finishes after exactly `60 n` ticks. */
  lemma {:induction false} CountdownLength(m: Modal, k: nat)
    requires m.timer == Running && m.remainingSeconds == k + 1
    ensures Run(m, Seconds(k)).timer == Running && Run(m, Seconds(k)).remainingSeconds == 1
    ensures Step(Run(m, Seconds(k)), Second).timer == Finished
    decreases k
  {
    if k > 0 {
      assert Seconds(k)[1..] == Seconds(k - 1);
      CountdownLength(Tick(m), k - 1);
    }
  }

  function Seconds(k: nat): (r: seq<Event>)
    ensures |r| == k && forall i :: 0 <= i < k ==> r[i] == Second
  {
    if k == 0 then [] else [Second] + Seconds(k - 1)
  }

  /** 'Yes' reports completion and then asks the parent to close, and touches nothing else. */
  lemma YesCompletesThenCloses(m: Modal)
    requires m.isOpen && m.timer == Finished
    ensures Step(m, YesClick) == m.(calls := m.calls + [Completed, Closed])
  {
  }

  /** `pad2`: `padStart(2, '0')`, which never truncates. */
  function Pad2(s: string): (r: string)
    ensures |s| >= 2 ==> r == s
    ensures |s| < 2 ==> |r| == 2 && r[2 - |s|..] == s
    ensures |r| >= 2
    ensures (forall i :: 0 <= i < |s| ==> '0' <= s[i] <= '9') ==> forall i :: 0 <= i < |r| ==> '0' <= r[i] <= '9'
    decreases 2 - |s|
  {
    if |s| >= 2 then s else Pad2("0" + s)
  }

  /** `formatTime`: minutes and seconds, each padded to two digits. */
  function FormatTime(seconds: nat): (r: string)
    ensures |r| >= 5 && r[|r| - 3] == ':'
    ensures forall i :: 0 <= i < |r| && i != |r| - 3 ==> '0' <= r[i] <= '9'
  {
    TimeShape(Field(seconds / 60), Field(seconds % 60));
    Field(seconds / 60) + ":" + Field(seconds % 60)
  }

  /** One padded field of `formatTime`: a numeral of at least two digits that reads back as `n`. */
  function Field(n: nat): (r: string)
    ensures |r| >= 2 && (n < 100 ==> |r| == 2)
    ensures forall i :: 0 <= i < |r| ==> '0' <= r[i] <= '9'
  {
    ShortNumeral(n);
    Pad2(NatToString(n))
  }

  /** A padded field reads back as the number it shows. */
  lemma FieldValue(n: nat)
    ensures ParseDigits(Field(n)) == n
  {
    PadKeepsValue(n);
  }

  /** Numbers below 100 print with at most two digits. */
  lemma ShortNumeral(n: nat)
    ensures n < 100 ==> |NatToString(n)| <= 2
  {
    if 10 <= n < 100 {
      assert NatToString(n) == NatToString(n / 10) + [DigitChar(n % 10)];
    }
  }

  /** Reads a formatted time back as seconds. */
  function ParseTime(t: string): nat
    requires |t| >= 5 && forall i :: 0 <= i < |t| && i != |t| - 3 ==> '0' <= t[i] <= '9'
  {
    ParseDigits(t[..|t| - 3]) * 60 + ParseDigits(t[|t| - 2..])
  }

  /** A leading zero does not change a numeral's value. */
  lemma {:induction false} LeadingZero(s: string)
    requires forall i :: 0 <= i < |s| ==> '0' <= s[i] <= '9'
    ensures ParseDigits("0" + s) == ParseDigits(s)
    decreases |s|
  {
    if s != [] {
      assert ("0" + s)[..|"0" + s| - 1] == "0" + s[..|s| - 1];
      LeadingZero(s[..|s| - 1]);
    }
  }

  /** A one-digit numeral gets exactly one leading zero. */
  lemma PadOneChar(s: string)
    requires |s| == 1
    ensures Pad2(s) == "0" + s
  {
    assert |"0" + s| == 2;
  }

  lemma PadKeepsValue(n: nat)
    ensures var p := Pad2(NatToString(n));
            (forall i :: 0 <= i < |p| ==> '0' <= p[i] <= '9') && ParseDigits(p) == n
  {
    var s := NatToString(n);
    ParseNatToString(n);
    if |s| >= 2 {
      assert Pad2(s) == s;
    } else {
      PadOneChar(s);
      LeadingZero(s);
      var z := "0" + s;
      assert Pad2(s) == z;
      assert ParseDigits(z) == n;
    }
  }

  /** `formatTime` loses nothing: the text reads back as the same number of seconds. */
  lemma FormatTimeRoundTrip(seconds: nat)
    ensures ParseTime(FormatTime(seconds)) == seconds
  {
    var m, s := seconds / 60, seconds % 60;
    FieldValue(m);
    FieldValue(s);
    SplitTime(Field(m), Field(s));
    assert FormatTime(seconds) == Field(m) + ":" + Field(s);
  }

  /** Reading `a:b` back, for digit strings `a` (at least two long) and `b` (exactly two long). */
  lemma SplitTime(a: string, b: string)
    requires |a| >= 2 && |b| == 2
    requires forall i :: 0 <= i < |a| ==> '0' <= a[i] <= '9'
    requires forall i :: 0 <= i < |b| ==> '0' <= b[i] <= '9'
    ensures var t := a + ":" + b;
            |t| >= 5 && (forall i :: 0 <= i < |t| && i != |t| - 3 ==> '0' <= t[i] <= '9')
            && ParseTime(t) == ParseDigits(a) * 60 + ParseDigits(b)
  {
    TimeParts(a, b);
    TimeShape(a, b);
  }

  /** The minutes and seconds fields of `a:b` are `a` and `b` again. */
  lemma TimeParts(a: string, b: string)
    requires |b| == 2
    ensures var t := a + ":" + b;
            |t| == |a| + 3 && t[..|t| - 3] == a && t[|t| - 2..] == b
  {
    var t := a + ":" + b;
    assert t[..|t| - 3] == a;
    assert t[|t| - 2..] == b;
  }

  /** Joining a digit string of two or more characters and one of exactly two with a colon. */
  lemma TimeShape(a: string, b: string)
    requires |a| >= 2 && |b| == 2
    requires forall i :: 0 <= i < |a| ==> '0' <= a[i] <= '9'
    requires forall i :: 0 <= i < |b| ==> '0' <= b[i] <= '9'
    ensures var t := a + ":" + b;
            |t| >= 5 && t[|t| - 3] == ':' && forall i :: 0 <= i < |t| && i != |t| - 3 ==> '0' <= t[i] <= '9'
  {
    var t := a + ":" + b;
    forall i | 0 <= i < |t| && i != |t| - 3 ensures '0' <= t[i] <= '9' {
      if i < |a| {
        assert t[i] == a[i];
      } else {
        assert t[i] == b[i - |a| - 1];
      }
    }
  }

  /** An hour-long countdown starts at '60:00': the minutes field is not capped at two digits' worth of an hour. */
  lemma HourShowsSixtyMinutes()
    ensures FormatTime(3600) == "60:00"
  {
    assert 3600 / 60 == 60 && 3600 % 60 == 0;
    assert NatToString(6) == "6";
    assert NatToString(60) == "60" by {
      assert 60 / 10 == 6 && 60 % 10 == 0;
      assert NatToString(60) == NatToString(6) + [DigitChar(0)];
    }
    assert NatToString(0) == "0";
    assert Pad2("60") == "60";
    assert Pad2("0") == "00" by {
      assert Pad2("0") == Pad2("00");
    }
    assert Field(60) == "60" && Field(0) == "00";
  }

}
